=== FILE: README.md ===
# Helpdesk-ticket dashboard: a Dafny model of its data pipeline

The repository feeds a helpdesk dashboard from a spreadsheet of support tickets
("chamados"). Every variant does the same four steps:

1. Normalise the column headers.
2. Coerce the known columns: dates, the satisfaction score and the resolution time.
3. Aggregate the data: status buckets, the mean resolution time, per-technician
   and per-category counts, and a truncated ticket table.
4. Pick short insight texts.

There are six variants:

- the Google Sheets calculator;
- the Supabase calculator;
- the Drive-to-Supabase sync job;
- the TypeScript edge function that syncs the sheet;
- the serverless endpoint that counts raw records;
- the `DataProcessor` utilities.

Two browser dashboards filter, paginate and chart the result. A demonstration
script validates a fixed report.

The variants are close copies of one another, but they differ in observable
ways. Each variant is therefore its own Dafny function over shared helpers.

| module (file) | models |
|---|---|
| `Text` (text.dfy) | lowercase, strip, `includes`, first-occurrence replace, `str.title()`, on ASCII plus the Latin-1 letters À..Þ and à..þ (see "## Left out" for ß, ÿ, µ, ª and º) |
| `Cells` (cells.dfy) | the cell value (missing, text, number, timestamp), `to_numeric`, `parseFloat`; library services such as `to_datetime` and number formatting become fields of a `Runtime` parameter |
| `Frames` (frame.dfy) | a pandas frame as labels plus rows; column read, `apply`, new column, relabel |
| `Frequency` (frequency.dfy) | count dictionaries, `value_counts`, the stable descending sort with top-N, `max(..., key=)`, mean, median |
| `Headers` (headers.dfy) | the column-name normalisers (NFKD and NFD variants) and the alias rename loop |
| `Reports` (report.dfy) | status buckets, the satisfaction scale, the mean resolution time, table entries, insight texts, the report record |
| `GoogleSheets` (googlesheets.dfy) | api/google_sheets.py |
| `SupabaseClient` (supabase.dfy) | api/supabase_client.py |
| `SyncDrive` (syncdrive.dfy) | api/sync_drive_to_supabase.py |
| `EdgeSync` (edgesync.dfy) | supabase/functions/sync-drive-data/index.ts |
| `DataProcessor` (dataprocessor.dfy) | utils/data_processor.py |
| `IndexApi` (indexapi.dfy) | the counting block of api/index.py |
| `Dashboard` (dashboard.dfy) | frontend/js/dashboard.js: filter, pagination state machine, badge, stars |
| `DashboardV2` (dashboardv2.dfy) | frontend/js/dashboard-v2.js: palette, top-N charts, trends, theme |
| `Demo` (demo.dfy) | demo.py: structure check and the demonstration report |

The calls the model does not interpret are the `Runtime` parameter. They are
`to_datetime`, one-decimal formatting, `str()` of a number or a timestamp,
`isoformat()` and JavaScript's number-to-string. Every property is proved for
any behaviour of these calls.

## Model

| member | source | states |
|---|---|---|
| Text.Lower | api/supabase_client.py:129 | lowercasing keeps the length and lowercases each character independently |
| Text.LowerIdempotent | api/supabase_client.py:129 | lowercasing twice is lowercasing once |
| Text.Strip | utils/data_processor.py:28 | the stripped text has no blank at either end, a blank being what the convention in use counts: pandas' six ASCII blanks, or Python's or JavaScript's Unicode white space |
| Text.StripNoBlank | utils/data_processor.py:28 | a text without blanks is its own strip |
| Text.StripKeeps | utils/data_processor.py:28 | stripping only removes characters |
| Text.StripPadded | utils/data_processor.py:28 | blanks of the convention in use (the no-break space included for Python and JavaScript) around a text with non-blank ends are exactly what strip removes |
| Text.LowerStrip | api/supabase_client.py:76 | `lower().strip()` yields a text with no capital and no blank of the convention in use at either end |
| Text.LowerStripFixed | api/supabase_client.py:76 | a lowercase text with non-blank ends, under the convention in use, is its own `lower().strip()` |
| Text.LowerStripIdempotent | api/supabase_client.py:76 | applying `lower().strip()` twice equals applying it once |
| Text.Includes | frontend/js/dashboard.js:412 | `includes` is true exactly when the substring occurs at some position |
| Text.ReplaceFirst | frontend/js/dashboard.js:444 | a string-pattern `replace` changes only the first occurrence, keeps the length and leaves a text without the character unchanged |
| Text.TitleFrom | utils/data_processor.py:75 | `title()` raises a letter after a non-letter, lowers a letter after a letter, and leaves non-letters alone |
| Text.LowerOfTitle | utils/data_processor.py:75 | title-casing only changes case: lowercasing undoes it |
| Text.NanFixed | api/supabase_client.py:129 | the text "nan" of a missing status is unchanged by `lower()` and `strip()` |
| Text.DigitsValueOfNatText | frontend/js/dashboard.js:461 | the decimal text of a number reads back as that number |
| Cells.ToDatetime | api/google_sheets.py:248-252 | `to_datetime(errors='coerce')` keeps a missing value missing and a timestamp as it is |
| Cells.ParseNumber | api/google_sheets.py:262 | `to_numeric(errors='coerce')` of a text blank by pandas' ASCII blanks is missing, and a text that gives a number starts, once stripped, with a decimal: an optional sign, then digits or a point and a digit |
| Cells.ToNumeric | api/google_sheets.py:262 | a number coerces to itself; a missing value or a timestamp does not coerce; a text coerces only when its stripped form starts with a decimal, and never when it is blank |
| Cells.ParseNumberOfNatText | api/google_sheets.py:262 | `to_numeric` reads a number's decimal text back as that number |
| Cells.ParseNumberOfDigits | api/google_sheets.py:262 | any run of digits, leading zeros included, reads as its decimal value |
| Cells.ParseNumberScientific | api/google_sheets.py:262 | digits followed by an exponent part such as "e2" or "E-3" read as the digits' value scaled by that power of ten |
| Cells.ParseNumberNoBreakSpace | api/google_sheets.py:262 | digits followed by a no-break space are no number, because pandas skips only ASCII blanks |
| Cells.ParseFloatPrefix | supabase/functions/sync-drive-data/index.ts:136 | `parseFloat` finds a number exactly when the text after its leading JavaScript white space starts with a decimal |
| Cells.ParseFloatOfNatText | supabase/functions/sync-drive-data/index.ts:136 | `parseFloat` reads a number's decimal text back when whatever follows it is not a digit, a point or an exponent letter |
| Cells.ParseFloatScientific | supabase/functions/sync-drive-data/index.ts:136 | digits followed by an exponent part read as the digits' value scaled by that power of ten, whatever text follows |
| Frames.LabelIndex | api/google_sheets.py:228 | the position found holds the label and is the first such position; nothing is found exactly when the label is absent |
| Frames.Column | api/google_sheets.py:298 | `df[name]` exists exactly when the label does, and has one cell per row, taken from the first column with that label |
| Frames.Get | api/google_sheets.py:325-329 | `row.get(name, default)` is the row's cell when the column exists, and the default otherwise |
| Frames.MapColumn | api/google_sheets.py:261 | `df[c] = df[c].apply(fn)` replaces each cell of that column by its image; every other column is unchanged; without the column the frame is unchanged |
| Frames.AppendColumn | api/google_sheets.py:272 | assigning a new label adds it as the last column holding the given values; every existing column reads as before |
| Frames.Relabel | api/supabase_client.py:76 | relabelling maps each label and leaves the rows alone |
| Frames.Numbers | api/google_sheets.py:298 | `dropna()` of a numeric column keeps exactly its numbers, each as many times as it occurs |
| Frames.NumbersAppend | api/google_sheets.py:298 | `dropna()` keeps the column order: dropping from two blocks is dropping from each and concatenating |
| Frames.PresentCells | api/google_sheets.py:312 | `value_counts()` counts exactly the present cells, each as many times as it occurs |
| Frames.PresentCellsAppend | api/google_sheets.py:312 | the present cells of two blocks are those of each, concatenated in order |
| Frequency.Bump | api/index.py:119-120 | `d[k] = d.get(k, 0) + 1` keeps every key in place and appends a new key with count 1 |
| Frequency.BumpLookup | api/index.py:120 | after a bump, the count of `k` rises by one and every other count stays |
| Frequency.TallyCounts | api/index.py:117-120 | the counting loop yields distinct keys, exactly the values seen, each with its number of occurrences, all counts add up to the number of values |
| Frequency.Mean | api/google_sheets.py:298 | the mean is missing only for no values, and otherwise times the count gives the sum |
| Frequency.MeanBounds | api/google_sheets.py:298 | the mean lies between the least and the greatest value |
| Frequency.Present | api/supabase_client.py:145 | `dropna()` keeps exactly the present values, each as many times as it occurs |
| Frequency.PresentAppend | api/supabase_client.py:145 | the present values of two blocks are those of each, concatenated in order |
| Frequency.SortDescCorrect | frontend/js/dashboard-v2.js:298 | the sort is non-increasing by key, a permutation, and keeps entries with equal keys in their original order |
| Frequency.TopN | frontend/js/dashboard-v2.js:296-299 | sort then `slice(0, n)` keeps `min(n, len)` entries, ordered, drawn from the input, and no dropped entry outranks a kept one |
| Frequency.Take | api/index.py:145 | `s[:n]` is the prefix of length `min(n, len)` |
| Frequency.FirstMax | api/google_sheets.py:373 | `max(items, key=count)` picks an entry no count exceeds, and no earlier entry ties it |
| Frequency.ValueCounts | api/google_sheets.py:312 | `value_counts()` is the tally reordered with the most frequent first |
| Frequency.ValueCountsCounts | api/google_sheets.py:312 | each `value_counts()` count is the number of occurrences of its key, which occurs in the column |
| Frequency.FirstMaxMostFrequent | api/google_sheets.py:373 | in any order of the tally, the first maximal entry is a value no other value outnumbers, with its true count |
| Frequency.MaxShare | api/google_sheets.py:381 | the largest count is at least an even share of the total and at most all of it |
| Frequency.Median | api/sync_drive_to_supabase.py:95 | the median is missing only for no values |
| Frequency.MedianAbove | api/sync_drive_to_supabase.py:95 | the median exceeds `t` when more than half the values do, and only when at least half do |
| Frequency.TotalPermutation | frontend/js/dashboard-v2.js:780 | reordering a table keeps its total |
| Headers.SlugShape | api/google_sheets.py:422-424 | the slug step yields only `[a-z0-9_]`, with no `_` at either end and no doubled `_` |
| Headers.SlugOfSlug | api/google_sheets.py:422-424 | the slug step leaves a text already in that shape unchanged |
| Headers.NormalizeColumnName | api/google_sheets.py:411-425 | the Python normaliser (NFKD, strip, lower, slug) always yields the normalised shape |
| Headers.NormalizeIdempotent | api/google_sheets.py:411-425 | normalising a normalised header changes nothing |
| Headers.NormalizeSlugFixed | api/sync_drive_to_supabase.py:29-38 | a header already in normalised shape is its own normal form |
| Headers.NormalizeColumnNameNfd | supabase/functions/sync-drive-data/index.ts:26-33 | the edge normaliser (lower, NFD, mark removal, slug) always yields the normalised shape |
| Headers.NormalizeNfdIdempotent | supabase/functions/sync-drive-data/index.ts:26-33 | normalising twice with the edge normaliser is normalising once |
| Headers.OrdinalIndicatorDiffers | supabase/functions/sync-drive-data/index.ts:29-30 | the two normalisers disagree on "Nº": NFKD gives "no", NFD gives "n" |
| Headers.FirstPresent | api/google_sheets.py:227-230 | the alias chosen is present and listed, and none is chosen exactly when no alias is present |
| Headers.RenameAll | api/google_sheets.py:229 | `rename(columns={a: b})` relabels every column named `a` and no other |
| Headers.RenameColumnsResolves | api/google_sheets.py:226-230 | on a non-interfering table, the rename loop relabels each field's first present alias to the field's name and leaves every other column as it is |
| Headers.ResolveOfFirst | api/google_sheets.py:226-230 | the first present alias of a field resolves to that field's canonical name |
| Headers.ResolveForeign | api/google_sheets.py:226-230 | a name that is no alias of any field keeps its name |
| Headers.SheetAliasesNonInterfering | api/google_sheets.py:197-223 | the spreadsheet's alias table is non-interfering |
| Headers.SyncAliasesNonInterfering | api/sync_drive_to_supabase.py:47-60 | the sync job's twelve-field alias table is non-interfering |
| Reports.StatusBucketsDisjoint | api/google_sheets.py:289-290 | no status text is both open and closed, in either variant's buckets |
| Reports.CountStatus | api/google_sheets.py:289 | the `isin` count is at most the row count, and positive exactly when some cell holds a bucket text |
| Reports.DisjointBucketsBounded | api/supabase_client.py:130-131 | two disjoint buckets together count no more rows than there are |
| Reports.SatisfactionLabel | api/google_sheets.py:257-260 | the eight labels map to 1, 2, 3, 3, 4, 5, 5, 5; every other key has no score |
| Reports.SheetSatisfaction | api/google_sheets.py:261-262 | a padded label in any case scores 1..5, other text is numeric-coerced, a number is kept, and nothing is clamped |
| Reports.SatisfactionLabelNormalised | api/google_sheets.py:261 | surrounding blanks and capitals do not change a label's score |
| Reports.SatisfactionNotClamped | api/google_sheets.py:262 | the text "7" scores 7, outside the 1..5 scale |
| Reports.SatisfactionGuardIrrelevant | api/supabase_client.py:107 | the `notna` guard of the Supabase and sync variants changes no result |
| Reports.DateDiffHours | api/google_sheets.py:304 | a row has an hour difference exactly when both of its dates are timestamps |
| Reports.MeanResolutionHours | api/google_sheets.py:296-307 | the mean uses `tempo_resolucao` when that column exists, otherwise the hour differences of rows with both dates |
| Reports.MeanResolutionAvailable | api/google_sheets.py:296-307 | a mean is reported exactly when some value exists to average; with neither source it is "N/A" |
| Reports.ColumnCounts | api/google_sheets.py:310-319 | a column's count table lists present values of the column, most frequent first, and is empty without the column |
| Reports.ColumnCountsTotal | api/google_sheets.py:312 | a column's counts add up to its number of present cells |
| Reports.ColumnCountsTop | api/google_sheets.py:373 | the entry `max` picks from a column table is a present value no other value outnumbers, with its number of rows |
| Reports.CategoryInsightDefined | api/google_sheets.py:381 | the category share never divides by zero on a column table |
| Reports.EntryOf | api/google_sheets.py:324-330 | a table entry has exactly five fields, each the row's cell, or "N/A" when the column is absent |
| Reports.FailureReport | api/supabase_client.py:190-208 | the failure report keeps the row count, zeroes the counts, empties the tables and has three "Dados insuficientes" insights |
| Reports.Percent | api/google_sheets.py:381 | the share times the whole is the part times 100 |
| Reports.TopShare | api/google_sheets.py:379-382 | the category share is missing exactly for an empty or zero-total table; otherwise it lies in (0, 100] and is at least an even split |
| Reports.TopTechnicianText | api/google_sheets.py:372-374 | the technician insight names a technician no other outnumbers, with that technician's row count |
| Reports.ToneOf | api/google_sheets.py:390-395 | the mean selects the pleased message iff it is at least 4.0, the improvable one iff it is in [3.0, 4.0), the alarming one iff it is below 3.0 |
| Reports.ToneMonotone | api/google_sheets.py:390-395 | a higher mean never selects a worse message |
| Reports.SatisfactionMean | api/google_sheets.py:387-388 | the satisfaction mean is missing without the column, and otherwise is the mean of its numbers |
| GoogleSheets.NormalizedLabels | api/google_sheets.py:193 | every label after normalisation is in normalised shape |
| GoogleSheets.RenameWith | api/google_sheets.py:193-230 | normalisation followed by the rename loop relabels each column as alias resolution says, rows untouched |
| GoogleSheets.SheetHeaders | api/google_sheets.py:193-230 | headers under the corrected alias table (finding 1), as resolution says |
| GoogleSheets.CoerceCommon | api/google_sheets.py:248-262 | the two dates become timestamps or missing, satisfaction becomes numbers or missing, every other column is untouched |
| GoogleSheets.ConvertDuration | api/google_sheets.py:265-272 | `tempo_resolucao` is numeric-coerced when present; otherwise a `tma_minutos` column yields a new `tempo_resolucao` of its value over 60 |
| GoogleSheets.ConvertTypes | api/google_sheets.py:244-278 | after conversion the dates are timestamps and the measures numbers, and the duration follows the rule above |
| GoogleSheets.SheetTable | api/google_sheets.py:322-330 | the table has `min(n, 50)` entries in row order, with ids read from `id_chamado` |
| GoogleSheets.SheetInsights | api/google_sheets.py:366-409 | the three insights follow their rules; the error triple appears exactly when the category division fails |
| GoogleSheets.SheetMetrics | api/google_sheets.py:280-364 | the total is the row count; open plus closed never exceeds it; without a status column open is total div 3 and closed the rest; a failing `.str` accessor yields the failure report, and so does a nonempty status column with every cell blank, which pandas reads as floats |
| GoogleSheets.SheetStatusCounts | api/google_sheets.py:287-290 | open and closed count rows whose lowercased, stripped status lies in each bucket (without `concluído`) |
| GoogleSheets.SheetTableRows | api/google_sheets.py:322-330 | each table entry carries its row's id, fields and normalised status |
| GoogleSheets.SheetTopTechnician | api/google_sheets.py:372-374 | the technician insight names a technician no other outnumbers |
| GoogleSheets.SheetInsightsNoError | api/google_sheets.py:401-407 | the insight error path is unreachable from the metrics |
| GoogleSheets.SheetReport | api/google_sheets.py:181-242 | the calculator's report counts every row and never lists more than 50 |
| GoogleSheets.SheetReportAsWritten | api/google_sheets.py:181-242 | the calculator with the alias table as written also counts every row |
| GoogleSheets.MinutesShadowed | api/google_sheets.py:218 | when `tma_minutos` is an alias of the duration, no renamed header set has `tma_minutos` without `tempo_resolucao` |
| GoogleSheets.MinutesBranchDead | api/google_sheets.py:265-272 | as written, the derivation from minutes never runs, because the renaming at line 218 leaves no minutes column |
| GoogleSheets.MinutesReadAsHours | api/google_sheets.py:297-300 | as written, a sheet whose only duration is 120 minutes averages 120 hours, because the renaming at line 218 files minutes as hours |
| GoogleSheets.MinutesBecomeHours | api/google_sheets.py:268-272 | with the corrected table, a sheet whose only duration column is minutes gets hours derived from it |
| GoogleSheets.MinutesReadAsMinutes | api/google_sheets.py:268-272 | with the corrected table, 120 minutes average as 2 hours |
| SupabaseClient.SupabaseHeaders | api/supabase_client.py:76 | each label is lowercased and stripped; no accent folding or renaming |
| SupabaseClient.SupabaseConvert | api/supabase_client.py:90-119 | the four date columns become timestamps or missing, satisfaction and duration become numbers or missing, and every other column is unchanged |
| SupabaseClient.RowOrder | api/supabase_client.py:163 | `sort_values(..., ascending=False)` yields one row position per row, each in range |
| SupabaseClient.RowOrderSorted | api/supabase_client.py:163 | dated rows come first, newest first, with ties in row order; rows without a date follow in row order |
| SupabaseClient.SupabaseTableNewestFirst | api/supabase_client.py:163 | the table order is a permutation of the rows; it is the row order without a date column, and newest first with one |
| SupabaseClient.SupabaseTableKeepsNewest | api/supabase_client.py:163-165 | a row left out of the first 100 is never newer than a row kept |
| SupabaseClient.RowId | api/supabase_client.py:167 | the id is `id_chamado`, else `id`, else "N/A" |
| SupabaseClient.SupabaseTable | api/supabase_client.py:161-172 | the table has `min(n, 100)` entries in the sorted order |
| SupabaseClient.MissingStatusUncounted | api/supabase_client.py:129-131 | a missing status reads "nan" and is counted in neither bucket |
| SupabaseClient.SupabaseStatusCounts | api/supabase_client.py:128-131 | open and closed count rows whose stringified, lowercased, stripped status lies in each bucket (with `concluído`) |
| SupabaseClient.SupabaseMetrics | api/supabase_client.py:121-208 | the total is the row count; without a status column open is 0 and closed is the total; the source is "Supabase"; a repeated status label yields the failure report |
| SupabaseClient.SupabaseInsights | api/supabase_client.py:210-253 | the three insights follow their rules; every field is "Erro na análise" exactly when the category division fails |
| SupabaseClient.SupabaseInsightsNoError | api/supabase_client.py:245-251 | the insight error path is unreachable from the metrics |
| SupabaseClient.SupabaseTopTechnician | api/supabase_client.py:216-218 | the technician insight names a technician no other outnumbers |
| SupabaseClient.SupabaseTableRows | api/supabase_client.py:165-172 | each table entry carries its sorted row's id, fields and normalised status |
| SupabaseClient.SupabaseReport | api/supabase_client.py:64-88 | the report counts every row, names Supabase as its source and lists at most 100 rows |
| SyncDrive.SyncHeaders | api/sync_drive_to_supabase.py:41-69 | `map_columns` normalises then relabels each column as twelve-field alias resolution says |
| SyncDrive.SyncExtendsSheet | api/sync_drive_to_supabase.py:47-60 | outside the four added fields' aliases, the sync job renames exactly as the spreadsheet calculator does |
| SyncDrive.MinutesRule | api/sync_drive_to_supabase.py:95-97 | when the median exceeds 100 every value is divided by 60, otherwise the column is unchanged |
| SyncDrive.MinutesRuleMajority | api/sync_drive_to_supabase.py:95 | a column without numbers is never converted; more than half above 100 forces conversion; conversion needs at least half above 100 |
| SyncDrive.MinutesRuleUniform | api/sync_drive_to_supabase.py:95-97 | the rule converts all values or none |
| SyncDrive.SyncConvert | api/sync_drive_to_supabase.py:72-99 | dates become timestamps or missing, satisfaction and duration numbers or missing, the median rule applies to the duration, other columns unchanged |
| SyncDrive.CleanValue | api/sync_drive_to_supabase.py:110-116 | missing becomes None, a timestamp its ISO text, text and numbers stay |
| SyncDrive.CleanValueIdempotent | api/sync_drive_to_supabase.py:110-116 | cleaning a cleaned value changes nothing |
| SyncDrive.CleanRecord | api/sync_drive_to_supabase.py:110-116 | cleaning a record keeps its keys and cleans every value |
| SyncDrive.SyncRecords | api/sync_drive_to_supabase.py:107-116 | one cleaned record per row, in row order |
| SyncDrive.SyncRecordsClean | api/sync_drive_to_supabase.py:107-116 | each record key is a column label and each value the cleaned cell |
| EdgeSync.FieldOf | supabase/functions/sync-drive-data/index.ts:43-69 | the first matching branch of the `else if` chain names one of the known fields |
| EdgeSync.MapColumns | supabase/functions/sync-drive-data/index.ts:36-73 | a field is mapped exactly when some header is taken for it, and to the last such header |
| EdgeSync.TrimmedText | supabase/functions/sync-drive-data/index.ts:147-153 | `?.toString().trim() \|\| null` is null for absent values and for texts blank under JavaScript's `trim` (the no-break space and the other Unicode spaces included), and otherwise the trimmed text |
| EdgeSync.TrimmedTextIdempotent | supabase/functions/sync-drive-data/index.ts:147-153 | trimming a trimmed text gives it back |
| EdgeSync.ParseFloat | supabase/functions/sync-drive-data/index.ts:136 | a number parses to itself; an absent value is NaN; a text parses exactly when, after its leading white space, it starts with a decimal |
| EdgeSync.EdgeTempo | supabase/functions/sync-drive-data/index.ts:134-141 | a parsed value above 100 is divided by 60, any other is kept, and NaN gives null |
| EdgeSync.ScientificMinutes | supabase/functions/sync-drive-data/index.ts:134-141 | the text "1.5e2" is read as 150 minutes, so 2.5 hours |
| EdgeSync.EdgeFrt | supabase/functions/sync-drive-data/index.ts:155-157 | `parseFloat(v) \|\| null` is null for NaN and for zero, and otherwise the value |
| EdgeSync.EdgeSatisfactionLabel | supabase/functions/sync-drive-data/index.ts:81-92 | the ten labels map into 1..5, with `péssimo`, `pessimo` and `ruim` at 1 |
| EdgeSync.ConvertSatisfacao | supabase/functions/sync-drive-data/index.ts:76-95 | a number passes through; falsy input is null; text scores exactly when its trimmed lowercase is a label |
| EdgeSync.NumericSatisfactionDiffers | supabase/functions/sync-drive-data/index.ts:94 | the text "4" gives null here while the Python variants score it 4 |
| EdgeSync.ParseDate | supabase/functions/sync-drive-data/index.ts:98-125 | a date is found exactly for a `DD/MM/YYYY` or `YYYY-MM-DD` prefix; the first is reordered from the same digits, the second returned whole |
| EdgeSync.ParseDateIdempotent | supabase/functions/sync-drive-data/index.ts:98-125 | a parsed date parses to itself |
| EdgeSync.ParseDateNoRangeCheck | supabase/functions/sync-drive-data/index.ts:104-113 | "99/99/0000" becomes "0000-99-99": there is no calendar check |
| EdgeSync.ProcessRow | supabase/functions/sync-drive-data/index.ts:128-162 | a row is dropped exactly when its id is absent or blank; a kept row has a trimmed id, year-first dates, no zero `frt_minutos`, and no duration or score from an unmapped column |
| EdgeSync.NoBreakSpaceIdSkipped | supabase/functions/sync-drive-data/index.ts:128-130 | an id cell holding only a no-break space trims to nothing, so the row is dropped |
| EdgeSync.KeptRows | supabase/functions/sync-drive-data/index.ts:232-239 | the loop keeps exactly the rows processing accepts, and keeps all exactly when none is dropped |
| EdgeSync.KeptRowsAppend | supabase/functions/sync-drive-data/index.ts:232-239 | the kept rows follow sheet order |
| EdgeSync.HeaderTexts | supabase/functions/sync-drive-data/index.ts:226-227 | the header row is usable exactly when every header is text |
| EdgeSync.SyncSheet | supabase/functions/sync-drive-data/index.ts:215-263 | an empty sheet is reported as such; the sync fails exactly when a header cell is not text; otherwise `synced` is the number of kept data rows, which never exceeds the rows below the header |
| EdgeSync.MinutesRulesDiffer | supabase/functions/sync-drive-data/index.ts:139 | the per-value rule keeps 50 where the sync job's median rule turns it into 50/60 |
| DataProcessor.ReplaceNull | utils/data_processor.py:34 | the five null spellings become None and every other cell stays |
| DataProcessor.CleanText | utils/data_processor.py:26-34 | a cleaned text cell is missing exactly when its text stripped of Python white space is a null spelling, and otherwise is that stripped text |
| DataProcessor.CleanTextIdempotent | utils/data_processor.py:26-34 | cleaning a cleaned cell changes nothing |
| DataProcessor.CleanTextPaddedNull | utils/data_processor.py:28-34 | a null spelling between Python blanks, no-break spaces included, becomes None |
| DataProcessor.CleanTextKeeps | utils/data_processor.py:28-34 | any other word, "None" included, stays as stripped text |
| DataProcessor.DropEmptyRows | utils/data_processor.py:31 | `dropna(how='all')` keeps exactly the rows with a present cell |
| DataProcessor.CleanDataframe | utils/data_processor.py:15-36 | labels are kept, no text cell is a null spelling afterwards, and with a text column no row is dropped |
| DataProcessor.CleanDataframeCells | utils/data_processor.py:26-34 | each cell of a text column ends as its cleaned text |
| DataProcessor.StatusSynonym | utils/data_processor.py:55-73 | every synonym maps to one of the three standard statuses |
| DataProcessor.StandardizeStatusAsWritten | utils/data_processor.py:49-75 | as written, a falsy status is "Indefinido" and anything else is the synonym or the title-case of its normalised text |
| DataProcessor.StandardizeStatusNotIdempotent | utils/data_processor.py:49-52 | as written, a blank status gives "" and "" then gives "Indefinido" |
| DataProcessor.StandardizeStatus | utils/data_processor.py:49-75 | a falsy or blank status is "Indefinido"; a synonym gives its standard status; anything else gives its title-case; the result is never empty |
| DataProcessor.StandardizeStatusAgrees | utils/data_processor.py:49-75 | the corrected function agrees with the original wherever the original does not yield "" |
| DataProcessor.StandardFixed | utils/data_processor.py:55-73 | each standard status standardises to itself |
| DataProcessor.StandardizeStatusIdempotent | utils/data_processor.py:49-75 | a standardised status standardises to itself |
| DataProcessor.ResolutionTime | utils/data_processor.py:95-109 | a duration exists exactly when both dates parse |
| DataProcessor.ResolutionUnitsAgree | utils/data_processor.py:102-109 | hours are seconds/3600, minutes seconds/60, days the floor of seconds/86400, any other unit seconds |
| DataProcessor.LevelIndex | utils/data_processor.py:127-136 | the top level is exactly a score of at least 4.5, the bottom exactly below 2.0 |
| DataProcessor.CategorizeSatisfaction | utils/data_processor.py:122-136 | "Não Avaliado" exactly for a missing score, otherwise the score's level |
| DataProcessor.CategorizeMonotone | utils/data_processor.py:127-136 | a higher score never gets a lower level |
| DataProcessor.ChangePercent | utils/data_processor.py:210 | the change is 0 when the previous average is 0, and otherwise the relative change in percent |
| DataProcessor.Direction | utils/data_processor.py:213 | "crescente" iff above 5, "decrescente" iff below -5, "estável" otherwise |
| DataProcessor.DirectionOfAverages | utils/data_processor.py:206-213 | growth is reported iff the recent average exceeds the previous by more than a twentieth of it, and likewise for decline |
| DataProcessor.DetectTrends | utils/data_processor.py:206-228 | a change and a direction exist iff there are two weeks; the stored change is a whole number of tenths within 0.05 of the relative change, while the direction is read from the unrounded change; the peak and low are weeks of maximal and minimal count, each the first such week as `idxmax` and `idxmin` return it |
| DataProcessor.DirectionBeforeRounding | utils/data_processor.py:210-213 | a change between 5 and 5.05 is stored as 5.0 yet reported as growth, because the direction reads the unrounded value |
| DataProcessor.TwoWeeksGrowth | utils/data_processor.py:206-213 | with two weeks, growth is reported iff the second exceeds the first by more than a tenth |
| DataProcessor.RoundHalfEven | utils/data_processor.py:287 | rounding lands within a half of the value and keeps whole numbers |
| DataProcessor.MissingShare | utils/data_processor.py:253-254 | the missing share is NaN for a frame without rows; otherwise it times the row count is the missing count times 100, and it lies in [0, 100] |
| DataProcessor.StoredShare | utils/data_processor.py:256-259 | the stored percentage is NaN without rows; otherwise it is the share rounded half-even to 2 places: a whole number of hundredths within 0.005 of the share, in [0, 100] |
| DataProcessor.MissingTable | utils/data_processor.py:252-259 | one entry per column, holding its label, its missing count and its stored percentage |
| DataProcessor.ThirdMissingStored | utils/data_processor.py:253-259 | one missing cell in three rows is reported as 33.33 |
| DataProcessor.MissingIssues | utils/data_processor.py:261-263 | only missing-data issues are raised, at most one per column |
| DataProcessor.MissingIssuesExact | utils/data_processor.py:261-263 | a column is flagged exactly when more than 30% of it is missing |
| DataProcessor.RawScore | utils/data_processor.py:283-286 | the score lies in [0, 100] and is at most 90 once there is an issue |
| DataProcessor.ValidateDataQuality | utils/data_processor.py:233-289 | the report fails exactly for no columns or a repeated label; otherwise the score lies in [0, 100], is 0 without rows and at most 90 with an issue, and each column has an entry with its label, missing count and share rounded to 2 places (NaN without rows) |
| DataProcessor.CleanDataScoresFull | utils/data_processor.py:283-287 | data with nothing missing, no duplicate and no bad date scores 100 |
| DataProcessor.TopFive | utils/data_processor.py:317-322 | the five largest counts, ordered, drawn from the table, none dropped outranking one kept |
| DataProcessor.TopFiveStable | utils/data_processor.py:317-322 | the ranking is a prefix of a sort that keeps equal counts in table order |
| DataProcessor.ExportSummary | utils/data_processor.py:303-330 | absent totals default to 0, the mean to "N/A" and the insights to an empty dictionary, present insights are passed through unchanged; the rankings exist exactly when their tables do and are their top five |
| IndexApi.StatusKey | api/index.py:119 | the status key is `str(status).lower()` unstripped, "desconhecido" when the key is absent |
| IndexApi.FieldValues | api/index.py:128-134 | an absent technician or category counts as "N/A" |
| IndexApi.CountTable | api/index.py:126-135 | the count dictionary holds each value of the field once, with the number of records holding it; it is empty iff there are no records |
| IndexApi.BucketSumCounts | api/index.py:122-123 | summing the count dictionary over distinct bucket keys counts the records in the bucket |
| IndexApi.GetChamados | api/index.py:113-153 | the total is the record count; open and closed count their bucket texts and never exceed it; each technician and category table holds every value once, with the number of records holding it, and sums to the total; the table is the first `min(n, 100)` raw records; the mean is "N/A"; the best technician and main category are the first maximum of their tables |
| IndexApi.MostFrequent | api/index.py:147-148 | the insight is the first key, in insertion order, that no other key outnumbers, or "N/A" for an empty table |
| IndexApi.InsightsMostFrequent | api/index.py:147 | the best technician occurs in the records and no value occurs more often |
| IndexApi.PaddedStatusUncounted | api/index.py:119-123 | a status with a leading blank lands in neither bucket |
| IndexApi.NullStatusKey | api/index.py:119 | a null status is counted under "none", not "desconhecido" |
| Dashboard.FieldOf | frontend/js/dashboard.js:416 | the field found has the key, and nothing is found exactly when no field has it |
| Dashboard.ValueText | frontend/js/dashboard.js:412 | `toString()` fails exactly on null, and gives a text value back unchanged |
| Dashboard.SearchHit | frontend/js/dashboard.js:411-413 | `.some` succeeds iff some value matches before any null, and fails iff no value is null and none matches |
| Dashboard.MatchesSearch | frontend/js/dashboard.js:410-413 | an empty search term matches every item |
| Dashboard.MatchesStatus | frontend/js/dashboard.js:415-416 | an empty filter matches; otherwise the test succeeds exactly for a text status and is `includes` on its lowercase |
| Dashboard.Keep | frontend/js/dashboard.js:410-418 | both tests are evaluated; an item is kept iff both succeed and are true |
| Dashboard.FilterRows | frontend/js/dashboard.js:409-419 | the filter succeeds iff every test does, and then keeps exactly the items that pass, in order |
| Dashboard.FilterRowsAppend | frontend/js/dashboard.js:409-419 | filtering two blocks is filtering each and concatenating |
| Dashboard.FilterRowsEmptyTerms | frontend/js/dashboard.js:409-419 | with an empty search and an empty filter every item is kept |
| Dashboard.TotalPages | frontend/js/dashboard.js:474 | `ceil(n/10)` is 0 exactly for no items, and its last page holds the last item |
| Dashboard.PageRows | frontend/js/dashboard.js:432-434 | a page holds at most 10 items, taken from index `(page-1)*10` on, and is empty exactly when that index is past the end |
| Dashboard.Render | frontend/js/dashboard.js:428-490 | the table draws iff every entry of the page has a text status and a rating that does not throw; then the placeholder shows iff the page is empty, Prev is disabled iff page 1, Next iff the last page or no pages, and the label shows the page count, or 1 for none |
| Dashboard.UntextedStatusBlocksPage | frontend/js/dashboard.js:444 | an entry on the page whose status is absent, null or a number makes `toLowerCase` throw, so nothing is drawn |
| Dashboard.NegativeRatingBlocksPage | frontend/js/dashboard.js:445 | an entry on the page with a negative rating makes `repeat` throw, so nothing is drawn |
| Dashboard.PreviousPage | frontend/js/dashboard.js:495-500 | the page drops by one exactly when above 1 |
| Dashboard.NextPage | frontend/js/dashboard.js:505-511 | the page rises by one exactly when below the page count |
| Dashboard.FilterTable | frontend/js/dashboard.js:405-423 | a successful filter resets the page to 1 and installs the filtered list; a throwing filter changes nothing |
| Dashboard.RenderHonest | frontend/js/dashboard.js:436-484 | on a state in range, whenever the page draws, the placeholder shows iff the list is empty, and each button is disabled iff pressing it does nothing |
| Dashboard.PagesCover | frontend/js/dashboard.js:432-434 | item `i` is shown on page `i/10 + 1` at row `i%10`, and that page is in range |
| Dashboard.UpdateTableAsWritten | frontend/js/dashboard.js:397-400 | as written, a refresh replaces the list and keeps the page |
| Dashboard.StalePageAfterRefresh | frontend/js/dashboard.js:397-400 | as written, a refresh to 1..10 items on page 2 or later shows the placeholder although items exist, and Next (its guard at line 484) is enabled but does nothing |
| Dashboard.UpdateTable | frontend/js/dashboard.js:397-400 | the corrected refresh resets the page, stays in range and, whenever it draws, shows the placeholder iff the table is empty |
| Dashboard.RunInRange | frontend/js/dashboard.js:397-511 | any sequence of refreshes, filters and page moves keeps the page in range |
| Dashboard.BadgeClass | frontend/js/dashboard.js:444 | the badge class is "status-" plus the lowercased status with only its first space replaced |
| Dashboard.BadgeKeepsSecondBlank | frontend/js/dashboard.js:444 | a status with two spaces keeps a space in its class |
| Dashboard.ParseInt | frontend/js/dashboard.js:461 | `parseInt` of blank text is NaN |
| Dashboard.ParseIntOfNatText | frontend/js/dashboard.js:461 | `parseInt` reads the leading digits and ignores what follows them |
| Dashboard.ParseIntOfSignedText | frontend/js/dashboard.js:461 | a leading sign is honoured |
| Dashboard.Tone | frontend/js/dashboard.js:465 | success iff at least 4, warning iff exactly 3, error iff below 3 |
| Dashboard.FormatSatisfaction | frontend/js/dashboard.js:456-468 | "N/A", null and absent give N/A; a rating shows that many stars with its tone |
| Dashboard.StarsOfWholeText | frontend/js/dashboard.js:461-467 | a whole number followed by other text (as in "4.5") shows as many stars as the number |
| Dashboard.NegativeRatingThrows | frontend/js/dashboard.js:464 | a negative rating makes `repeat` throw |
| DashboardV2.BaseColors | frontend/js/dashboard-v2.js:741-761 | "rainbow" selects the eight-colour palette and every other name the five blues |
| DashboardV2.GenerateColorPalette | frontend/js/dashboard-v2.js:739-772 | three lists of length `count`; element `i` of each is base colour `i mod len`, with "CC" appended for the fill, nothing for the border and "FF" for hover |
| DashboardV2.PaletteCycles | frontend/js/dashboard-v2.js:764-766 | two positions share a colour iff their distance is a multiple of the palette size |
| DashboardV2.Chart | frontend/js/dashboard-v2.js:296-299 | the chart keeps `min(n, len)` entries, sorted by count, drawn from the table, and no dropped entry outranks a kept one |
| DashboardV2.TechnicianChart | frontend/js/dashboard-v2.js:296-299 | the technician chart keeps at most 10 entries |
| DashboardV2.CategoryChart | frontend/js/dashboard-v2.js:397-400 | the category chart keeps at most 8 entries |
| DashboardV2.ChartHeadline | frontend/js/dashboard-v2.js:775-803 | nothing is written for an empty chart; otherwise the first entry with its share of the shown total, displayed as 0 when every count is 0 (`formatPercent` turns NaN into 0) |
| DashboardV2.HeadlineIsLargest | frontend/js/dashboard-v2.js:775-781 | the headline count is at least every count of the table |
| DashboardV2.HeadlineShareOfShown | frontend/js/dashboard-v2.js:780-781 | with more than 10 positive counts, the share is of the shown entries (the cut to 10 at lines 296-299) and exceeds the share of all tickets |
| DashboardV2.CalculateTrend | frontend/js/dashboard-v2.js:217-227 | up iff the change has the wanted sign; the arrow is ↗ iff up; the value is 0 when the previous value is not positive, and otherwise a whole number of tenths within 0.05 of the absolute change in percent |
| DashboardV2.FixedTenth | frontend/js/dashboard-v2.js:219 | `Math.abs(x.toFixed(1))` is a whole number of tenths, above x - 0.05 and at most x + 0.05 |
| DashboardV2.TrendInversion | frontend/js/dashboard-v2.js:220 | inverting swaps up and down whenever the values differ |
| DashboardV2.TrendElement | frontend/js/dashboard-v2.js:229-238 | the element's class follows the trend, and "+" appears iff the value is positive |
| DashboardV2.FallShowsPlus | frontend/js/dashboard-v2.js:233-236 | a fall of at least 0.05 % shows the down arrow with a "+" |
| DashboardV2.TinyFallShowsNoPlus | frontend/js/dashboard-v2.js:219-236 | a fall below 0.05 % rounds to 0 and shows the down arrow with no sign |
| DashboardV2.CurrentTheme | frontend/js/dashboard-v2.js:893 | a missing or empty theme reads as dark |
| DashboardV2.ToggleTheme | frontend/js/dashboard-v2.js:891-898 | dark goes to light and anything else to dark |
| DashboardV2.ToggleTwice | frontend/js/dashboard-v2.js:891-898 | two toggles from dark or light return to the start |
| DashboardV2.ApplyTheme | frontend/js/dashboard-v2.js:53-56 | the theme applied is never empty; a requested theme wins, then the page's current one; any theme other than dark came from one of the three sources |
| DashboardV2.ThemeLabel | frontend/js/dashboard-v2.js:76-81 | the label is "Escuro" iff the theme is dark |
| Demo.MissingFields | demo.py:60-63 | exactly the required keys that are absent are listed |
| Demo.ValidateDataStructure | demo.py:52-70 | the structure check passes iff all nine required keys are present |
| Demo.ValidationMonotone | demo.py:52-70 | extra keys never fail the check, and dropping a required key always does |
| Demo.DemoDataValid | demo.py:9-70 | the demonstration report passes the structure check |
| Demo.DemoInsightsAgree | demo.py:17-45 | the headline technician and category are the first maximal entries, and Hardware's share rounds to 32.8 |

## Left out

- Network, credentials and storage are not modelled. This covers the HTTP routes, CORS, the response caches and their clock, the Google Sheets and Drive downloads, the Supabase queries and the edge function's upsert. The pipelines start from the frame or rows those calls return.
- Wall-clock fields (`ultima_atualizacao`, `timestamp`) and console output are not modelled.
- The DOM, Chart.js, animations, timers and `localStorage` are not modelled: they are browser effects. The pure steps inside `filterTable`, `renderTable`, `updatePagination` and the chart builders are modelled.
- Unicode normalisation covers ASCII and the Latin-1 letters, plus the few compatibility characters listed in headers.dfy. Full NFKD/NFD tables are out of scope.
- Repeated column labels are partly modelled. Reads use the first column with the label. Only the failures that matter for a status column are modelled: the `.str` accessor error and the Supabase failure report.
- pandas `sort_values` and `value_counts` do not promise a tie order. The model uses a stable order, first appearance first.
- NaN, NaT and None are one `Missing` value.
- Reports.DateDiffHours: a timestamp is whole seconds on one clock with no time zone. pandas keeps nanoseconds, so a sub-second part of a duration is lost here. pandas also carries an optional time zone and raises when a zone-aware timestamp is subtracted from a naive one; that error is not modelled.
- DataProcessor.ResolutionTime: as for Reports.DateDiffHours.
- The pandas dtype of a column is not computed. `clean_dataframe` takes the set of object columns as a parameter.
- Decimal formatting is not modelled except for the `toFixed(1)` figure of the trend: `%.1f`, the other `toFixed` calls, `toLocaleString`, `formatNumber` and `formatPercent`. Texts that embed numbers carry the `Runtime` rendering. `round(x, 2)` and `round(x, 1)` are modelled as half-even rounding on exact decimals, not on binary floats.
- `generate_performance_metrics` is not modelled: it is a pandas groupby.
- The weekly grouping of `detect_trends` (`to_period('W')`) is not modelled. DetectTrends starts from the weekly counts.
- `export_summary` is modelled only for its dictionary contents. The JSON and DataFrame renderings are not.
- `generateInsightStatus`, `generateInsightSatisfacao` and `createChartSatisfacao` are not modelled: they show fixed demonstration data.
- The demo script's file export is not modelled.
- DashboardV2.CalculateTrend: `toFixed(1)` is rounded on the exact percentage, not on its binary double, so a value a hair off a tie may round the other way.
- Text.Lower: case mapping covers ASCII and the Latin-1 letters. Letters of other scripts are left as they are, while Python and JavaScript would lowercase them.
- Frames.AppendColumn: only a label the frame does not have is accepted; pandas would overwrite an existing column in place, a case the source never reaches.
- Text.TitleFrom: only ASCII and the Latin-1 letters À..Þ and à..þ (without × and ÷) count as letters. The Latin-1 letters ß, ÿ, µ, ª and º, and every letter of another script, count as non-letters here, so they are neither cased nor do they lower the letter after them. Python cases them: `"aÿb".title()` is "Aÿb" where the model gives "AÿB", and `"ß".title()` is "Ss", a change of length the model does not make.
- Cells.ParseNumber: the texts pandas reads as infinity ("inf" and "infinity", signed or not, in any case) are no number here. Values are exact decimals, so double rounding and overflow are not modelled.
- Cells.ToNumeric: as for Cells.ParseNumber.
- Cells.ParseFloatPrefix: a text starting with "Infinity" is read as NaN here, while `parseFloat` gives infinity. The edge function's JSON then stores null for both, since `JSON.stringify` writes infinity as null. Values are exact decimals, not doubles.
- Cells.ToDatetime: the parse is a `Runtime` service applied cell by cell. pandas infers one format from the column and coerces every cell against it, so a cell's fate can depend on the other cells; that dependence is not modelled.
- Dashboard.ParseInt: the `0x` hexadecimal prefix is not modelled. "0x1A" reads as 0 here, while `parseInt` without a radix reads it as hexadecimal 26.
- DashboardV2.BaseColors: a palette name that reads an inherited property of the object literal is not modelled; it would return a function, not a palette. An example is "constructor".
- DashboardV2.Chart: the order of integer-like keys in `Object.entries` is not modelled. Entries keep the insertion order of the counts.
- Dashboard.ValueText: boolean and object values of a table entry are not modelled. An entry holds null, text or a number, and its keys are assumed distinct.
- EdgeSync.ConvertSatisfacao: this is the corrected reading, in which only the table's own keys are looked up. The inherited keys are in finding 4.

## Findings

| source | as written | input that shows it | evidently intended | confidence | as-written member | corrected member |
|---|---|---|---|---|---|---|
| api/google_sheets.py:218, 265-272 | `tma_minutos` is an alias of `tempo_resolucao`, so the rename loop turns it into `tempo_resolucao` and the branch that divides minutes by 60 never runs | a sheet whose only duration column is "TMA (minutos)" holding 120 | the mean reports 2.0 hours | not executed | GoogleSheets.MinutesReadAsHours | GoogleSheets.MinutesReadAsMinutes |
| utils/data_processor.py:49-52 | emptiness is checked before stripping, so a blank status standardises to "" | the status "   " gives "", and "" then gives "Indefinido" | blank means undefined, and the function is idempotent | not executed | DataProcessor.StandardizeStatusNotIdempotent | DataProcessor.StandardizeStatusIdempotent |
| frontend/js/dashboard.js:397-400 | a refresh replaces the list but keeps `currentPage` | 25 rows, page 3, then a refresh with 5 rows | the view goes back to page 1 | not executed | Dashboard.StalePageAfterRefresh | Dashboard.RunInRange |
| supabase/functions/sync-drive-data/index.ts:81-94 | `mapping[normalized]` also finds properties that every object literal inherits | the satisfaction text "constructor" | null for any text that is not a label | not executed | EdgeSync.ConstructorIsNoScore | EdgeSync.ConvertSatisfacao |

Notes on the four findings:

1. The input gives a mean of "120.0 horas". With the corrected alias table (`CorrectedSheetAliases`), the minutes column reaches the conversion. `SheetReport` uses the corrected table, and `SheetReportAsWritten` uses the table as written.
2. `StandardizeStatus` tests the stripped text instead. `StandardizeStatusAgrees` shows that the corrected function agrees with the original everywhere else.
3. In the example the pager shows the placeholder row although rows exist. Next stays enabled but does nothing. `UpdateTable` resets the page.
4. The result is the `Object` constructor, where the declared type is a number or null. `ConvertSatisfacaoAsWritten` is the function as written. `AsWrittenAgreesElsewhere` shows the two readings agree on every other input.

=== FILE: cells.dfy ===
/**
 * Cell values as the pipeline sees them, and the numeric coercions the sources
 * apply to them: pandas `to_numeric(errors='coerce')` on one value and
 * JavaScript's `parseFloat`.
 */
module Cells {

  import opened Options
  import opened Text

  /** A point in time, in whole seconds on a common epoch. */
  datatype Timestamp = Timestamp(seconds: int)

  /**
   * One value of a data frame or JSON record. `Missing` stands for pandas' NaN,
   * NaT and Python's None alike (the model does not tell them apart).
   */
  datatype Cell = Missing | Str(s: string) | Num(x: real) | Time(t: Timestamp)

  /**
   * Library services the pipeline calls and this model does not interpret.
   * They are parameters of the model, so every property proved holds for any
   * behaviour of these services.
   */
  datatype Runtime = Runtime(
    /** `pandas.to_datetime(errors='coerce')` on a text or number cell. */
    parseDate: Cell -> Option<Timestamp>,
    /** One-decimal rendering (`f"{x:.1f}"`, `toFixed(1)`). */
    fixed1: real -> string,
    /** Python `str()` of a number. */
    pyNumber: real -> string,
    /** Python `str()` of a timestamp. */
    pyTime: Timestamp -> string,
    /** `Timestamp.isoformat()`. */
    isoFormat: Timestamp -> string,
    /** JavaScript `Number.prototype.toString()`. */
    jsNumber: real -> string)

  /** Python `str(x)` of a cell; a missing value renders as pandas' NaN does. */
  function PyStr(rt: Runtime, c: Cell): string {
    match c
    case Missing => "nan"
    case Str(s) => s
    case Num(x) => rt.pyNumber(x)
    case Time(t) => rt.pyTime(t)
  }

  /** `pandas.to_datetime(errors='coerce')` on one cell: missing stays missing, a timestamp is kept. */
  function ToDatetime(rt: Runtime, c: Cell): (r: Option<Timestamp>)
    ensures c.Missing? ==> r.None?
    ensures c.Time? ==> r == Some(c.t)
  {
    match c
    case Missing => None
    case Time(t) => Some(t)
    case _ => rt.parseDate(c)
  }

  /** Length of the leading run of decimal digits of `s`. */
  function DigitRun(s: string): (n: nat)
    ensures n <= |s|
    ensures forall i :: 0 <= i < n ==> IsDigit(s[i])
    ensures n < |s| ==> !IsDigit(s[n])
  {
    if s != [] && IsDigit(s[0]) then 1 + DigitRun(s[1..]) else 0
  }

  function Pow10(k: nat): (r: nat)
    ensures r >= 1
  {
    if k == 0 then 1 else 10 * Pow10(k - 1)
  }

  /** The value of the digits after a decimal point: `Fraction("25")` is 0.25. */
  function Fraction(d: string): (r: real)
    requires forall i :: 0 <= i < |d| ==> IsDigit(d[i])
    ensures 0.0 <= r < 1.0
  {
    if d == [] then 0.0 else (DigitOf(d[0]) as real + Fraction(d[1..])) / 10.0
  }

  /** `s` starts with a digit, or with a decimal point and a digit. */
  predicate MantissaStart(s: string) {
    (s != [] && IsDigit(s[0])) || (|s| >= 2 && s[0] == '.' && IsDigit(s[1]))
  }

  /** `s` starts with a number: a mantissa, perhaps after one sign. */
  predicate NumberStart(s: string) {
    MantissaStart(s) || (s != [] && (s[0] == '-' || s[0] == '+') && MantissaStart(s[1..]))
  }

  /**
   * The longest prefix of `s` of the shape `digits[.digits]` or `.digits`, with
   * its value and its length. None when `s` starts with neither form.
   */
  /** A number read from the start of a text: its value and how many characters it took. */
  datatype Scanned = Scanned(x: real, len: nat)

  /** An exponent part read from the start of a text: its power of ten and its length. */
  datatype Exponent = Exponent(power: int, len: nat)

  function ScanMantissa(s: string): (r: Option<Scanned>)
    ensures r.Some? <==> MantissaStart(s)
    ensures r.Some? ==> 0 < r.value.len <= |s| && r.value.x >= 0.0
  {
    var ip := DigitRun(s);
    if ip < |s| && s[ip] == '.' then
      var frac := s[ip + 1..];
      var fp := DigitRun(frac);
      if ip == 0 && fp == 0 then None
      else
        Some(Scanned(DigitsValue(s[..ip]) as real + Fraction(frac[..fp]), ip + 1 + fp))
    else if ip == 0 then None
    else Some(Scanned(DigitsValue(s[..ip]) as real, ip))
  }

  /**
   * An exponent part at the start of `s`: `e` or `E`, an optional sign and at
   * least one digit. Its value and length; None when no digit follows.
   */
  function ScanExponent(s: string): (r: Option<Exponent>)
    ensures r.Some? ==> 2 <= r.value.len <= |s| && (s[0] == 'e' || s[0] == 'E')
    ensures r.Some? ==> IsDigit(s[r.value.len - 1])
  {
    if s == [] || (s[0] != 'e' && s[0] != 'E') then None
    else
      var signed := |s| >= 2 && (s[1] == '+' || s[1] == '-');
      var k := if signed then 2 else 1;
      var digits := s[k..];
      var n := DigitRun(digits);
      if n == 0 then None
      else
        var v := DigitsValue(digits[..n]) as int;
        Some(Exponent(if signed && s[1] == '-' then -v else v, k + n))
  }

  /** `m` times ten to the power `e`, one factor of ten at a time. */
  function Scale(m: real, e: int): (r: real)
    ensures m >= 0.0 ==> r >= 0.0
    decreases if e >= 0 then e else -e
  {
    if e == 0 then m
    else if e > 0 then 10.0 * Scale(m, e - 1)
    else Scale(m, e + 1) / 10.0
  }

  /** A non-negative exponent multiplies by that power of ten. */
  lemma {:induction false} ScaleUp(m: real, e: nat)
    ensures Scale(m, e) == m * Pow10(e) as real
  {
    if e > 0 {
      ScaleUp(m, e - 1);
    }
  }

  /** Scaling down and back up by the same power returns the mantissa. */
  lemma {:induction false} ScaleInverse(m: real, e: nat)
    ensures Scale(Scale(m, -(e as int)), e) == m
  {
    if e > 0 {
      var y := Scale(m, -(e as int) + 1);
      assert Scale(m, -(e as int)) == y / 10.0;
      ScaleTenth(y, e - 1);
      ScaleInverse(m, e - 1);
    }
  }

  /** Scaling up commutes with dividing by ten. */
  lemma {:induction false} ScaleTenth(y: real, k: nat)
    ensures Scale(y / 10.0, k) == Scale(y, k) / 10.0
  {
    if k > 0 {
      ScaleTenth(y, k - 1);
    }
  }

  /** A mantissa followed by an exponent part when one can be read. */
  function ScanUnsigned(s: string): (r: Option<Scanned>)
    ensures r.Some? <==> MantissaStart(s)
    ensures r.Some? ==> 0 < r.value.len <= |s| && r.value.x >= 0.0
  {
    match ScanMantissa(s)
    case None => None
    case Some(Scanned(m, n)) =>
      match ScanExponent(s[n..])
      case None => Some(Scanned(m, n))
      case Some(Exponent(e, k)) => Some(Scanned(Scale(m, e), n + k))
  }

  /** As ScanUnsigned, with an optional leading `+` or `-`. */
  function ScanDecimal(s: string): (r: Option<Scanned>)
    ensures r.Some? <==> NumberStart(s)
    ensures r.Some? ==> 0 < r.value.len <= |s|
  {
    if s != [] && (s[0] == '-' || s[0] == '+') then
      match ScanUnsigned(s[1..])
      case None => None
      case Some(Scanned(v, n)) => Some(Scanned(if s[0] == '-' then -v else v, n + 1))
    else ScanUnsigned(s)
  }

  /**
   * pandas `to_numeric(errors='coerce')` on a text value: ASCII blanks around
   * it are allowed, the rest must be one decimal number with an optional
   * exponent, and anything else is missing.
   */
  function ParseNumber(s: string): (r: Option<real>)
    ensures Strip(Ascii, s) == [] ==> r.None?
    ensures r.Some? ==> NumberStart(Strip(Ascii, s))
  {
    var t := Strip(Ascii, s);
    match ScanDecimal(t)
    case Some(Scanned(v, n)) => if n == |t| then Some(v) else None
    case None => None
  }

  /**
   * pandas `to_numeric(errors='coerce')` on one cell: numbers are kept, text
   * is read by ParseNumber and nothing else is a number.
   */
  function ToNumeric(c: Cell): (r: Option<real>)
    ensures c.Num? ==> r == Some(c.x)
    ensures c.Missing? || c.Time? ==> r.None?
    ensures c.Str? && r.Some? ==> NumberStart(Strip(Ascii, c.s))
    ensures c.Str? && Strip(Ascii, c.s) == [] ==> r.None?
  {
    match c
    case Num(x) => Some(x)
    case Str(s) => ParseNumber(s)
    case _ => None
  }

  /**
   * JavaScript `parseFloat` on a text value: leading blanks are skipped and
   * the longest decimal prefix, exponent included, is read; no prefix gives
   * NaN, here None.
   */
  function ParseFloatPrefix(s: string): (r: Option<real>)
    ensures r.Some? <==> NumberStart(TrimStart(JavaScript, s))
  {
    match ScanDecimal(TrimStart(JavaScript, s))
    case Some(Scanned(v, _)) => Some(v)
    case None => None
  }

  /** The decimal text of a natural number reads back as that number. */
  lemma {:induction false} ParseNumberOfNatText(n: nat)
    ensures ParseNumber(NatText(n)) == Some(n as real)
  {
    ParseNumberOfDigits(NatText(n));
    DigitsValueOfNatText(n);
  }

  /** A run of digits is a whole number to `to_numeric`. */
  lemma {:induction false} ParseNumberOfDigits(t: string)
    requires t != [] && forall i :: 0 <= i < |t| ==> IsDigit(t[i])
    ensures ParseNumber(t) == Some(DigitsValue(t) as real)
  {
    StripNoBlank(Ascii, t);
    DigitRunAll(t);
    ScanDigitsThenStop(t, |t|);
    assert t[..|t|] == t;
  }

  lemma {:induction false} DigitRunAll(s: string)
    requires forall i :: 0 <= i < |s| ==> IsDigit(s[i])
    ensures DigitRun(s) == |s|
    decreases |s|
  {
    if s != [] {
      DigitRunAll(s[1..]);
    }
  }

  /**
   * `to_numeric` honours an exponent: a text of `ip` digits followed by an
   * exponent part reads as the digits' value scaled by that power of ten.
   */
  lemma {:induction false} ParseNumberScientific(s: string, ip: nat, e: int)
    requires 0 < ip <= |s| && DigitRun(s) == ip
    requires ScanExponent(s[ip..]) == Some(Exponent(e, |s| - ip))
    ensures ParseNumber(s) == Some(Scale(DigitsValue(s[..ip]) as real, e))
  {
    ScanToEnd(s, ip, e);
    DigitNotBlank(Ascii, s[0]);
    DigitNotBlank(Ascii, s[|s| - 1]);
    StripFixed(Ascii, s);
    ParseNumberWhole(s, Scale(DigitsValue(s[..ip]) as real, e));
  }

  /** Digits and an exponent part that ends the text scan as the whole text, which starts and ends with a digit. */
  lemma {:induction false} ScanToEnd(s: string, ip: nat, e: int)
    requires 0 < ip <= |s| && DigitRun(s) == ip
    requires ScanExponent(s[ip..]) == Some(Exponent(e, |s| - ip))
    ensures IsDigit(s[0]) && IsDigit(s[|s| - 1])
    ensures ScanDecimal(s) == Some(Scanned(Scale(DigitsValue(s[..ip]) as real, e), |s|))
  {
    var x := s[ip..];
    ExponentWhole(x, e);
    assert s[|s| - 1] == x[|x| - 1];
    ScanDigitsExponent(s, ip, s[..ip], x, e, |x|);
  }

  lemma {:induction false} ExponentWhole(x: string, e: int)
    requires ScanExponent(x) == Some(Exponent(e, |x|))
    ensures x != [] && IsDigit(x[|x| - 1])
  {
  }

  /**
   * pandas skips ASCII blanks only: a no-break space after the digits leaves
   * text that is not a number.
   */
  lemma {:induction false} ParseNumberNoBreakSpace(t: string)
    requires t != [] && forall i :: 0 <= i < |t| ==> IsDigit(t[i])
    ensures ParseNumber(t + "\U{A0}") == None
  {
    var s := t + "\U{A0}";
    assert s[0] == t[0] && s[|s| - 1] == '\U{A0}';
    DigitNotBlank(Ascii, s[0]);
    assert !IsBlank(Ascii, '\U{A0}');
    StripFixed(Ascii, s);
    DigitRunStops(t, "\U{A0}");
    assert s[|t|] == '\U{A0}';
    ScanDigitsThenStop(s, |t|);
    ParseNumberPartial(s, DigitsValue(s[..|t|]) as real, |t|);
  }

  lemma DigitNotBlank(w: Blanks, c: char)
    requires IsDigit(c)
    ensures !IsBlank(w, c)
  {
  }

  /** A stripped text that scans as one number in full is that number. */
  lemma {:induction false} ParseNumberWhole(s: string, v: real)
    requires Strip(Ascii, s) == s && ScanDecimal(s) == Some(Scanned(v, |s|))
    ensures ParseNumber(s) == Some(v)
  {
  }

  /** A stripped text with something after its number is no number. */
  lemma {:induction false} ParseNumberPartial(s: string, v: real, n: nat)
    requires Strip(Ascii, s) == s && ScanDecimal(s) == Some(Scanned(v, n)) && n < |s|
    ensures ParseNumber(s) == None
  {
  }

  /** `parseFloat` reads a number's decimal text back even when text follows it. */
  lemma {:induction false} ParseFloatOfNatText(n: nat, rest: string)
    requires rest == [] || (!IsDigit(rest[0]) && rest[0] != '.' && rest[0] != 'e' && rest[0] != 'E')
    ensures ParseFloatPrefix(NatText(n) + rest) == Some(n as real)
  {
    ParseFloatOfDigits(NatText(n), rest);
    DigitsValueOfNatText(n);
  }

  /** `parseFloat` reads a run of digits up to the first character that cannot continue it. */
  lemma {:induction false} ParseFloatOfDigits(t: string, rest: string)
    requires t != [] && forall i :: 0 <= i < |t| ==> IsDigit(t[i])
    requires rest == [] || (!IsDigit(rest[0]) && rest[0] != '.' && rest[0] != 'e' && rest[0] != 'E')
    ensures ParseFloatPrefix(t + rest) == Some(DigitsValue(t) as real)
  {
    var s := t + rest;
    DigitRunStops(t, rest);
    assert |t| < |s| ==> s[|t|] == rest[0];
    ScanDigitsThenStop(s, |t|);
    assert s[..|t|] == t;
    assert s[0] == t[0];
    ParseFloatRead(s, DigitsValue(t) as real, |t|);
  }

  /**
   * `parseFloat` honours an exponent: a text of `ip` digits followed by an
   * exponent part reads as the digits' value scaled by that power of ten,
   * whatever follows.
   */
  lemma {:induction false} ParseFloatScientific(s: string, ip: nat, e: int, k: nat)
    requires 0 < ip <= |s| && DigitRun(s) == ip
    requires ScanExponent(s[ip..]) == Some(Exponent(e, k))
    ensures ParseFloatPrefix(s) == Some(Scale(DigitsValue(s[..ip]) as real, e))
  {
    ScanDigitsExponent(s, ip, s[..ip], s[ip..], e, k);
    DigitNotBlank(JavaScript, s[0]);
    ParseFloatRead(s, Scale(DigitsValue(s[..ip]) as real, e), ip + k);
  }

  /** With no blank to skip, `parseFloat` gives the value of the number its text starts with. */
  lemma {:induction false} ParseFloatRead(s: string, v: real, n: nat)
    requires s != [] && !IsBlank(JavaScript, s[0])
    requires ScanDecimal(s) == Some(Scanned(v, n))
    ensures ParseFloatPrefix(s) == Some(v)
  {
    TrimStartKeeps(JavaScript, s);
  }

  /** A text that starts with a non-blank character is its own TrimStart. */
  lemma {:induction false} TrimStartKeeps(w: Blanks, s: string)
    requires s != [] && !IsBlank(w, s[0])
    ensures TrimStart(w, s) == s
  {
  }

  /** A digit run followed by anything that continues neither a fraction nor an exponent scans as that run alone. */
  lemma {:induction false} ScanDigitsThenStop(s: string, ip: nat)
    requires 0 < ip <= |s| && DigitRun(s) == ip
    requires ip == |s| || (s[ip] != '.' && s[ip] != 'e' && s[ip] != 'E')
    ensures ScanDecimal(s) == Some(Scanned(DigitsValue(s[..ip]) as real, ip))
  {
    MantissaOfDigits(s, ip);
    NoExponent(s[ip..]);
    assert ScanUnsigned(s) == Some(Scanned(DigitsValue(s[..ip]) as real, ip));
    DecimalUnsigned(s);
  }

  lemma {:induction false} ExponentStart(x: string)
    requires ScanExponent(x).Some?
    ensures x != [] && !IsDigit(x[0]) && x[0] != '.'
  {
  }

  lemma {:induction false} ScanDigitsExponent(s: string, ip: nat, t: string, x: string, e: int, k: nat)
    requires 0 < ip <= |s| && DigitRun(s) == ip
    requires s[..ip] == t && s[ip..] == x && ScanExponent(x) == Some(Exponent(e, k))
    ensures ScanDecimal(s) == Some(Scanned(Scale(DigitsValue(t) as real, e), ip + k))
  {
    ExponentStart(x);
    assert s[ip] == x[0];
    MantissaOfDigits(s, ip);
    UnsignedExponent(s, DigitsValue(t) as real, ip, e, k);
    DecimalUnsigned(s);
  }

  lemma {:induction false} MantissaOfDigits(s: string, ip: nat)
    requires 0 < ip <= |s| && DigitRun(s) == ip
    requires ip == |s| || s[ip] != '.'
    ensures ScanMantissa(s) == Some(Scanned(DigitsValue(s[..ip]) as real, ip))
  {
  }

  lemma {:induction false} NoExponent(x: string)
    requires x == [] || (x[0] != 'e' && x[0] != 'E')
    ensures ScanExponent(x).None?
  {
  }

  lemma {:induction false} UnsignedExponent(s: string, m: real, n: nat, e: int, k: nat)
    requires ScanMantissa(s) == Some(Scanned(m, n)) && ScanExponent(s[n..]) == Some(Exponent(e, k))
    ensures ScanUnsigned(s) == Some(Scanned(Scale(m, e), n + k))
  {
  }

  lemma {:induction false} DecimalUnsigned(s: string)
    requires s != [] && s[0] != '-' && s[0] != '+'
    ensures ScanDecimal(s) == ScanUnsigned(s)
  {
  }

  /** `e<b>` followed by a non-digit is an exponent part of value b. */
  lemma {:induction false} ScanExponentOfNat(b: nat, rest: string)
    requires rest == [] || !IsDigit(rest[0])
    ensures ScanExponent("e" + NatText(b) + rest) == Some(Exponent(b, 1 + |NatText(b)|))
  {
    var x := "e" + NatText(b) + rest;
    var digits := x[1..];
    assert digits == NatText(b) + rest;
    assert IsDigit(x[1]);
    DigitRunStops(NatText(b), rest);
    assert digits[..|NatText(b)|] == NatText(b);
    DigitsValueOfNatText(b);
  }

  lemma {:induction false} DigitRunStops(t: string, rest: string)
    requires forall i :: 0 <= i < |t| ==> IsDigit(t[i])
    requires rest == [] || !IsDigit(rest[0])
    ensures DigitRun(t + rest) == |t|
    decreases |t|
  {
    if t != [] {
      assert (t + rest)[1..] == t[1..] + rest;
      DigitRunStops(t[1..], rest);
    } else {
      assert t + rest == rest;
    }
  }
}

=== FILE: dashboard.dfy ===
/**
 * The ticket table of the first dashboard (frontend/js/dashboard.js): the
 * search and status filters, the ten-row pages, the pager buttons and label,
 * the status badge and the star rating. The DOM is reduced to what the page
 * shows; the HTTP calls and charts are outside the model.
 */
module Dashboard {

  import opened Options
  import opened Text
  import opened Cells

  /** A JSON value of one table entry as the page receives it. */
  datatype Json = JsonNull | JsonText(s: string) | JsonNumber(x: real)

  /**
   * One table entry: its keys and values in the order `Object.values` lists
   * them. The server emits each key once.
   */
  datatype Item = Item(fields: seq<(string, Json)>)

  /** `item[key]`, None for `undefined`. */
  function FieldOf(fields: seq<(string, Json)>, key: string): (r: Option<Json>)
    ensures r.Some? <==> exists i :: 0 <= i < |fields| && fields[i].0 == key
    ensures r.Some? ==> exists i :: 0 <= i < |fields| && fields[i] == (key, r.value)
  {
    if fields == [] then None
    else if fields[0].0 == key then Some(fields[0].1)
    else FieldOf(fields[1..], key)
  }

  /** `value.toString()`: None where it throws, on null. */
  function ValueText(rt: Runtime, v: Json): (r: Option<string>)
    ensures r.None? <==> v.JsonNull?
    ensures v.JsonText? ==> r == Some(v.s)
  {
    match v
    case JsonNull => None
    case JsonText(s) => Some(s)
    case JsonNumber(x) => Some(rt.jsNumber(x))
  }

  /** The value's text, lowercased, contains the term. */
  predicate Hit(rt: Runtime, v: Json, term: string) {
    ValueText(rt, v).Some? && Includes(Lower(ValueText(rt, v).value), term)
  }

  /**
   * `values.some(v => v.toString().toLowerCase().includes(term))`: the scan
   * stops at the first hit, so a null after a hit is never touched, and a
   * null before any hit throws (None).
   */
  function SearchHit(rt: Runtime, vs: seq<Json>, term: string): (r: Option<bool>)
    ensures r == Some(true) <==> exists i :: 0 <= i < |vs| && Hit(rt, vs[i], term) &&
                                           (forall j :: 0 <= j < i ==> !vs[j].JsonNull?)
    ensures r == Some(false) <==> forall i :: 0 <= i < |vs| ==> !vs[i].JsonNull? && !Hit(rt, vs[i], term)
    decreases |vs|
  {
    if vs == [] then Some(false)
    else match ValueText(rt, vs[0])
      case None => None
      case Some(t) =>
        if Includes(Lower(t), term) then Some(true)
        else
          var rest := SearchHit(rt, vs[1..], term);
          assert forall i :: 1 <= i < |vs| ==> vs[i] == vs[1..][i - 1];
          rest
  }

  function Values(item: Item): (vs: seq<Json>)
    ensures |vs| == |item.fields|
    ensures forall i :: 0 <= i < |vs| ==> vs[i] == item.fields[i].1
  {
    seq(|item.fields|, i requires 0 <= i < |item.fields| => item.fields[i].1)
  }

  /** The search test: an empty term passes every entry without reading it. */
  function MatchesSearch(rt: Runtime, item: Item, term: string): (r: Option<bool>)
    ensures term == "" ==> r == Some(true)
    ensures term != "" ==> r == SearchHit(rt, Values(item), term)
  {
    if term == "" then Some(true) else SearchHit(rt, Values(item), term)
  }

  /**
   * The status test: `item.status.toLowerCase().includes(filter)`, which
   * throws unless the status is a text.
   */
  function MatchesStatus(item: Item, filter: string): (r: Option<bool>)
    ensures filter == "" ==> r == Some(true)
    ensures filter != "" ==> (r.Some? <==> FieldOf(item.fields, "status").Some? && FieldOf(item.fields, "status").value.JsonText?)
    ensures filter != "" && r.Some? ==> r.value == Includes(Lower(FieldOf(item.fields, "status").value.s), filter)
  {
    if filter == "" then Some(true)
    else match FieldOf(item.fields, "status")
      case Some(JsonText(s)) => Some(Includes(Lower(s), filter))
      case _ => None
  }

  /** Both tests are evaluated before they are combined, so either one throwing throws. */
  function Keep(rt: Runtime, item: Item, term: string, filter: string): (r: Option<bool>)
    ensures r.Some? <==> MatchesSearch(rt, item, term).Some? && MatchesStatus(item, filter).Some?
    ensures r == Some(true) <==> MatchesSearch(rt, item, term) == Some(true) && MatchesStatus(item, filter) == Some(true)
  {
    match (MatchesSearch(rt, item, term), MatchesStatus(item, filter))
    case (Some(a), Some(b)) => Some(a && b)
    case _ => None
  }

  /** `items.filter(keep)` for a test that may throw (None): the first throw ends the pass. */
  function FilterBy<T(!new)>(items: seq<T>, keep: T -> Option<bool>): (r: Option<seq<T>>)
    ensures r.Some? <==> forall i :: 0 <= i < |items| ==> keep(items[i]).Some?
    ensures r.Some? ==> |r.value| <= |items|
    ensures r.Some? ==> forall x :: x in r.value ==> x in items && keep(x) == Some(true)
    ensures r.Some? ==> forall i :: 0 <= i < |items| && keep(items[i]) == Some(true) ==> items[i] in r.value
    decreases |items|
  {
    if items == [] then Some([])
    else
      assert forall i :: 1 <= i < |items| ==> items[i] == items[1..][i - 1];
      match keep(items[0])
      case None => None
      case Some(k) =>
        match FilterBy(items[1..], keep)
        case None => None
        case Some(rest) => Some(if k then [items[0]] + rest else rest)
  }

  /** Filtering keeps the order of the entries: it distributes over concatenation. */
  lemma {:induction false} FilterByAppend<T(!new)>(a: seq<T>, b: seq<T>, keep: T -> Option<bool>)
    requires FilterBy(a, keep).Some? && FilterBy(b, keep).Some?
    ensures FilterBy(a + b, keep) == Some(FilterBy(a, keep).value + FilterBy(b, keep).value)
    decreases |a|
  {
    if a == [] {
      assert a + b == b;
      assert FilterBy(a, keep).value == [];
      assert [] + FilterBy(b, keep).value == FilterBy(b, keep).value;
    } else {
      assert (a + b)[0] == a[0];
      assert (a + b)[1..] == a[1..] + b;
      FilterByAppend(a[1..], b, keep);
      var ra := FilterBy(a[1..], keep).value;
      var rb := FilterBy(b, keep).value;
      if keep(a[0]).value {
        assert [a[0]] + ra + rb == [a[0]] + (ra + rb);
      }
    }
  }

  /** The table filter of `filterTable`, with the search term and status filter already lowercased. */
  function FilterRows(rt: Runtime, items: seq<Item>, term: string, filter: string): (r: Option<seq<Item>>)
    ensures r.Some? <==> forall i :: 0 <= i < |items| ==> Keep(rt, items[i], term, filter).Some?
    ensures r.Some? ==> forall x :: x in r.value <==> x in items && Keep(rt, x, term, filter) == Some(true)
  {
    FilterBy(items, item => Keep(rt, item, term, filter))
  }

  lemma FilterRowsAppend(rt: Runtime, a: seq<Item>, b: seq<Item>, term: string, filter: string)
    requires FilterRows(rt, a, term, filter).Some? && FilterRows(rt, b, term, filter).Some?
    ensures FilterRows(rt, a + b, term, filter) == Some(FilterRows(rt, a, term, filter).value + FilterRows(rt, b, term, filter).value)
  {
    FilterByAppend(a, b, item => Keep(rt, item, term, filter));
  }

  /** With both inputs empty the filter reads no entry and keeps them all. */
  lemma FilterRowsEmptyTerms(rt: Runtime, items: seq<Item>)
    ensures FilterRows(rt, items, "", "") == Some(items)
  {
    FilterByAll(items, item => Keep(rt, item, "", ""));
  }

  lemma {:induction false} FilterByAll<T(!new)>(items: seq<T>, keep: T -> Option<bool>)
    requires forall i :: 0 <= i < |items| ==> keep(items[i]) == Some(true)
    ensures FilterBy(items, keep) == Some(items)
    decreases |items|
  {
    if items != [] {
      assert forall i :: 1 <= i < |items| ==> items[1..][i - 1] == items[i];
      FilterByAll(items[1..], keep);
      assert [items[0]] + items[1..] == items;
    }
  }

  /** The page number, which starts at 1 and never goes below it. */
  type PageNo = n: nat | n >= 1 witness 1

  const ItemsPerPage: nat := 10

  /** The table state: the loaded entries, the filtered entries and the current page. */
  datatype Pager = Pager(table: seq<Item>, filtered: seq<Item>, page: PageNo)

  /** The state after the constructor: no data, page 1. */
  const Initial: Pager := Pager([], [], 1)

  /** `Math.ceil(n / 10)`. */
  function TotalPages(n: nat): (t: nat)
    ensures t == 0 <==> n == 0
    ensures n > 0 ==> (t - 1) * ItemsPerPage < n <= t * ItemsPerPage
  {
    (n + ItemsPerPage - 1) / ItemsPerPage
  }

  /** `filtered.slice(start, start + 10)` with `start = (page - 1) * 10`. */
  function PageRows(p: Pager): (r: seq<Item>)
    ensures |r| <= ItemsPerPage
    ensures r == [] <==> (p.page - 1) * ItemsPerPage >= |p.filtered|
    ensures forall k :: 0 <= k < |r| ==>
      (p.page - 1) * ItemsPerPage + k < |p.filtered| && r[k] == p.filtered[(p.page - 1) * ItemsPerPage + k]
  {
    var n := |p.filtered|;
    var start := (p.page - 1) * ItemsPerPage;
    if start >= n then []
    else p.filtered[start..if start + ItemsPerPage < n then start + ItemsPerPage else n]
  }

  /** What the table area shows after `renderTable` and `updatePagination`. */
  datatype View = View(
    shown: seq<Item>,
    placeholder: bool,
    prevDisabled: bool,
    nextDisabled: bool,
    pageLabel: (nat, nat))

  /**
   * One entry of the page can be drawn: its status is a text (the badge
   * calls `toLowerCase` on it, which throws on undefined, null and numbers)
   * and its rating does not make `repeat` throw.
   */
  predicate RowRenders(rt: Runtime, item: Item) {
    var status := FieldOf(item.fields, "status");
    status.Some? && status.value.JsonText? &&
    FormatSatisfaction(rt, FieldOf(item.fields, "satisfacao")) != Thrown
  }

  /**
   * `renderTable` followed by `updatePagination`; None when drawing one of
   * the page's entries throws, which leaves the pager untouched.
   */
  function Render(rt: Runtime, p: Pager): (v: Option<View>)
    ensures v.Some? <==> forall k :: 0 <= k < |PageRows(p)| ==> RowRenders(rt, PageRows(p)[k])
    ensures v.Some? ==> v.value.shown == PageRows(p)
    ensures v.Some? ==> (v.value.placeholder <==> PageRows(p) == [])
    ensures v.Some? ==> (v.value.prevDisabled <==> p.page == 1)
    ensures v.Some? ==> (v.value.nextDisabled <==> p.page == TotalPages(|p.filtered|) || p.filtered == [])
    ensures v.Some? ==> v.value.pageLabel.0 == p.page && v.value.pageLabel.1 >= 1
    ensures v.Some? && p.filtered != [] ==> v.value.pageLabel.1 == TotalPages(|p.filtered|)
    ensures v.Some? && p.filtered == [] ==> v.value.pageLabel.1 == 1
  {
    var total := TotalPages(|p.filtered|);
    var rows := PageRows(p);
    if forall k :: 0 <= k < |rows| ==> RowRenders(rt, rows[k]) then
      Some(View(rows, rows == [], p.page == 1, p.page == total || total == 0,
        (p.page, if total == 0 then 1 else total)))
    else None
  }

  /** An entry on the page whose status is missing or not a text stops the whole table from drawing. */
  lemma UntextedStatusBlocksPage(rt: Runtime, p: Pager, k: nat)
    requires k < |PageRows(p)|
    requires FieldOf(PageRows(p)[k].fields, "status").None? || !FieldOf(PageRows(p)[k].fields, "status").value.JsonText?
    ensures Render(rt, p).None?
  {
    assert !RowRenders(rt, PageRows(p)[k]);
  }

  /** So does an entry on the page with a negative rating. */
  lemma NegativeRatingBlocksPage(rt: Runtime, p: Pager, k: nat, n: nat)
    requires k < |PageRows(p)| && n > 0
    requires FieldOf(PageRows(p)[k].fields, "satisfacao") == Some(JsonText("-" + NatText(n)))
    ensures Render(rt, p).None?
  {
    NegativeRatingThrows(rt, n);
    assert !RowRenders(rt, PageRows(p)[k]);
  }

  /** `previousPage`: one page back, never below the first. */
  function PreviousPage(p: Pager): (q: Pager)
    ensures q.table == p.table && q.filtered == p.filtered
    ensures p.page > 1 ==> q.page == p.page - 1
    ensures p.page == 1 ==> q == p
  {
    if p.page > 1 then p.(page := p.page - 1) else p
  }

  /** `nextPage`: one page forward, never past the last. */
  function NextPage(p: Pager): (q: Pager)
    ensures q.table == p.table && q.filtered == p.filtered
    ensures p.page < TotalPages(|p.filtered|) ==> q.page == p.page + 1
    ensures p.page >= TotalPages(|p.filtered|) ==> q == p
  {
    if p.page < TotalPages(|p.filtered|) then p.(page := p.page + 1) else p
  }

  /**
   * `filterTable`: both inputs are lowercased, the loaded table is filtered
   * and the page goes back to 1. When the test throws nothing is assigned.
   */
  function FilterTable(rt: Runtime, p: Pager, search: string, status: string): (q: Pager)
    ensures q.table == p.table
    ensures FilterRows(rt, p.table, Lower(search), Lower(status)).None? ==> q == p
    ensures FilterRows(rt, p.table, Lower(search), Lower(status)).Some? ==>
      q.page == 1 && q.filtered == FilterRows(rt, p.table, Lower(search), Lower(status)).value
  {
    match FilterRows(rt, p.table, Lower(search), Lower(status))
    case None => p
    case Some(rows) => Pager(p.table, rows, 1)
  }

  /** The page is one the pager can reach: at most the last page, or 1 when there is none. */
  predicate InRange(p: Pager) {
    p.page <= TotalPages(|p.filtered|) || p.page == 1
  }

  /**
   * On a page in range the view is honest: the placeholder appears only
   * when nothing matched, and a button is disabled exactly when pressing it
   * would do nothing.
   */
  lemma RenderHonest(rt: Runtime, p: Pager)
    requires InRange(p)
    ensures Render(rt, p).Some? ==> (Render(rt, p).value.placeholder <==> p.filtered == [])
    ensures Render(rt, p).Some? ==> (Render(rt, p).value.prevDisabled <==> PreviousPage(p) == p)
    ensures Render(rt, p).Some? ==> (Render(rt, p).value.nextDisabled <==> NextPage(p) == p)
  {
  }

  /** Every entry of the filtered list sits on exactly one reachable page. */
  lemma PagesCover(p: Pager, i: nat)
    requires i < |p.filtered|
    ensures var q := p.(page := i / ItemsPerPage + 1);
      InRange(q) && i % ItemsPerPage < |PageRows(q)| && PageRows(q)[i % ItemsPerPage] == p.filtered[i]
  {
  }

  lemma InitialInRange(rt: Runtime)
    ensures InRange(Initial) && Render(rt, Initial).Some? && Render(rt, Initial).value.placeholder
  {
  }

  lemma PreviousPageInRange(p: Pager)
    requires InRange(p)
    ensures InRange(PreviousPage(p))
  {
  }

  lemma NextPageInRange(p: Pager)
    requires InRange(p)
    ensures InRange(NextPage(p))
  {
  }

  lemma FilterTableInRange(rt: Runtime, p: Pager, search: string, status: string)
    requires InRange(p)
    ensures InRange(FilterTable(rt, p, search, status))
  {
  }

  /** `updateTable` as written: the entries are replaced and the page is kept. */
  function UpdateTableAsWritten(p: Pager, table: seq<Item>): (q: Pager)
    ensures q.table == table && q.filtered == table
    ensures q.page == p.page
  {
    Pager(table, table, p.page)
  }

  /**
   * After a refresh to at most one page of entries, a table left on page 2
   * or later shows the placeholder although entries exist, and keeps the
   * Next button enabled although pressing it does nothing.
   */
  lemma StalePageAfterRefresh(rt: Runtime, p: Pager, table: seq<Item>)
    requires p.page >= 2 && 0 < |table| <= ItemsPerPage
    ensures var q := UpdateTableAsWritten(p, table);
      !InRange(q) && Render(rt, q).Some? && Render(rt, q).value.placeholder && q.filtered != [] &&
      !Render(rt, q).value.nextDisabled && NextPage(q) == q
  {
  }

  /** `updateTable` with the reset `filterTable` already does: the page goes back to 1. */
  function UpdateTable(p: Pager, table: seq<Item>): (q: Pager)
    ensures q.table == table && q.filtered == table
    ensures InRange(q)
    ensures forall rt: Runtime :: Render(rt, q).Some? ==> (Render(rt, q).value.placeholder <==> table == [])
  {
    Pager(table, table, 1)
  }

  /**
   * Each operation of the corrected pager keeps the page in range, so the
   * view stays honest through any sequence of them.
   */
  datatype Action = Refresh(table: seq<Item>) | Filter(search: string, status: string) | Prev | Next

  function Step(rt: Runtime, p: Pager, a: Action): Pager {
    match a
    case Refresh(t) => UpdateTable(p, t)
    case Filter(s, st) => FilterTable(rt, p, s, st)
    case Prev => PreviousPage(p)
    case Next => NextPage(p)
  }

  function Run(rt: Runtime, p: Pager, actions: seq<Action>): Pager
    decreases |actions|
  {
    if actions == [] then p else Run(rt, Step(rt, p, actions[0]), actions[1..])
  }

  lemma {:induction false} RunInRange(rt: Runtime, p: Pager, actions: seq<Action>)
    requires InRange(p)
    ensures InRange(Run(rt, p, actions))
    decreases |actions|
  {
    if actions != [] {
      var q := Step(rt, p, actions[0]);
      match actions[0] {
        case Refresh(t) =>
        case Filter(s, st) => FilterTableInRange(rt, p, s, st);
        case Prev => PreviousPageInRange(p);
        case Next => NextPageInRange(p);
      }
      RunInRange(rt, q, actions[1..]);
    }
  }

  /** `'status-' + status.toLowerCase().replace(' ', '-')`: only the first blank becomes a dash. */
  function BadgeClass(status: string): (c: string)
    ensures |c| == |"status-"| + |status| && c[..7] == "status-"
    ensures ' ' !in status ==> c == "status-" + Lower(status)
    ensures forall j :: 0 <= j < |status| ==> c[7 + j] == if Some(j) == IndexOf(status, ' ') then '-' else LowerChar(status[j])
  {
    LowerKeepsSpaces(status);
    "status-" + ReplaceFirst(Lower(status), ' ', '-')
  }

  lemma LowerKeepsSpaces(s: string)
    ensures IndexOf(Lower(s), ' ') == IndexOf(s, ' ')
  {
    var l := Lower(s);
    assert forall j :: 0 <= j < |s| ==> (l[j] == ' ' <==> s[j] == ' ');
    match IndexOf(s, ' ')
    case None =>
      assert ' ' !in l;
    case Some(k) =>
      assert l[k] == ' ';
      assert IndexOf(l, ' ').Some?;
  }

  /** A status of three words keeps its second blank, so the badge becomes two classes. */
  lemma {:induction false} BadgeKeepsSecondBlank(status: string, i: nat, j: nat)
    requires i < j < |status| && status[i] == ' ' && status[j] == ' '
    ensures ' ' in BadgeClass(status)
  {
    var c := BadgeClass(status);
    assert IndexOf(status, ' ').Some? && IndexOf(status, ' ').value <= i;
    assert Some(j) != IndexOf(status, ' ') && LowerChar(status[j]) == ' ';
    assert c[7 + j] == ' ';
  }

  /**
   * JavaScript `parseInt(text)`: leading blanks, an optional sign, then the
   * longest run of decimal digits; None (NaN) when there is no digit.
   */
  function ParseInt(s: string): (r: Option<int>)
    ensures TrimStart(JavaScript, s) == [] ==> r.None?
  {
    ParseSigned(TrimStart(JavaScript, s))
  }

  /** `parseInt` after the leading blanks. */
  function ParseSigned(t: string): Option<int> {
    if t != [] && (t[0] == '-' || t[0] == '+') then DigitsAfterSign(t[0] == '-', t[1..])
    else DigitsAfterSign(false, t)
  }

  /** The leading run of digits of `u`, negated when `negative`; None when there is no digit. */
  function DigitsAfterSign(negative: bool, u: string): Option<int> {
    var n := DigitRun(u);
    if n == 0 then None
    else
      var v := DigitsValue(u[..n]);
      Some(if negative then -(v as int) else v as int)
  }

  /** A number's decimal text, with any non-digit text after it, reads back as that number. */
  lemma ParseIntOfNatText(n: nat, rest: string)
    requires rest == [] || !IsDigit(rest[0])
    ensures ParseInt(NatText(n) + rest) == Some(n as int)
  {
    var u := NatText(n) + rest;
    assert u[0] == NatText(n)[0];
    Cells.TrimStartKeeps(JavaScript, u);
    UnsignedDigits(n, rest);
  }

  /** The same after a sign, which the result carries. */
  lemma ParseIntOfSignedText(n: nat, rest: string, c: char)
    requires rest == [] || !IsDigit(rest[0])
    requires c == '-' || c == '+'
    ensures ParseInt([c] + NatText(n) + rest) == Some(if c == '-' then -(n as int) else n as int)
  {
    var u := NatText(n) + rest;
    assert [c] + NatText(n) + rest == [c] + u;
    UnsignedDigits(n, rest);
    SignedDigits(c, u, DigitRun(u), n);
  }

  /** After a sign, `parseInt` reads the digits that follow it and applies the sign. */
  lemma {:induction false} SignedDigits(c: char, u: string, k: nat, v: nat)
    requires c == '-' || c == '+'
    requires 0 < k <= |u| && DigitRun(u) == k && DigitsValue(u[..k]) == v
    ensures ParseInt([c] + u) == Some(if c == '-' then -(v as int) else v as int)
  {
    var t := [c] + u;
    assert t[0] == c && t[1..] == u;
    ParseIntNoBlank(t);
    DigitsRead(c == '-', u, k, v);
  }

  lemma {:induction false} ParseIntNoBlank(t: string)
    requires t != [] && !IsBlank(JavaScript, t[0])
    ensures ParseInt(t) == ParseSigned(t)
  {
    Cells.TrimStartKeeps(JavaScript, t);
  }

  lemma {:induction false} DigitsRead(negative: bool, u: string, k: nat, v: nat)
    requires 0 < k <= |u| && DigitRun(u) == k && DigitsValue(u[..k]) == v
    ensures DigitsAfterSign(negative, u) == Some(if negative then -(v as int) else v as int)
  {
  }

  lemma UnsignedDigits(n: nat, rest: string)
    requires rest == [] || !IsDigit(rest[0])
    ensures var u := NatText(n) + rest;
      DigitRun(u) == |NatText(n)| && DigitsValue(u[..DigitRun(u)]) == n
  {
    var t := NatText(n);
    DigitRunStops(t, rest);
    assert (t + rest)[..|t|] == t;
    DigitsValueOfNatText(n);
  }

  /** The rating widget. */
  datatype Rating =
    | NoRating
    | Rated(stars: string, rating: int, tone: string)
    | Thrown

  const Star: char := '\U{2B50}'

  /** The colour class: 4 and up success, 3 warning, the rest error. */
  function Tone(rating: int): (c: string)
    ensures c == "text-success" <==> rating >= 4
    ensures c == "text-warning" <==> rating == 3
    ensures c == "text-error" <==> rating < 3
  {
    if rating >= 4 then "text-success" else if rating >= 3 then "text-warning" else "text-error"
  }

  /**
   * `formatSatisfaction`: 'N/A', null and undefined show no rating; otherwise
   * the value's text is read by `parseInt`; no number shows no rating, a
   * negative one makes `repeat` throw, and any other shows that many stars.
   */
  function FormatSatisfaction(rt: Runtime, v: Option<Json>): (r: Rating)
    ensures v == None || v == Some(JsonNull) || v == Some(JsonText("N/A")) ==> r == NoRating
    ensures r.Rated? ==>
      r.rating >= 0 && |r.stars| == r.rating && (forall i :: 0 <= i < |r.stars| ==> r.stars[i] == Star) && r.tone == Tone(r.rating)
    ensures v.Some? && v.value.JsonText? && v.value.s != "N/A" ==> r == StarsOf(v.value.s)
    ensures v.Some? && v.value.JsonNumber? ==> r == StarsOf(rt.jsNumber(v.value.x))
  {
    match v
    case None => NoRating
    case Some(JsonNull) => NoRating
    case Some(JsonText(s)) => if s == "N/A" then NoRating else StarsOf(s)
    case Some(JsonNumber(x)) => StarsOf(rt.jsNumber(x))
  }

  /** The rating read from a text by `parseInt`. */
  function StarsOf(text: string): (r: Rating)
    ensures r != Thrown <==> ParseInt(text).None? || ParseInt(text).value >= 0
    ensures r.Rated? <==> ParseInt(text).Some? && ParseInt(text).value >= 0
    ensures r.Rated? ==>
      r.rating == ParseInt(text).value && |r.stars| == r.rating && (forall i :: 0 <= i < |r.stars| ==> r.stars[i] == Star) && r.tone == Tone(r.rating)
  {
    match ParseInt(text)
    case None => NoRating
    case Some(k) =>
      if k < 0 then Thrown
      else Rated(seq(k, _ => Star), k, Tone(k))
  }

  /** A whole number of stars shows that many stars, whatever text follows it ("4.5" shows 4). */
  lemma StarsOfWholeText(rt: Runtime, n: nat, rest: string)
    requires rest == [] || !IsDigit(rest[0])
    ensures FormatSatisfaction(rt, Some(JsonText(NatText(n) + rest))) ==
      Rated(seq(n, _ => Star), n, Tone(n))
  {
    var t := NatText(n) + rest;
    ParseIntOfNatText(n, rest);
    assert t[0] == NatText(n)[0];
    assert t != "N/A";
  }

  /** A negative rating reaches `repeat` and throws. */
  lemma NegativeRatingThrows(rt: Runtime, n: nat)
    requires n > 0
    ensures FormatSatisfaction(rt, Some(JsonText("-" + NatText(n)))) == Thrown
  {
    ParseIntOfSignedText(n, "", '-');
    assert ['-'] + NatText(n) + "" == "-" + NatText(n);
  }
}

=== FILE: dashboardv2.dfy ===
/**
 * The second dashboard (frontend/js/dashboard-v2.js): the chart colour
 * palettes, the top-N ordering of the technician and category charts, the
 * headline insights drawn from them, the KPI trend arrows and the theme
 * switch. Chart rendering, animation and the DOM are outside the model.
 */
module DashboardV2 {

  import opened Options
  import opened Frequency
  import opened Reports

  // ---------------------------------------------------------------------------
  // generateColorPalette

  const Blue: seq<string> := ["#60a5fa", "#3b82f6", "#2563eb", "#1d4ed8", "#1e40af"]
  const Rainbow: seq<string> := ["#60a5fa", "#a78bfa", "#ec4899", "#f97316", "#fbbf24", "#34d399", "#06b6d4", "#8b5cf6"]

  /** `palettes[type] || palettes.blue`: the two named palettes, blue for any other name. */
  function BaseColors(kind: string): (base: seq<string>)
    ensures base == Blue || base == Rainbow
    ensures base == Rainbow <==> kind == "rainbow"
  {
    if kind == "rainbow" then Rainbow else Blue
  }

  datatype Palette = Palette(background: seq<string>, border: seq<string>, hover: seq<string>)

  /**
   * `count` colours cycling through the base palette; the background adds
   * 80% opacity (`CC`), the hover full opacity (`FF`).
   */
  function GenerateColorPalette(count: nat, kind: string): (p: Palette)
    ensures |p.background| == count && |p.border| == count && |p.hover| == count
    ensures forall i :: 0 <= i < count ==>
      var c := BaseColors(kind)[i % |BaseColors(kind)|];
      p.border[i] == c && p.background[i] == c + "CC" && p.hover[i] == c + "FF"
  {
    var base := BaseColors(kind);
    var colors := seq(count, i requires 0 <= i < count => base[i % |base|]);
    Palette(
      seq(count, i requires 0 <= i < count => colors[i] + "CC"),
      colors,
      seq(count, i requires 0 <= i < count => colors[i] + "FF"))
  }

  predicate Distinct(s: seq<string>) {
    forall i, j :: 0 <= i < j < |s| ==> s[i] != s[j]
  }

  lemma PalettesDistinct()
    ensures Distinct(Blue) && Distinct(Rainbow)
  {
  }

  /**
   * The colours repeat with the palette's period and not sooner: bars less
   * than a period apart never share a colour.
   */
  lemma {:induction false} PaletteCycles(count: nat, kind: string, i: nat, j: nat)
    requires i < j < count
    ensures var p := GenerateColorPalette(count, kind);
      var n := |BaseColors(kind)|;
      (j - i) % n == 0 <==> p.border[i] == p.border[j]
  {
    var base := BaseColors(kind);
    var n := |base|;
    PalettesDistinct();
    var a, b := i % n, j % n;
    assert (j - i) % n == 0 <==> a == b by {
      ModDifference(i, j, n);
    }
  }

  /** For the two palette lengths, positions are congruent exactly when their distance is a multiple of it. */
  lemma ModDifference(i: nat, j: nat, n: nat)
    requires i < j && (n == 5 || n == 8)
    ensures (j - i) % n == 0 <==> i % n == j % n
  {
    if n == 5 {
      Mod5(i, j);
    } else {
      Mod8(i, j);
    }
  }

  lemma Mod5(i: nat, j: nat)
    requires i < j
    ensures (j - i) % 5 == 0 <==> i % 5 == j % 5
  {
  }

  lemma Mod8(i: nat, j: nat)
    requires i < j
    ensures (j - i) % 8 == 0 <==> i % 8 == j % 8
  {
  }

  // ---------------------------------------------------------------------------
  // Top-N charts and their headline insights

  const TechnicianLimit: nat := 10
  const CategoryLimit: nat := 8

  /**
   * `Object.entries(counts).sort((a, b) => b.value - a.value).slice(0, n)`:
   * the largest counts first, ties in their original order, at most `n`.
   */
  function Chart(counts: Freq<string>, n: nat): (r: Freq<string>)
    ensures |r| == if n < |counts| then n else |counts|
    ensures SortedDesc(r, CountKey)
    ensures multiset(r) <= multiset(counts)
    ensures forall x, y :: x in r && y in multiset(counts) - multiset(r) ==> x.1 >= y.1
    ensures r == SortDesc(counts, CountKey)[..|r|]
  {
    TopN(counts, CountKey, n)
  }

  /** The technician chart keeps ten entries, the category chart eight. */
  function TechnicianChart(counts: Freq<string>): (r: Freq<string>)
    ensures |r| == if TechnicianLimit < |counts| then TechnicianLimit else |counts|
  {
    Chart(counts, TechnicianLimit)
  }

  function CategoryChart(counts: Freq<string>): (r: Freq<string>)
    ensures |r| == if CategoryLimit < |counts| then CategoryLimit else |counts|
  {
    Chart(counts, CategoryLimit)
  }

  /** The insight line: the first chart entry and its share of the entries shown. */
  datatype Headline = Headline(name: string, count: nat, share: real)

  /**
   * `generateInsightTecnico` / `generateInsightCategoria`: nothing for an
   * empty chart; otherwise the first entry, with its count over the sum of
   * the chart's counts (`formatPercent` shows a NaN share as 0).
   */
  function ChartHeadline(shown: Freq<string>): (h: Option<Headline>)
    ensures h.None? <==> shown == []
    ensures h.Some? ==> h.value.name == shown[0].0 && h.value.count == shown[0].1
    ensures h.Some? && Total(shown) > 0 ==> h.value.share * Total(shown) as real == h.value.count as real * 100.0
    ensures h.Some? && Total(shown) == 0 ==> h.value.share == 0.0
  {
    if shown == [] then None
    else
      var total := Total(shown);
      Some(Headline(shown[0].0, shown[0].1, if total > 0 then Percent(shown[0].1, total) else 0.0))
  }

  /** The headline names an entry no other entry of the whole table outnumbers. */
  lemma HeadlineIsLargest(counts: Freq<string>, n: nat, i: nat)
    requires n > 0 && i < |counts|
    ensures var h := ChartHeadline(Chart(counts, n));
      h.Some? && counts[i].1 <= h.value.count
  {
    var chart := Chart(counts, n);
    var x := counts[i];
    assert x in multiset(counts);
    if x in multiset(counts) - multiset(chart) {
      assert chart[0] in chart;
    } else {
      assert x in multiset(chart);
      var j :| 0 <= j < |chart| && chart[j] == x;
      assert j == 0 || CountKey(chart[0]) >= CountKey(chart[j]);
    }
  }

  /**
   * The share is taken over the chart's entries only: with more than ten
   * technicians, all counted, the headline share is larger than the
   * technician's share of all tickets.
   */
  lemma {:induction false} HeadlineShareOfShown(counts: Freq<string>)
    requires |counts| > TechnicianLimit
    requires forall i :: 0 <= i < |counts| ==> counts[i].1 > 0
    ensures var chart := TechnicianChart(counts);
      var h := ChartHeadline(chart).value;
      0 < Total(chart) < Total(counts) && h.share > Percent(h.count, Total(counts))
  {
    var sorted := SortDesc(counts, CountKey);
    var chart := TechnicianChart(counts);
    assert chart == sorted[..TechnicianLimit];
    assert sorted == chart + sorted[TechnicianLimit..];
    TotalAppend(chart, sorted[TechnicianLimit..]);
    TotalPermutation(sorted, counts);
    PositiveInSorted(counts, TechnicianLimit);
    PositiveInSorted(counts, 0);
    TotalAtLeast(sorted[TechnicianLimit..], 0);
    TotalAtLeast(chart, 0);
    var h := ChartHeadline(chart).value;
    ShareShrinks(h.count, Total(chart), Total(counts));
  }

  lemma PositiveInSorted(counts: Freq<string>, k: nat)
    requires k < |counts|
    requires forall i :: 0 <= i < |counts| ==> counts[i].1 > 0
    ensures SortDesc(counts, CountKey)[k].1 > 0
  {
    var sorted := SortDesc(counts, CountKey);
    assert sorted[k] in multiset(counts);
    var j :| 0 <= j < |counts| && counts[j] == sorted[k];
  }

  /** The same count is a larger share of a smaller total. */
  lemma ShareShrinks(c: nat, small: nat, large: nat)
    requires 0 < c <= small < large
    ensures Percent(c, small) > Percent(c, large)
  {
    var p, q := Percent(c, small), Percent(c, large);
    assert p * small as real == q * large as real;
    assert q > 0.0 by {
      assert q * large as real == c as real * 100.0;
    }
    assert q * large as real > q * small as real;
  }

  // ---------------------------------------------------------------------------
  // calculateTrend and updateTrendElement

  datatype Trend = Trend(value: real, isPositive: bool, symbol: string)

  function Abs(x: real): real { if x < 0.0 then -x else x }

  /**
   * `Math.abs(x.toFixed(1))` for a magnitude `x`: the nearest tenth, a tie
   * going to the larger one. `toFixed` rounds the magnitude and writes the
   * sign in front, so the sign does not change the figure.
   */
  function FixedTenth(x: real): (r: real)
    requires x >= 0.0
    ensures r >= 0.0
    ensures x - 0.05 < r <= x + 0.05
    ensures r * 10.0 == (r * 10.0).Floor as real
  {
    var n := (x * 10.0 + 0.5).Floor;
    assert n as real * 10.0 / 10.0 == n as real;
    n as real / 10.0
  }

  /** The exact percentage change, as a magnitude. */
  function ChangeSize(current: real, previous: real): (e: real)
    requires previous > 0.0
    ensures e >= 0.0
    ensures e * previous == Abs(current - previous) * 100.0
  {
    Abs(current - previous) * 100.0 / previous
  }

  /**
   * The percentage change from `previous` rounded by `toFixed(1)`, as a
   * magnitude; whether the change is good (a rise, or a fall when
   * `inverted`); and its arrow. Without a positive previous value the
   * magnitude is 0.
   */
  function CalculateTrend(current: real, previous: real, inverted: bool): (t: Trend)
    ensures t.isPositive <==> if inverted then current < previous else current > previous
    ensures t.symbol == "\U{2197}" <==> t.isPositive
    ensures t.symbol == "\U{2198}" <==> !t.isPositive
    ensures t.value >= 0.0
    ensures previous <= 0.0 ==> t.value == 0.0
    ensures previous > 0.0 ==> ChangeSize(current, previous) - 0.05 < t.value <= ChangeSize(current, previous) + 0.05
    ensures t.value * 10.0 == (t.value * 10.0).Floor as real
  {
    var diff := current - previous;
    var percentage := if previous > 0.0 then diff / previous * 100.0 else 0.0;
    assert previous > 0.0 ==> Abs(percentage) == ChangeSize(current, previous);
    var positive := if inverted then diff < 0.0 else diff > 0.0;
    Trend(if previous > 0.0 then FixedTenth(Abs(percentage)) else 0.0, positive, if positive then "\U{2197}" else "\U{2198}")
  }

  /** Inverting swaps the direction of any actual change and keeps its size. */
  lemma TrendInversion(current: real, previous: real)
    requires current != previous
    ensures CalculateTrend(current, previous, true).isPositive == !CalculateTrend(current, previous, false).isPositive
    ensures CalculateTrend(current, previous, true).value == CalculateTrend(current, previous, false).value
  {
  }

  /** The trend element: its class and the sign written before the figure. */
  datatype TrendView = TrendView(up: bool, arrow: string, plus: bool, figure: real)

  function TrendElement(t: Trend): (v: TrendView)
    ensures v.up <==> t.isPositive
    ensures v.plus <==> t.value > 0.0
  {
    TrendView(t.isPositive, t.symbol, t.value > 0.0, t.value)
  }

  /**
   * The sign follows the rounded magnitude, not the direction: a fall of
   * at least 0.05 % shows the down arrow with a `+` figure, and no change at
   * all shows the down arrow.
   */
  lemma FallShowsPlus(current: real, previous: real)
    requires 0.0 <= current < previous
    requires (previous - current) * 2000.0 >= previous
    ensures var v := TrendElement(CalculateTrend(current, previous, false));
      !v.up && v.plus
  {
    var e := ChangeSize(current, previous);
    assert Abs(current - previous) == previous - current;
    ChangeAgainstTwentieth(previous - current, previous, e);
    assert CalculateTrend(current, previous, false).value > e - 0.05 >= 0.0;
  }

  /** A fall below 0.05 % rounds to 0.0 and shows no sign at all. */
  lemma TinyFallShowsNoPlus(current: real, previous: real)
    requires 0.0 <= current < previous
    requires (previous - current) * 2000.0 < previous
    ensures var v := TrendElement(CalculateTrend(current, previous, false));
      !v.up && !v.plus && v.figure == 0.0
  {
    var e := ChangeSize(current, previous);
    assert Abs(current - previous) == previous - current;
    ChangeAgainstTwentieth(previous - current, previous, e);
    assert 0.5 <= e * 10.0 + 0.5 < 1.0;
    assert (e * 10.0 + 0.5).Floor == 0;
  }

  /** A change of `d` from `p` is at least 0.05 % exactly when `d * 2000` reaches `p`. */
  lemma ChangeAgainstTwentieth(d: real, p: real, e: real)
    requires p > 0.0 && e * p == d * 100.0
    ensures e < 0.05 <==> d * 2000.0 < p
  {
    ProductOrder(e, 0.05, p);
    assert 0.05 * p * 2000.0 == p * 100.0;
  }

  /** Multiplying by a positive factor keeps the order. */
  lemma ProductOrder(a: real, b: real, p: real)
    requires p > 0.0
    ensures a * p < b * p <==> a < b
  {
    assert (b - a) * p == b * p - a * p;
    if a < b {
      assert (b - a) * p > 0.0;
    } else {
      assert (a - b) * p >= 0.0;
    }
  }

  lemma NoChangeShowsDown(value: real, inverted: bool)
    ensures !TrendElement(CalculateTrend(value, value, inverted)).up
  {
  }

  // ---------------------------------------------------------------------------
  // Theme

  const Dark: string := "dark"
  const Light: string := "light"

  /** `getAttribute('data-theme') || 'dark'`: an absent or empty attribute reads as dark. */
  function CurrentTheme(attribute: Option<string>): (t: string)
    ensures attribute == None || attribute == Some("") ==> t == Dark
    ensures attribute.Some? && attribute.value != "" ==> t == attribute.value
  {
    match attribute
    case Some(a) => if a == "" then Dark else a
    case None => Dark
  }

  /** `toggleTheme`: dark becomes light and anything else becomes dark. */
  function ToggleTheme(attribute: Option<string>): (next: string)
    ensures next == Light <==> CurrentTheme(attribute) == Dark
    ensures next == Dark <==> CurrentTheme(attribute) != Dark
  {
    if CurrentTheme(attribute) == Dark then Light else Dark
  }

  /** Two toggles return to the start from either theme, and any theme settles after one. */
  lemma ToggleTwice(attribute: Option<string>)
    ensures var once := ToggleTheme(attribute);
      (once == Dark || once == Light) && ToggleTheme(Some(ToggleTheme(Some(once)))) == once
    ensures CurrentTheme(attribute) == Dark || CurrentTheme(attribute) == Light ==>
      ToggleTheme(Some(ToggleTheme(attribute))) == CurrentTheme(attribute)
  {
  }

  /**
   * `applyTheme`: the first non-empty of the requested, current and stored
   * themes, dark otherwise; the button reads "Escuro" exactly for dark.
   */
  function ApplyTheme(requested: Option<string>, existing: Option<string>, stored: Option<string>): (active: string)
    ensures active != ""
    ensures requested.Some? && requested.value != "" ==> active == requested.value
    ensures (requested.None? || requested.value == "") && existing.Some? && existing.value != "" ==> active == existing.value
    ensures active != Dark ==> Some(active) == requested || Some(active) == existing || Some(active) == stored
  {
    if requested.Some? && requested.value != "" then requested.value
    else if existing.Some? && existing.value != "" then existing.value
    else if stored.Some? && stored.value != "" then stored.value
    else Dark
  }

  function ThemeLabel(active: string): (text: string)
    ensures text == "Escuro" <==> active == Dark
  {
    if active == Dark then "Escuro" else "Claro"
  }

  /** After a toggle the page shows the new theme, and the button label changes. */
  lemma ToggleRelabels(attribute: Option<string>, stored: Option<string>)
    ensures var next := ToggleTheme(attribute);
      ApplyTheme(Some(next), attribute, stored) == next &&
      ThemeLabel(next) != ThemeLabel(CurrentTheme(attribute))
  {
  }
}

=== FILE: dataprocessor.dfy ===
/**
 * The helpers of utils/data_processor.py (`DataProcessor`): cell cleaning,
 * status standardisation, the resolution-time unit rule, the satisfaction
 * levels, the trend classification, the data-quality score and the summary
 * export.
 */
module DataProcessor {

  import opened Options
  import opened Text
  import opened Cells
  import opened Frequency
  import opened Frames
  import opened Reports

  // ---------------------------------------------------------------------------
  // clean_dataframe

  /** The texts `replace` turns into None. */
  const NullTexts: set<string> := {"", " ", "NaN", "nan", "null"}

  /** `replace([...], None)` on one cell. */
  function ReplaceNull(c: Cell): (r: Cell)
    ensures c.Str? && c.s in NullTexts ==> r == Missing
    ensures !(c.Str? && c.s in NullTexts) ==> r == c
  {
    if c.Str? && c.s in NullTexts then Missing else c
  }

  /**
   * One cell of an object column: `astype(str).str.strip()` and then the
   * replacement. Present cells become stripped text; the null spellings,
   * NaN included (it renders as "nan"), become None.
   */
  function CleanText(rt: Runtime, c: Cell): (r: Cell)
    ensures r.Missing? <==> Strip(Python, PyStr(rt, c)) in NullTexts
    ensures r.Str? <==> !r.Missing?
    ensures r.Str? ==> r.s == Strip(Python, PyStr(rt, c)) && r.s != [] && r.s !in NullTexts
  {
    ReplaceNull(Str(Strip(Python, PyStr(rt, c))))
  }

  /** Cleaning a cleaned cell changes nothing. */
  lemma CleanTextIdempotent(rt: Runtime, c: Cell)
    ensures CleanText(rt, CleanText(rt, c)) == CleanText(rt, c)
  {
    var r := CleanText(rt, c);
    CleanedFixed(rt, r);
  }

  /** A cell that is None, or text with non-blank ends and no null spelling, is left as it is. */
  lemma CleanedFixed(rt: Runtime, r: Cell)
    requires r.Str? || r.Missing?
    requires r.Str? ==> r.s != [] && !IsBlank(Python, r.s[0]) && !IsBlank(Python, r.s[|r.s| - 1]) && r.s !in NullTexts
    ensures CleanText(rt, r) == r
  {
    if r.Str? {
      StripFixed(Python, r.s);
    } else {
      StripNoBlank(Python, "nan");
    }
  }

  /** A null spelling between blanks is a null: `" null "` becomes None. */
  lemma CleanTextPaddedNull(rt: Runtime, pre: string, word: string, post: string)
    requires forall i :: 0 <= i < |pre| ==> IsBlank(Python, pre[i])
    requires forall i :: 0 <= i < |post| ==> IsBlank(Python, post[i])
    requires word in NullTexts && word != [] && !IsBlank(Python, word[0]) && !IsBlank(Python, word[|word| - 1])
    ensures CleanText(rt, Str(pre + word + post)) == Missing
  {
    StripPadded(Python, pre, word, post);
  }

  /** Any other text is kept, stripped: the word "None" in particular stays text. */
  lemma CleanTextKeeps(rt: Runtime, pre: string, word: string, post: string)
    requires forall i :: 0 <= i < |pre| ==> IsBlank(Python, pre[i])
    requires forall i :: 0 <= i < |post| ==> IsBlank(Python, post[i])
    requires word !in NullTexts && word != [] && !IsBlank(Python, word[0]) && !IsBlank(Python, word[|word| - 1])
    ensures CleanText(rt, Str(pre + word + post)) == Str(word)
  {
    StripPadded(Python, pre, word, post);
  }

  /** A row after the strip step: object columns hold text, the other cells are read as they are. */
  function StripRow(rt: Runtime, row: seq<Cell>, width: nat, objects: set<nat>): (r: seq<Cell>)
    ensures |r| == width
    ensures forall j :: 0 <= j < width && j in objects ==> r[j] == Str(Strip(Python, PyStr(rt, CellAt(row, j))))
    ensures forall j :: 0 <= j < width && j !in objects ==> r[j] == CellAt(row, j)
  {
    seq(width, j requires 0 <= j < width => if j in objects then Str(Strip(Python, PyStr(rt, CellAt(row, j)))) else CellAt(row, j))
  }

  predicate AllMissing(row: seq<Cell>) {
    forall j :: 0 <= j < |row| ==> row[j].Missing?
  }

  /** `dropna(how='all')`: the rows with some present cell, in order. */
  function DropEmptyRows(rows: seq<seq<Cell>>): (r: seq<seq<Cell>>)
    ensures |r| <= |rows|
    ensures forall row :: row in r <==> row in rows && !AllMissing(row)
    ensures (forall i :: 0 <= i < |rows| ==> !AllMissing(rows[i])) ==> r == rows
  {
    if rows == [] then []
    else
      assert rows == [rows[0]] + rows[1..];
      (if AllMissing(rows[0]) then [] else [rows[0]]) + DropEmptyRows(rows[1..])
  }

  /**
   * `clean_dataframe`, given which column positions pandas holds as objects:
   * strip the object columns, drop the rows with no present cell, then turn
   * the null spellings into None. The drop comes before the replacement, so
   * a row whose texts are all blank is kept.
   */
  function CleanDataframe(rt: Runtime, f: Frame, objects: set<nat>): (r: Frame)
    ensures r.columns == f.columns
    ensures |r.rows| <= |f.rows|
    ensures (exists j :: j in objects && j < |f.columns|) ==> |r.rows| == |f.rows|
    ensures forall i, j :: 0 <= i < |r.rows| && 0 <= j < |r.rows[i]| && r.rows[i][j].Str? ==> r.rows[i][j].s !in NullTexts
  {
    var stripped := StripRows(rt, f, objects);
    var kept := DropEmptyRows(stripped);
    Frame(f.columns, seq(|kept|, i requires 0 <= i < |kept| => seq(|kept[i]|, j requires 0 <= j < |kept[i]| => ReplaceNull(kept[i][j]))))
  }

  /** The strip step on every row. With an object column no row is all missing any more. */
  function StripRows(rt: Runtime, f: Frame, objects: set<nat>): (r: seq<seq<Cell>>)
    ensures |r| == |f.rows|
    ensures forall i :: 0 <= i < |f.rows| ==> r[i] == StripRow(rt, f.rows[i], |f.columns|, objects)
    ensures (exists j :: j in objects && j < |f.columns|) ==> forall i :: 0 <= i < |r| ==> !AllMissing(r[i])
  {
    var width := |f.columns|;
    var r := seq(|f.rows|, i requires 0 <= i < |f.rows| => StripRow(rt, f.rows[i], width, objects));
    assert (exists j :: j in objects && j < width) ==> forall i :: 0 <= i < |r| ==> !AllMissing(r[i]) by {
      if j :| j in objects && j < width {
        forall i | 0 <= i < |r| ensures !AllMissing(r[i]) {
          assert r[i][j].Str?;
        }
      }
    }
    r
  }

  /** Each cell of an object column ends as its cleaned text. */
  lemma CleanDataframeCells(rt: Runtime, f: Frame, objects: set<nat>, j: nat)
    requires j in objects && j < |f.columns|
    ensures var r := CleanDataframe(rt, f, objects);
      |r.rows| == |f.rows| &&
      forall i :: 0 <= i < |f.rows| ==> r.rows[i][j] == CleanText(rt, CellAt(f.rows[i], j))
  {
    var stripped := StripRows(rt, f, objects);
    assert DropEmptyRows(stripped) == stripped;
  }

  // ---------------------------------------------------------------------------
  // standardize_status

  const Undefined: string := "Indefinido"

  /** The three standard statuses. */
  const StandardStatuses: set<string> := {"Aberto", "Fechado", "Em Andamento"}

  /** The synonym table, keyed by trimmed lowercase text. */
  function StatusSynonym(key: string): (r: Option<string>)
    ensures r.Some? ==> r.value in StandardStatuses
    ensures key in {"aberto", "fechado", "em andamento"} ==> r.Some?
    ensures r.Some? ==> key != []
  {
    if key in {"aberto", "open", "novo", "pendente", "aguardando"} then Some("Aberto")
    else if key in {"fechado", "closed", "resolvido", "resolved", "concluido", "conclu\U{ED}do", "finalizado"} then Some("Fechado")
    else if key in {"em andamento", "em_andamento", "progress", "processando", "trabalhando"} then Some("Em Andamento")
    else None
  }

  /** `not status or pd.isna(status)`: None, NaN, the empty string and zero. */
  predicate Falsy(c: Cell) {
    c.Missing? || c == Str([]) || c == Num(0.0)
  }

  /** The synonym of the normalised text, else its title-case. */
  function Standardized(key: string): (r: string)
    ensures StatusSynonym(key).Some? ==> r == StatusSynonym(key).value
    ensures StatusSynonym(key).None? ==> r == Title(key)
    ensures key != [] ==> r != []
  {
    match StatusSynonym(key)
    case Some(v) =>
      assert v in StandardStatuses;
      v
    case None => Title(key)
  }

  /**
   * `standardize_status` as written: the emptiness test comes before the
   * strip, so blank text comes out as the empty string.
   */
  function StandardizeStatusAsWritten(rt: Runtime, c: Cell): (r: string)
    ensures Falsy(c) ==> r == Undefined
    ensures !Falsy(c) ==> r == Standardized(LowerStrip(Python, PyStr(rt, c)))
  {
    if Falsy(c) then Undefined else Standardized(LowerStrip(Python, PyStr(rt, c)))
  }

  /** A blank text strips to nothing. */
  lemma StripBlank(s: string)
    requires forall i :: 0 <= i < |s| ==> IsBlank(Python, s[i])
    ensures Strip(Python, s) == [] && LowerStrip(Python, s) == []
  {
    TrimStartBlank(s);
    var l := Lower(s);
    assert forall i :: 0 <= i < |s| ==> IsBlank(Python, l[i]);
    TrimStartBlank(l);
  }

  lemma {:induction false} TrimStartBlank(s: string)
    requires forall i :: 0 <= i < |s| ==> IsBlank(Python, s[i])
    ensures TrimStart(Python, s) == []
  {
    if s != [] {
      TrimStartBlank(s[1..]);
    }
  }

  /**
   * As written, blank text gives "", and "" gives "Indefinido": applying the
   * function twice differs from applying it once.
   */
  lemma StandardizeStatusNotIdempotent(rt: Runtime, blank: string)
    requires blank != [] && forall i :: 0 <= i < |blank| ==> IsBlank(Python, blank[i])
    ensures StandardizeStatusAsWritten(rt, Str(blank)) == ""
    ensures StandardizeStatusAsWritten(rt, Str(StandardizeStatusAsWritten(rt, Str(blank)))) == Undefined
  {
    StripBlank(blank);
    assert Title([]) == [];
  }

  /** Lowercase with no surrounding blanks: what `lower().strip()` produces. */
  predicate Normalised(key: string) {
    && (key == [] || (!IsBlank(Python, key[0]) && !IsBlank(Python, key[|key| - 1])))
    && forall i :: 0 <= i < |key| ==> !IsUpper(key[i])
  }

  /** `str(status).lower().strip()`. */
  function StatusKey(rt: Runtime, c: Cell): (k: string)
    ensures Normalised(k)
  {
    LowerStrip(Python, PyStr(rt, c))
  }

  /**
   * `standardize_status` with the emptiness test made after the strip:
   * missing, falsy and blank input is "Indefinido", a synonym gives its
   * standard status, anything else the title-case of its normalised text.
   */
  function StandardizeStatus(rt: Runtime, c: Cell): (r: string)
    ensures Falsy(c) || StatusKey(rt, c) == [] ==> r == Undefined
    ensures !Falsy(c) && StatusSynonym(StatusKey(rt, c)).Some? ==> r == StatusSynonym(StatusKey(rt, c)).value
    ensures !Falsy(c) && StatusKey(rt, c) != [] && StatusSynonym(StatusKey(rt, c)).None? ==> r == Title(StatusKey(rt, c))
    ensures r != []
  {
    if Falsy(c) then Undefined
    else
      var key := StatusKey(rt, c);
      if key == [] then Undefined else Standardized(key)
  }

  /** The corrected function agrees with the original wherever the original does not produce "". */
  lemma StandardizeStatusAgrees(rt: Runtime, c: Cell)
    requires Falsy(c) || StatusKey(rt, c) != []
    ensures StandardizeStatus(rt, c) == StandardizeStatusAsWritten(rt, c)
  {
  }

  /** A normalised key comes back unchanged through title-case and renormalisation. */
  lemma TitleKeyReturns(key: string)
    requires key != [] && Normalised(key)
    ensures LowerStrip(Python, Title(key)) == key
  {
    LowerOfTitle(key);
    var l := Lower(key);
    assert forall i :: 0 <= i < |key| ==> l[i] == key[i];
    assert l == key;
    StripFixed(Python, key);
  }

  /** Only the empty text is a falsy text. */
  lemma TextNotFalsy(s: string)
    requires s != []
    ensures !Falsy(Str(s))
  {
  }

  /** The key of a text cell is its lowercased, stripped text. */
  lemma StatusKeyOfText(rt: Runtime, s: string)
    ensures StatusKey(rt, Str(s)) == LowerStrip(Python, s)
  {
  }

  /** A capitalised spelling normalises to its lowercase key. */
  lemma CapitalisedKey(s: string, key: string)
    requires |s| == |key| && forall i :: 0 <= i < |s| ==> LowerChar(s[i]) == key[i]
    requires key != [] && !IsBlank(Python, key[0]) && !IsBlank(Python, key[|key| - 1])
    ensures LowerStrip(Python, s) == key
  {
    var l := Lower(s);
    assert l == key;
    StripFixed(Python, key);
  }

  /** Title-case of one lowercase ASCII word: its first letter raised. */
  lemma TitleWord(w: string)
    requires w != [] && forall i :: 0 <= i < |w| ==> IsAsciiLower(w[i])
    ensures Title(w) == [UpperChar(w[0])] + w[1..]
  {
    var r := Title(w);
    forall i | 0 < i < |w| ensures r[i] == w[i] {
      assert IsLetter(w[i - 1]) && IsLetter(w[i]);
    }
  }

  /** A standard status whose lowercase spelling is one of its synonyms standardises to itself. */
  lemma SynonymFixed(rt: Runtime, o: string, key: string)
    requires |o| == |key| && forall i :: 0 <= i < |o| ==> LowerChar(o[i]) == key[i]
    requires key != [] && !IsBlank(Python, key[0]) && !IsBlank(Python, key[|key| - 1])
    requires StatusSynonym(key) == Some(o)
    ensures StandardizeStatus(rt, Str(o)) == o
  {
    assert StatusKey(rt, Str(o)) == key by {
      CapitalisedKey(o, key);
      StatusKeyOfText(rt, o);
    }
    TextNotFalsy(o);
    KeyStandardizes(rt, Str(o), key);
  }

  /** A non-falsy cell with a non-empty key standardises as that key does. */
  lemma KeyStandardizes(rt: Runtime, c: Cell, key: string)
    requires !Falsy(c) && StatusKey(rt, c) == key && key != []
    ensures StandardizeStatus(rt, c) == Standardized(key)
  {
  }

  /** Each standard status standardises to itself. */
  lemma StandardFixed(rt: Runtime, o: string)
    requires o in StandardStatuses
    ensures StandardizeStatus(rt, Str(o)) == o
  {
    if o == "Aberto" {
      SynonymFixed(rt, o, "aberto");
    } else if o == "Fechado" {
      SynonymFixed(rt, o, "fechado");
    } else {
      SynonymFixed(rt, o, "em andamento");
    }
  }

  /** The title-case of a normalised key that is no synonym standardises to itself. */
  lemma TitleFixed(rt: Runtime, key: string)
    requires key != [] && Normalised(key) && StatusSynonym(key).None?
    ensures StandardizeStatus(rt, Str(Title(key))) == Title(key)
  {
    var o := Title(key);
    TitleKeyReturns(key);
    StatusKeyOfText(rt, o);
    TextNotFalsy(o);
  }

  /** "Indefinido" is no synonym: it is the title-case of "indefinido". */
  lemma UndefinedIsTitle(key: string)
    requires key == "indefinido"
    ensures key != [] && Normalised(key) && StatusSynonym(key).None? && Title(key) == Undefined
  {
    TitleWord(key);
  }

  /** The corrected function is idempotent: a standardised status standardises to itself. */
  lemma StandardizeStatusIdempotent(rt: Runtime, c: Cell)
    ensures StandardizeStatus(rt, Str(StandardizeStatus(rt, c))) == StandardizeStatus(rt, c)
  {
    var r := StandardizeStatus(rt, c);
    var key := StatusKey(rt, c);
    if Falsy(c) || key == [] {
      UndefinedIsTitle("indefinido");
      TitleFixed(rt, "indefinido");
    } else if StatusSynonym(key).Some? {
      StandardFixed(rt, r);
    } else {
      TitleFixed(rt, key);
    }
  }

  // ---------------------------------------------------------------------------
  // calculate_resolution_time

  /**
   * The time from `start` to `finish` in the requested unit: fractional hours
   * or minutes, whole days rounded down (`Timedelta.days`), and seconds for
   * any other unit name. Missing when either date does not parse.
   */
  function ResolutionTime(rt: Runtime, start: Cell, finish: Cell, unit: string): (r: Option<real>)
    ensures r.Some? <==> ToDatetime(rt, start).Some? && ToDatetime(rt, finish).Some?
  {
    match (ToDatetime(rt, start), ToDatetime(rt, finish))
    case (Some(a), Some(b)) =>
      var seconds := b.seconds - a.seconds;
      if unit == "hours" then Some(seconds as real / 3600.0)
      else if unit == "days" then Some((seconds / 86400) as real)
      else if unit == "minutes" then Some(seconds as real / 60.0)
      else Some(seconds as real)
    case _ => None
  }

  /**
   * The units agree with each other: an hour is sixty minutes, a minute sixty
   * seconds, and the day count is the number of whole days, rounded towards
   * the past for a negative span.
   */
  lemma ResolutionUnitsAgree(rt: Runtime, start: Cell, finish: Cell, other: string)
    requires ResolutionTime(rt, start, finish, "seconds").Some?
    requires other !in {"hours", "days", "minutes"}
    ensures var s := ResolutionTime(rt, start, finish, other).value;
      && ResolutionTime(rt, start, finish, "hours").value * 60.0 == ResolutionTime(rt, start, finish, "minutes").value
      && ResolutionTime(rt, start, finish, "minutes").value * 60.0 == s
      && ResolutionTime(rt, start, finish, "days").value * 86400.0 <= s
      && s < (ResolutionTime(rt, start, finish, "days").value + 1.0) * 86400.0
  {
    var a := ToDatetime(rt, start).value;
    var b := ToDatetime(rt, finish).value;
    var seconds := b.seconds - a.seconds;
    var d := seconds / 86400;
    assert d * 86400 <= seconds < (d + 1) * 86400;
    assert (d as real) * 86400.0 == (d * 86400) as real;
    assert (d as real + 1.0) * 86400.0 == ((d + 1) * 86400) as real;
  }

  // ---------------------------------------------------------------------------
  // categorize_satisfaction

  const NotRated: string := "N\U{E3}o Avaliado"

  /** The five levels, worst first. */
  const SatisfactionLevels: seq<string> := ["P\U{E9}ssima", "Ruim", "Regular", "Boa", "Excelente"]

  /** Position of a score among the levels: 4.5, 4.0, 3.0 and 2.0 are the lower bounds of the upper four. */
  function LevelIndex(x: real): (i: nat)
    ensures i < 5
    ensures i == 4 <==> x >= 4.5
    ensures i == 0 <==> x < 2.0
  {
    if x >= 4.5 then 4 else if x >= 4.0 then 3 else if x >= 3.0 then 2 else if x >= 2.0 then 1 else 0
  }

  /** `categorize_satisfaction`: "Não Avaliado" exactly for a missing score, else its level. */
  function CategorizeSatisfaction(x: Option<real>): (r: string)
    ensures r == NotRated <==> x.None?
    ensures x.Some? ==> r == SatisfactionLevels[LevelIndex(x.value)]
  {
    match x
    case None => NotRated
    case Some(v) => SatisfactionLevels[LevelIndex(v)]
  }

  /** A higher score never gets a lower level. */
  lemma CategorizeMonotone(a: real, b: real)
    requires a <= b
    ensures LevelIndex(a) <= LevelIndex(b)
  {
  }

  // ---------------------------------------------------------------------------
  // detect_trends

  /** Weekly ticket counts in week order: the week label and its count. */
  type Weeks = seq<(string, nat)>

  function Counts(w: Weeks): (r: seq<real>)
    ensures |r| == |w|
    ensures forall i :: 0 <= i < |w| ==> r[i] == w[i].1 as real
  {
    seq(|w|, i requires 0 <= i < |w| => w[i].1 as real)
  }

  /** `weekly_counts.tail(2).mean()`. */
  function RecentAverage(w: Weeks): real
    requires |w| >= 2
  {
    (w[|w| - 2].1 + w[|w| - 1].1) as real / 2.0
  }

  /** `weekly_counts.head(-2).mean()` when there are more than two weeks, else the first week's count. */
  function PreviousAverage(w: Weeks): (r: real)
    requires |w| >= 2
    ensures r >= 0.0
  {
    if |w| > 2 then
      var xs := Counts(w[..|w| - 2]);
      MeanNonNegative(xs);
      Mean(xs).value
    else w[0].1 as real
  }

  lemma MeanNonNegative(xs: seq<real>)
    requires xs != [] && forall i :: 0 <= i < |xs| ==> xs[i] >= 0.0
    ensures Mean(xs).value >= 0.0
  {
    SumNonNegative(xs);
  }

  lemma {:induction false} SumNonNegative(xs: seq<real>)
    requires forall i :: 0 <= i < |xs| ==> xs[i] >= 0.0
    ensures SumReal(xs) >= 0.0
  {
    if xs != [] {
      SumNonNegative(xs[..|xs| - 1]);
    }
  }

  /** The relative change in percent; zero when the earlier average is zero. */
  function ChangePercent(recent: real, previous: real): (c: real)
    requires previous >= 0.0
    ensures previous == 0.0 ==> c == 0.0
    ensures previous > 0.0 ==> c * previous == (recent - previous) * 100.0
  {
    if previous > 0.0 then (recent - previous) / previous * 100.0 else 0.0
  }

  /** The direction label: a change beyond five percent either way, else stable. */
  function Direction(change: real): (d: string)
    ensures d == "crescente" <==> change > 5.0
    ensures d == "decrescente" <==> change < -5.0
    ensures d == "est\U{E1}vel" <==> -5.0 <= change <= 5.0
  {
    if change > 5.0 then "crescente" else if change < -5.0 then "decrescente" else "est\U{E1}vel"
  }

  /** The direction follows the comparison of the two averages against a five-percent band. */
  lemma DirectionOfAverages(recent: real, previous: real)
    requires previous > 0.0
    ensures Direction(ChangePercent(recent, previous)) == "crescente" <==> (recent - previous) * 20.0 > previous
    ensures Direction(ChangePercent(recent, previous)) == "decrescente" <==> (previous - recent) * 20.0 > previous
  {
    var c := ChangePercent(recent, previous);
    assert c * previous == (recent - previous) * 100.0;
    if c > 5.0 {
      assert c * previous > 5.0 * previous;
    }
    if c < -5.0 {
      assert c * previous < -5.0 * previous;
    }
    if (recent - previous) * 20.0 > previous {
      assert c * previous > 5.0 * previous;
    }
    if (previous - recent) * 20.0 > previous {
      assert c * previous < -5.0 * previous;
    }
  }

  /**
   * The direction is taken before rounding: a change just above five percent
   * is reported as 5.0 and still as growth.
   */
  lemma DirectionBeforeRounding(x: real)
    requires 5.0 < x < 5.05
    ensures Round1(x) == 5.0
    ensures Direction(x) == "crescente" && Direction(Round1(x)) != "crescente"
  {
    assert RoundHalfEven(x * 10.0) == 50 by {
      assert (x * 10.0).Floor == 50;
    }
  }

  /** Index of the first week of least count (`idxmin`). */
  function FirstMin(w: Weeks): (i: nat)
    requires w != []
    ensures i < |w|
    ensures forall j :: 0 <= j < |w| ==> w[i].1 <= w[j].1
    ensures forall j :: 0 <= j < i ==> w[j].1 > w[i].1
  {
    if |w| == 1 then 0
    else
      var b := FirstMin(w[..|w| - 1]);
      if w[|w| - 1].1 < w[b].1 then |w| - 1 else b
  }

  datatype Trends = Trends(change: Option<real>, direction: Option<string>, peak: Option<(string, nat)>, low: Option<(string, nat)>)

  /**
   * `detect_trends` from the weekly counts on: change and direction from two
   * weeks on, busiest and quietest week from one week on. With exactly two
   * weeks the recent average covers both of them.
   */
  function DetectTrends(w: Weeks): (r: Trends)
    ensures r.change.Some? <==> |w| >= 2
    ensures r.direction.Some? <==> |w| >= 2
    ensures |w| >= 2 ==> r.direction == Some(Direction(ChangePercent(RecentAverage(w), PreviousAverage(w))))
    ensures |w| >= 2 ==> r.change == Some(Round1(ChangePercent(RecentAverage(w), PreviousAverage(w))))
    ensures |w| >= 2 ==> var exact := ChangePercent(RecentAverage(w), PreviousAverage(w));
      exact - 0.05 <= r.change.value <= exact + 0.05
    ensures r.change.Some? ==> r.change.value * 10.0 == (r.change.value * 10.0).Floor as real
    ensures r.peak.Some? <==> w != []
    ensures r.low.Some? <==> r.peak.Some?
    ensures r.low.Some? ==> r.peak.Some? && r.low.value.1 <= r.peak.value.1
    ensures r.peak.Some? ==> r.peak.value in w && forall j :: 0 <= j < |w| ==> w[j].1 <= r.peak.value.1
    ensures r.low.Some? ==> r.low.value in w && forall j :: 0 <= j < |w| ==> r.low.value.1 <= w[j].1
    ensures r.peak.Some? ==> exists i :: 0 <= i < |w| && w[i] == r.peak.value && forall j :: 0 <= j < i ==> w[j].1 < w[i].1
    ensures r.low.Some? ==> exists i :: 0 <= i < |w| && w[i] == r.low.value && forall j :: 0 <= j < i ==> w[j].1 > w[i].1
  {
    var exact := if |w| >= 2 then ChangePercent(RecentAverage(w), PreviousAverage(w)) else 0.0;
    var change := if |w| >= 2 then Some(Round1(exact)) else None;
    var direction := if |w| >= 2 then Some(Direction(exact)) else None;
    var peak := if w != [] then Some(w[FirstMax(w)]) else None;
    var low := if w != [] then Some(w[FirstMin(w)]) else None;
    Trends(change, direction, peak, low)
  }

  /** Two weeks: the second must exceed the first by more than a tenth for growth to be reported. */
  lemma TwoWeeksGrowth(a: nat, b: nat, la: string, lb: string)
    requires a > 0
    ensures DetectTrends([(la, a), (lb, b)]).direction == Some("crescente") <==> (b - a) as real * 10.0 > a as real
  {
    var w := [(la, a), (lb, b)];
    assert RecentAverage(w) == (a + b) as real / 2.0;
    assert PreviousAverage(w) == a as real;
    DirectionOfAverages((a + b) as real / 2.0, a as real);
  }

  // ---------------------------------------------------------------------------
  // validate_data_quality

  /** The integer nearest to `y`, halves to the even neighbour. */
  function RoundHalfEven(y: real): (k: int)
    ensures y - 0.5 <= k as real <= y + 0.5
    ensures y >= 0.0 ==> k >= 0
    ensures y == y.Floor as real ==> k == y.Floor
  {
    var f := y.Floor;
    var d := y - f as real;
    if d > 0.5 then f + 1 else if d < 0.5 then f else if f % 2 == 0 then f else f + 1
  }

  /** Python's `round(x, 2)` and `round(x, 1)` on exact decimals. */
  function Round2(x: real): (r: real)
    ensures x - 0.005 <= r <= x + 0.005
    ensures r * 100.0 == (r * 100.0).Floor as real
  {
    var k := RoundHalfEven(x * 100.0);
    assert k as real / 100.0 * 100.0 == k as real;
    k as real / 100.0
  }

  function Round1(x: real): (r: real)
    ensures x - 0.05 <= r <= x + 0.05
    ensures r * 10.0 == (r * 10.0).Floor as real
  {
    var k := RoundHalfEven(x * 10.0);
    assert k as real / 10.0 * 10.0 == k as real;
    k as real / 10.0
  }

  /** Rounding keeps a percentage within 0..100. */
  lemma RoundPercent(x: real)
    requires 0.0 <= x <= 100.0
    ensures 0.0 <= Round2(x) <= 100.0
    ensures 0.0 <= Round1(x) <= 100.0
  {
    assert RoundHalfEven(x * 100.0) <= 10000 by {
      if x * 100.0 < 10000.0 {
        assert (x * 100.0).Floor < 10000;
      }
    }
    assert RoundHalfEven(x * 10.0) <= 1000 by {
      if x * 10.0 < 1000.0 {
        assert (x * 10.0).Floor < 1000;
      }
    }
  }

  /** The problems the report lists, in the order it lists them. */
  datatype Issue = MostlyMissing(column: string, percent: real) | Duplicates(count: nat) | InvalidDates(column: string, count: nat)

  datatype Quality = Quality(
    totalRows: nat,
    columns: seq<string>,
    missing: seq<(string, nat, Option<real>)>,
    issues: seq<Issue>,
    score: real)

  function CountMissing(col: seq<Cell>): (n: nat)
    ensures n <= |col|
  {
    if col == [] then 0 else (if col[0].Missing? then 1 else 0) + CountMissing(col[1..])
  }

  /** `df.duplicated().sum()`: rows equal, cell for cell, to an earlier row (NaN equals NaN). */
  function CountDuplicates(rows: seq<seq<Cell>>, width: nat): (n: nat)
    ensures n <= |rows|
  {
    if rows == [] then 0
    else
      var last := Widen(rows[|rows| - 1], width);
      var earlier := rows[..|rows| - 1];
      CountDuplicates(earlier, width) + (if exists i :: 0 <= i < |earlier| && Widen(earlier[i], width) == last then 1 else 0)
  }

  /** `pd.to_datetime(col, errors='coerce').isna().sum()`. */
  function CountInvalidDates(rt: Runtime, col: seq<Cell>): (n: nat)
    ensures n <= |col|
  {
    if col == [] then 0 else (if ToDatetime(rt, col[0]).None? then 1 else 0) + CountInvalidDates(rt, col[1..])
  }

  /** The missing share of column `j`; NaN (None) for a frame without rows. */
  function MissingShare(f: Frame, j: nat): (p: Option<real>)
    requires j < |f.columns|
    ensures p.Some? <==> |f.rows| > 0
    ensures p.Some? ==> 0.0 <= p.value <= 100.0
    ensures p.Some? ==> p.value * |f.rows| as real == CountMissing(Column(f, f.columns[j]).value) as real * 100.0
  {
    var col := Column(f, f.columns[j]).value;
    if |f.rows| == 0 then None
    else
      PercentAtMost(CountMissing(col), |f.rows|);
      Some(Percent(CountMissing(col), |f.rows|))
  }

  lemma PercentAtMost(part: nat, whole: nat)
    requires 0 < whole && part <= whole
    ensures 0.0 <= Percent(part, whole) <= 100.0
  {
    var p := Percent(part, whole);
    CancelPositive(p, 100.0, whole as real, part as real * 100.0);
    CancelPositive(-p, 0.0, whole as real, -(part as real * 100.0));
  }

  function MissingIssues(f: Frame, j: nat): (r: seq<Issue>)
    requires j <= |f.columns|
    ensures forall x :: x in r ==> x.MostlyMissing?
    ensures |r| <= |f.columns| - j
    decreases |f.columns| - j
  {
    if j == |f.columns| then []
    else
      var p := MissingShare(f, j);
      (if p.Some? && p.value > 30.0 then [MostlyMissing(f.columns[j], p.value)] else []) + MissingIssues(f, j + 1)
  }

  function DateIssues(rt: Runtime, f: Frame): seq<Issue> {
    var names := ["data_abertura", "data_fechamento"];
    var abertura := if names[0] in f.columns && CountInvalidDates(rt, Column(f, names[0]).value) > 0
      then [InvalidDates(names[0], CountInvalidDates(rt, Column(f, names[0]).value))] else [];
    var fechamento := if names[1] in f.columns && CountInvalidDates(rt, Column(f, names[1]).value) > 0
      then [InvalidDates(names[1], CountInvalidDates(rt, Column(f, names[1]).value))] else [];
    abertura + fechamento
  }

  function SumShares(f: Frame, j: nat): (s: real)
    requires j <= |f.columns| && |f.rows| > 0
    ensures 0.0 <= s <= 100.0 * (|f.columns| - j) as real
    decreases |f.columns| - j
  {
    if j == |f.columns| then 0.0
    else
      RoundPercent(MissingShare(f, j).value);
      Round2(MissingShare(f, j).value) + SumShares(f, j + 1)
  }

  /** Every label occurs once; with a repeated label `df[col]` is a frame and the `> 30` test raises. */
  predicate DistinctLabels(labels: seq<string>) {
    forall i, j :: 0 <= i < j < |labels| ==> labels[i] != labels[j]
  }

  /**
   * The score before the final rounding: 100 less ten per issue and less the
   * average rounded missing share, floored at 0.
   */
  function RawScore(f: Frame, issues: nat): (score: real)
    requires |f.columns| > 0 && |f.rows| > 0
    ensures 0.0 <= score <= 100.0
    ensures issues > 0 ==> score <= 90.0
  {
    var raw := 100.0 - (issues * 10) as real - MissingPenalty(f);
    if raw > 0.0 then raw else 0.0
  }

  /** The average of the rounded missing shares over the columns. */
  function MissingPenalty(f: Frame): (penalty: real)
    requires |f.columns| > 0 && |f.rows| > 0
    ensures penalty >= 0.0
  {
    var sum := SumShares(f, 0);
    var n := |f.columns| as real;
    var penalty := sum / n;
    CancelPositive(-penalty, 0.0, n, -sum);
    penalty
  }

  /** The stored percentage: `round(share, 2)`, NaN (None) for a frame without rows. */
  function StoredShare(f: Frame, j: nat): (p: Option<real>)
    requires j < |f.columns|
    ensures p.Some? <==> |f.rows| > 0
    ensures p.Some? ==> p.value == Round2(MissingShare(f, j).value)
    ensures p.Some? ==> 0.0 <= p.value <= 100.0
    ensures p.Some? ==> var share := MissingShare(f, j).value;
      share - 0.005 <= p.value <= share + 0.005 && p.value * 100.0 == (p.value * 100.0).Floor as real
  {
    match MissingShare(f, j)
    case None => None
    case Some(x) =>
      RoundPercent(x);
      Some(Round2(x))
  }

  /** The `missing_data` entries: label, missing count and rounded percentage per column. */
  function MissingTable(f: Frame): (r: seq<(string, nat, Option<real>)>)
    ensures |r| == |f.columns|
    ensures forall j :: 0 <= j < |f.columns| ==>
      r[j] == (f.columns[j], CountMissing(Column(f, f.columns[j]).value), StoredShare(f, j))
  {
    seq(|f.columns|, j requires 0 <= j < |f.columns| =>
      (f.columns[j], CountMissing(Column(f, f.columns[j]).value), StoredShare(f, j)))
  }

  function QualityIssues(rt: Runtime, f: Frame): (r: seq<Issue>)
  {
    var dups := CountDuplicates(f.rows, |f.columns|);
    MissingIssues(f, 0) + (if dups > 0 then [Duplicates(dups)] else []) + DateIssues(rt, f)
  }

  /**
   * `validate_data_quality`. None where Python raises: a frame without
   * columns (the average missing share divides by zero) or with a repeated
   * label. Without rows the shares are NaN and `max(0, NaN)` makes the
   * score 0.
   */
  function ValidateDataQuality(rt: Runtime, f: Frame): (r: Option<Quality>)
    ensures r.None? <==> |f.columns| == 0 || !DistinctLabels(f.columns)
    ensures r.Some? ==> 0.0 <= r.value.score <= 100.0
    ensures r.Some? ==> r.value.totalRows == |f.rows| && r.value.columns == f.columns
    ensures r.Some? && |f.rows| == 0 ==> r.value.score == 0.0
    ensures r.Some? && |f.rows| > 0 && r.value.issues != [] ==> r.value.score <= 90.0
    ensures r.Some? ==> |r.value.missing| == |f.columns| && forall j :: 0 <= j < |f.columns| ==>
      r.value.missing[j].0 == f.columns[j] && r.value.missing[j].1 == CountMissing(Column(f, f.columns[j]).value)
    ensures r.Some? ==> forall j :: 0 <= j < |f.columns| ==>
      (r.value.missing[j].2.Some? <==> |f.rows| > 0) &&
      (r.value.missing[j].2.Some? ==> r.value.missing[j].2.value == Round2(MissingShare(f, j).value))
  {
    if |f.columns| == 0 || !DistinctLabels(f.columns) then None
    else
      var issues := QualityIssues(rt, f);
      var score := if |f.rows| == 0 then 0.0 else RawScore(f, |issues|);
      RoundPercent(score);
      assert score <= 90.0 ==> Round1(score) <= 90.0 by {
        if score <= 90.0 {
          assert RoundHalfEven(score * 10.0) <= 900 by {
            if score * 10.0 < 900.0 {
              assert (score * 10.0).Floor < 900;
            }
          }
        }
      }
      assert Round1(0.0) == 0.0;
      Some(Quality(|f.rows|, f.columns, MissingTable(f), issues, Round1(score)))
  }

  /** One missing cell in three rows is stored as 33.33, not as the exact third. */
  lemma ThirdMissingStored(rt: Runtime, f: Frame, j: nat)
    requires |f.columns| > 0 && DistinctLabels(f.columns) && j < |f.columns|
    requires |f.rows| == 3 && CountMissing(Column(f, f.columns[j]).value) == 1
    ensures ValidateDataQuality(rt, f).value.missing[j].2 == Some(33.33)
  {
    var share := MissingShare(f, j).value;
    assert share == 100.0 / 3.0;
    assert RoundHalfEven(share * 100.0) == 3333 by {
      assert (share * 100.0).Floor == 3333;
    }
  }

  /**
   * A column more than 30 percent missing is reported, and only such a
   * column: the share is the missing cells over the rows.
   */
  lemma MissingIssuesExact(f: Frame, j: nat, name: string)
    requires j <= |f.columns|
    ensures (exists x :: x in MissingIssues(f, j) && x.column == name) <==>
      exists k :: j <= k < |f.columns| && f.columns[k] == name && MissingShare(f, k).Some? && MissingShare(f, k).value > 30.0
    decreases |f.columns| - j
  {
    if j < |f.columns| {
      MissingIssuesExact(f, j + 1, name);
    }
  }

  /** Data with nothing missing, no duplicate and no bad date scores 100. */
  lemma CleanDataScoresFull(rt: Runtime, f: Frame)
    requires |f.columns| > 0 && DistinctLabels(f.columns) && |f.rows| > 0
    requires QualityIssues(rt, f) == []
    requires forall j :: 0 <= j < |f.columns| ==> CountMissing(Column(f, f.columns[j]).value) == 0
    ensures ValidateDataQuality(rt, f).value.score == 100.0
  {
    NoMissingNoPenalty(f, 0);
    assert RawScore(f, 0) == 100.0;
    assert Round1(100.0) == 100.0;
  }

  lemma {:induction false} NoMissingNoPenalty(f: Frame, j: nat)
    requires j <= |f.columns| && |f.rows| > 0
    requires forall k :: 0 <= k < |f.columns| ==> CountMissing(Column(f, f.columns[k]).value) == 0
    ensures SumShares(f, j) == 0.0
    decreases |f.columns| - j
  {
    if j < |f.columns| {
      NoMissingNoPenalty(f, j + 1);
      assert MissingShare(f, j) == Some(0.0);
      assert Round2(0.0) == 0.0;
    }
  }

  // ---------------------------------------------------------------------------
  // export_summary

  /** The entries of the processed data the summary reads; absent keys are None. */
  datatype SummaryInput = SummaryInput(
    total: Option<nat>,
    open: Option<nat>,
    closed: Option<nat>,
    meanTime: Option<string>,
    byTechnician: Option<Freq<string>>,
    byCategory: Option<Freq<string>>,
    insights: Option<map<string, string>>)

  datatype Summary = Summary(
    totalRecords: nat,
    open: nat,
    closed: nat,
    meanTime: string,
    technicians: Option<Freq<string>>,
    categories: Option<Freq<string>>,
    insights: map<string, string>)

  const SummaryTop: nat := 5

  /** `sorted(items, key=count, reverse=True)[:5]`. */
  function TopFive(f: Freq<string>): (r: Freq<string>)
    ensures |r| == if |f| < SummaryTop then |f| else SummaryTop
    ensures SortedDesc(r, CountKey)
    ensures multiset(r) <= multiset(f)
    ensures forall x, y :: x in r && y in multiset(f) - multiset(r) ==> CountKey(x) >= CountKey(y)
  {
    TopN(f, CountKey, SummaryTop)
  }

  /**
   * `export_summary` in its dictionary form: totals default to 0, the mean
   * time to "N/A", the insights to an empty dictionary, and the rankings are
   * present exactly when their tables are.
   */
  function ExportSummary(d: SummaryInput): (s: Summary)
    ensures s.totalRecords == d.total.GetOr(0) && s.open == d.open.GetOr(0) && s.closed == d.closed.GetOr(0)
    ensures s.meanTime == d.meanTime.GetOr("N/A")
    ensures s.technicians.Some? <==> d.byTechnician.Some?
    ensures s.categories.Some? <==> d.byCategory.Some?
    ensures s.technicians.Some? ==> s.technicians.value == TopFive(d.byTechnician.value)
    ensures s.categories.Some? ==> s.categories.value == TopFive(d.byCategory.value)
    ensures d.insights.Some? ==> s.insights == d.insights.value
    ensures d.insights.None? ==> s.insights == map[]
  {
    Summary(
      d.total.GetOr(0), d.open.GetOr(0), d.closed.GetOr(0), d.meanTime.GetOr("N/A"),
      if d.byTechnician.Some? then Some(TopFive(d.byTechnician.value)) else None,
      if d.byCategory.Some? then Some(TopFive(d.byCategory.value)) else None,
      d.insights.GetOr(map[]))
  }

  /** The ranking is stable: it is a prefix of a sort that keeps equal counts in table order. */
  lemma TopFiveStable(f: Freq<string>)
    ensures var s := SortDesc(f, CountKey);
      && TopFive(f) == s[..|TopFive(f)|]
      && forall v :: WithKey(s, CountKey, v) == WithKey(f, CountKey, v)
  {
    SortDescCorrect(f, CountKey);
  }
}

=== FILE: demo.dfy ===
/**
 * The demonstration script (demo.py): the structure check applied to a
 * report and the demonstration report itself, whose figures agree with the
 * rules the pipeline computes them by. File export and console output are
 * outside the model.
 */
module Demo {

  import opened Frequency
  import opened Reports
  import opened DataProcessor

  /** The top-level keys a dashboard report must carry, in the order they are checked. */
  const RequiredFields: seq<string> := [
    "total_chamados", "total_abertos", "total_fechados",
    "tempo_medio_resolucao", "chamados_por_tecnico",
    "categorias", "tabela", "insights", "ultima_atualizacao"]

  /** The required keys absent from `keys`, in the checking order. */
  function MissingFields(keys: set<string>, required: seq<string>): (missing: seq<string>)
    ensures |missing| <= |required|
    ensures forall f :: f in missing <==> f in required && f !in keys
  {
    if required == [] then []
    else (if required[0] in keys then [] else [required[0]]) + MissingFields(keys, required[1..])
  }

  /** `validate_data_structure`: true exactly when every required key is present. */
  function ValidateDataStructure(keys: set<string>): (ok: bool)
    ensures ok <==> forall f :: f in RequiredFields ==> f in keys
  {
    var missing := MissingFields(keys, RequiredFields);
    assert missing != [] ==> missing[0] in missing;
    missing == []
  }

  /** Extra keys never make a report fail the check, and dropping a required key always does. */
  lemma ValidationMonotone(keys: set<string>, more: set<string>, f: string)
    requires keys <= more
    ensures ValidateDataStructure(keys) ==> ValidateDataStructure(more)
    ensures f in RequiredFields ==> !ValidateDataStructure(more - {f})
  {
  }

  /** The demonstration report's figures. */
  datatype DemoReport = DemoReport(
    total: nat,
    open: nat,
    closed: nat,
    byTechnician: Freq<string>,
    byCategory: Freq<string>,
    tableSize: nat,
    keys: set<string>)

  const DemoData: DemoReport := DemoReport(
    67, 18, 49,
    [("Jo\U{E3}o Silva", 16), ("Maria Santos", 14), ("Carlos Oliveira", 12),
     ("Ana Costa", 11), ("Pedro Ferreira", 8), ("Luciana Rocha", 6)],
    [("Hardware", 22), ("Software", 18), ("Rede", 12), ("Sistema", 9), ("Usuario", 6)],
    10,
    set f | f in RequiredFields)

  /** The demonstration report passes the structure check. */
  lemma DemoDataValid()
    ensures ValidateDataStructure(DemoData.keys)
  {
  }

  /**
   * The headline insights of the demonstration report are the ones the
   * insight rules produce: the first technician with the largest count, and
   * the largest category with its share rounded to one decimal, 32.8%.
   */
  lemma DemoInsightsAgree()
    ensures DemoData.byTechnician[FirstMax(DemoData.byTechnician)] == ("Jo\U{E3}o Silva", 16)
    ensures DemoData.byCategory[FirstMax(DemoData.byCategory)] == ("Hardware", 22)
    ensures TopShare(DemoData.byCategory).Some? && Round1(TopShare(DemoData.byCategory).value) == 32.8
  {
    HeadOfSorted(DemoData.byTechnician);
    HeadOfSorted(DemoData.byCategory);
    var cats := DemoData.byCategory;
    assert Total(cats) == 67;
    var p := TopShare(cats).value;
    assert p == Percent(22, 67);
    ShareRoundsTo(p);
  }

  /** On a table whose first count is strictly largest, the first maximum is the head. */
  lemma HeadOfSorted(f: Freq<string>)
    requires f != [] && forall j :: 0 < j < |f| ==> f[j].1 < f[0].1
    ensures FirstMax(f) == 0
  {
  }

  lemma ShareRoundsTo(p: real)
    requires p * 67.0 == 2200.0
    ensures Round1(p) == 32.8
  {
    assert 328.0 < p * 10.0 < 328.5;
    assert (p * 10.0).Floor == 328;
    assert RoundHalfEven(p * 10.0) == 328;
  }
}

=== FILE: edgesync.dfy ===
/**
 * The scheduled edge function (supabase/functions/sync-drive-data/index.ts):
 * header classification, the per-row conversion and the loop that keeps the
 * rows with an id. Fetching the sheet, authentication and the upsert are
 * outside the model: a run starts from the `values` array of the sheet.
 */
module EdgeSync {

  import opened Options
  import opened Text
  import opened Cells
  import opened Frequency
  import opened Frames
  import opened Headers
  import opened Reports
  import opened GoogleSheets
  import opened SyncDrive

  /** A value of the sheet's JSON: absent (`undefined` or `null`), text, or a number. */
  datatype JsValue = Undefined | JsStr(s: string) | JsNum(x: real)

  // ---------------------------------------------------------------------------
  // Header mapping

  const EdgeFields: set<string> := {
    "id_chamado", "data_abertura", "data_fechamento", "status", "prioridade", "categoria", "solucao",
    "solicitante", "tecnico", "departamento", "tempo_resolucao", "frt_minutos", "satisfacao"}

  /** The field a normalised header is taken for: the first branch of the `else if` chain that matches. */
  function FieldOf(h: string): (r: Option<string>)
    ensures r.Some? ==> r.value in EdgeFields
    ensures Includes(h, "id") && Includes(h, "chamado") ==> r == Some("id_chamado")
    ensures h == "status" ==> r == Some("status")
    ensures r == Some("satisfacao") ==> Includes(h, "satisfacao")
  {
    if Includes(h, "id") && Includes(h, "chamado") then Some("id_chamado")
    else if Includes(h, "data") && Includes(h, "abertura") then Some("data_abertura")
    else if Includes(h, "data") && Includes(h, "fechamento") then Some("data_fechamento")
    else if h == "status" then Some("status")
    else if h == "prioridade" then Some("prioridade")
    else if Includes(h, "motivo") || h == "categoria" then Some("categoria")
    else if Includes(h, "solucao") then Some("solucao")
    else if Includes(h, "solicitante") then Some("solicitante")
    else if Includes(h, "agente") || Includes(h, "responsavel") || h == "tecnico" then Some("tecnico")
    else if Includes(h, "departamento") then Some("departamento")
    else if Includes(h, "tma") && Includes(h, "minutos") then Some("tempo_resolucao")
    else if Includes(h, "frt") && Includes(h, "minutos") then Some("frt_minutos")
    else if Includes(h, "satisfacao") then Some("satisfacao")
    else None
  }

  /** The field a raw header is taken for, after `normalizeColumnName`. */
  function HeaderField(header: string): Option<string> {
    FieldOf(NormalizeColumnNameNfd(header))
  }

  /**
   * The index of the last entry naming each key: a key is mapped exactly
   * when some entry names it, and a later entry overwrites an earlier one.
   */
  function LastIndex<K(!new)>(ks: seq<Option<K>>): (m: map<K, nat>)
    ensures forall k :: k in m <==> exists i :: 0 <= i < |ks| && ks[i] == Some(k)
    ensures forall k :: k in m ==> m[k] < |ks| && ks[m[k]] == Some(k)
    ensures forall k, i :: k in m && m[k] < i < |ks| ==> ks[i] != Some(k)
    decreases |ks|
  {
    if ks == [] then map[]
    else
      var n := |ks| - 1;
      var init := ks[..n];
      var m := LastIndex(init);
      assert forall i :: 0 <= i < n ==> init[i] == ks[i];
      match ks[n]
      case Some(k) => m[k := n]
      case None => m
  }

  /** The field each header is taken for, in header order. */
  function Classified(headers: seq<string>): (ks: seq<Option<string>>)
    ensures |ks| == |headers|
    ensures forall i :: 0 <= i < |headers| ==> ks[i] == HeaderField(headers[i])
  {
    seq(|headers|, i requires 0 <= i < |headers| => HeaderField(headers[i]))
  }

  /** `mapColumns`: each field to the index of the last header taken for it. */
  function MapColumns(headers: seq<string>): (m: map<string, nat>)
    ensures forall k :: k in m <==> exists i :: 0 <= i < |headers| && Classified(headers)[i] == Some(k)
    ensures forall k :: k in m ==> m[k] < |headers| && Classified(headers)[m[k]] == Some(k)
    ensures forall k, i :: k in m && m[k] < i < |headers| ==> Classified(headers)[i] != Some(k)
  {
    LastIndex(Classified(headers))
  }

  // ---------------------------------------------------------------------------
  // Cell conversions

  /** `row[columnMap[key]]`: undefined when the field is unmapped or the row is shorter. */
  function CellFor(row: seq<JsValue>, m: map<string, nat>, key: string): (v: JsValue)
    ensures key !in m ==> v == Undefined
  {
    if key in m && m[key] < |row| then row[m[key]] else Undefined
  }

  /** `v?.toString()`. */
  function JsText(rt: Runtime, v: JsValue): Option<string> {
    match v
    case Undefined => None
    case JsStr(s) => Some(s)
    case JsNum(x) => Some(rt.jsNumber(x))
  }

  /** `v?.toString().trim() || null`: the trimmed text, or null when absent or blank. */
  function TrimmedText(rt: Runtime, v: JsValue): (r: Option<string>)
    ensures v.Undefined? ==> r.None?
    ensures v.JsStr? ==> (r.None? <==> Strip(JavaScript, v.s) == [])
    ensures v.JsStr? && r.Some? ==> r.value == Strip(JavaScript, v.s)
    ensures r.Some? ==> r.value != [] && !IsBlank(JavaScript, r.value[0]) && !IsBlank(JavaScript, r.value[|r.value| - 1])
  {
    match JsText(rt, v)
    case None => None
    case Some(t) => if Strip(JavaScript, t) == [] then None else Some(Strip(JavaScript, t))
  }

  /** Trimming a trimmed text again gives it back. */
  lemma TrimmedTextIdempotent(rt: Runtime, v: JsValue)
    requires TrimmedText(rt, v).Some?
    ensures TrimmedText(rt, JsStr(TrimmedText(rt, v).value)) == TrimmedText(rt, v)
  {
    var t := TrimmedText(rt, v).value;
    StripFixed(JavaScript, t);
    assert TrimmedText(rt, JsStr(t)) == Some(t);
  }

  /** `parseFloat(v)`: the leading decimal of the text; NaN (None) when there is none or the value is absent. */
  function ParseFloat(v: JsValue): (r: Option<real>)
    ensures v.JsNum? ==> r == Some(v.x)
    ensures v.Undefined? ==> r.None?
    ensures v.JsStr? ==> (r.Some? <==> NumberStart(TrimStart(JavaScript, v.s)))
  {
    match v
    case Undefined => None
    case JsStr(s) => ParseFloatPrefix(s)
    case JsNum(x) => Some(x)
  }

  /** The resolution time: each value above 100 is read as minutes and divided by 60. */
  function EdgeTempo(v: JsValue): (r: Option<real>)
    ensures r.None? <==> ParseFloat(v).None?
    ensures r.Some? && ParseFloat(v).value > 100.0 ==> r.value * 60.0 == ParseFloat(v).value
    ensures r.Some? && ParseFloat(v).value <= 100.0 ==> r.value == ParseFloat(v).value
  {
    match ParseFloat(v)
    case None => None
    case Some(x) => Some(if x > 100.0 then x / 60.0 else x)
  }

  /** The duration of a text is its `parseFloat` value, divided by 60 above 100. */
  lemma {:induction false} TempoOfText(s: string, v: real)
    requires ParseFloatPrefix(s) == Some(v)
    ensures EdgeTempo(JsStr(s)) == Some(if v > 100.0 then v / 60.0 else v)
  {
  }

  /** "1.5e2" is 150 minutes, so two and a half hours. */
  lemma ScientificMinutes()
    ensures EdgeTempo(JsStr("1.5e2")) == Some(2.5)
  {
    var s := "1.5e2";
    MantissaOneFive();
    ExponentTwo();
    assert s[3..] == "e2";
    UnsignedExponent(s, 1.5, 3, 2, 2);
    DecimalUnsigned(s);
    ScaleUp(1.5, 2);
    DigitNotBlank(JavaScript, s[0]);
    ParseFloatRead(s, 150.0, 5);
    TempoOfText(s, 150.0);
  }

  lemma MantissaOneFive()
    ensures ScanMantissa("1.5e2") == Some(Scanned(1.5, 3))
  {
    var s := "1.5e2";
    assert DigitRun(s) == 1;
    var frac := s[2..];
    assert DigitRun(frac) == 1;
    assert s[..1] == "1" && frac[..1] == "5";
    assert DigitsValue("1") == 1 && Fraction("5") == 0.5;
  }

  lemma ExponentTwo()
    ensures ScanExponent("e2") == Some(Exponent(2, 2))
  {
    var s := "e2";
    assert s[1..] == "2" && DigitRun("2") == 1;
    assert "2"[..1] == "2" && DigitsValue("2") == 2;
  }

  /** `parseFloat(v) || null`: zero and NaN both become null. */
  function EdgeFrt(v: JsValue): (r: Option<real>)
    ensures r.Some? <==> ParseFloat(v).Some? && ParseFloat(v).value != 0.0
    ensures r.Some? ==> r.value == ParseFloat(v).value
  {
    match ParseFloat(v)
    case None => None
    case Some(x) => if x == 0.0 then None else Some(x)
  }

  // ---------------------------------------------------------------------------
  // Satisfaction

  /** The keys of the edge function's satisfaction table (it adds `péssimo`/`pessimo`). */
  const EdgeSatisfactionLabels: set<string> := {
    "ruim", "p\U{E9}ssimo", "pessimo", "regular", "m\U{E9}dio", "medio", "bom", "\U{F3}timo", "otimo", "excelente"}

  function EdgeSatisfactionLabel(key: string): (r: Option<nat>)
    ensures r.Some? <==> key in EdgeSatisfactionLabels
    ensures r.Some? ==> 1 <= r.value <= 5
    ensures key == "p\U{E9}ssimo" || key == "pessimo" || key == "ruim" ==> r == Some(1)
  {
    if key == "ruim" || key == "p\U{E9}ssimo" || key == "pessimo" then Some(1)
    else if key == "regular" then Some(2)
    else if key == "m\U{E9}dio" || key == "medio" then Some(3)
    else if key == "bom" then Some(4)
    else if key == "\U{F3}timo" || key == "otimo" || key == "excelente" then Some(5)
    else None
  }

  /**
   * `convertSatisfacao` with the table read by its own keys only: numbers pass
   * through, absent and empty values give null, labels give their score and
   * every other text, numeric text included, gives null.
   */
  function ConvertSatisfacao(v: JsValue): (r: Option<real>)
    ensures v.JsNum? ==> r == Some(v.x)
    ensures v.Undefined? || v == JsStr([]) ==> r.None?
    ensures v.JsStr? ==> (r.Some? <==> LowerStrip(JavaScript, v.s) in EdgeSatisfactionLabels)
    ensures v.JsStr? && r.Some? ==> 1.0 <= r.value <= 5.0
  {
    match v
    case JsNum(x) => Some(x)
    case Undefined => None
    case JsStr(s) =>
      if s == [] then None
      else match EdgeSatisfactionLabel(LowerStrip(JavaScript, s))
        case Some(n) => Some(n as real)
        case None => None
  }

  /** Numeric text is not a label: "4" gives null here, while the Python jobs score it 4. */
  lemma NumericSatisfactionDiffers(rt: Runtime)
    ensures ConvertSatisfacao(JsStr("4")) == None
    ensures SheetSatisfaction(rt, Str("4")) == Some(4.0)
  {
    EdgeNumericLabel();
    SheetNumericScore(rt);
  }

  lemma EdgeNumericLabel()
    ensures ConvertSatisfacao(JsStr("4")) == None
  {
    LowerStripFixed(JavaScript, "4");
  }

  lemma SheetNumericScore(rt: Runtime)
    ensures SheetSatisfaction(rt, Str("4")) == Some(4.0)
  {
    assert NatText(4) == "4";
    ParseNumberOfNatText(4);
    StripNoBlank(Python, "4");
    var key := Lower("4");
    assert key == "4" by {
      assert |key| == 1 && key[0] == '4';
    }
    assert SatisfactionLabel(key).None?;
  }

  /** What a property read on the mapping object can give. */
  datatype JsResult = JsNull | JsNumber(x: real) | JsObject

  /** Lowercase property names every object literal inherits from `Object.prototype`. */
  const InheritedKeys: set<string> := {"constructor", "__proto__"}

  /** `mapping[key] || null` as written: the read also finds inherited properties, which are objects. */
  function LookupAsWritten(key: string): (r: JsResult)
    ensures key in EdgeSatisfactionLabels ==> r == JsNumber(EdgeSatisfactionLabel(key).value as real)
    ensures key in InheritedKeys ==> r == JsObject
    ensures key !in EdgeSatisfactionLabels && key !in InheritedKeys ==> r == JsNull
  {
    match EdgeSatisfactionLabel(key)
    case Some(n) => JsNumber(n as real)
    case None => if key in InheritedKeys then JsObject else JsNull
  }

  /** `convertSatisfacao` as written. */
  function ConvertSatisfacaoAsWritten(v: JsValue): (r: JsResult)
    ensures v.JsNum? ==> r == JsNumber(v.x)
    ensures v.JsStr? && v.s != [] ==> r == LookupAsWritten(LowerStrip(JavaScript, v.s))
  {
    match v
    case JsNum(x) => JsNumber(x)
    case Undefined => JsNull
    case JsStr(s) => if s == [] then JsNull else LookupAsWritten(LowerStrip(JavaScript, s))
  }

  /** Outside the two inherited names, the function as written agrees with the own-keys reading. */
  lemma AsWrittenAgreesElsewhere(v: JsValue)
    requires !(v.JsStr? && LowerStrip(JavaScript, v.s) in InheritedKeys)
    ensures ConvertSatisfacaoAsWritten(v) == match ConvertSatisfacao(v) case Some(x) => JsNumber(x) case None => JsNull
  {
  }

  /** As written, the text "constructor" yields an object where a number or null is declared. */
  lemma ConstructorIsNoScore()
    ensures ConvertSatisfacaoAsWritten(JsStr("constructor")) == JsObject
    ensures ConvertSatisfacao(JsStr("constructor")) == None
  {
    var s := "constructor";
    assert forall i :: 0 <= i < |s| ==> !IsUpper(s[i]);
    LowerStripFixed(JavaScript, s);
  }

  // ---------------------------------------------------------------------------
  // Dates

  /** The text starts with `DD/MM/YYYY` (ASCII digits). */
  predicate DayFirstPrefix(s: string) {
    && |s| >= 10
    && IsDigit(s[0]) && IsDigit(s[1]) && s[2] == '/'
    && IsDigit(s[3]) && IsDigit(s[4]) && s[5] == '/'
    && IsDigit(s[6]) && IsDigit(s[7]) && IsDigit(s[8]) && IsDigit(s[9])
  }

  /** The text starts with `YYYY-MM-DD` (ASCII digits). */
  predicate IsoPrefix(s: string) {
    && |s| >= 10
    && IsDigit(s[0]) && IsDigit(s[1]) && IsDigit(s[2]) && IsDigit(s[3]) && s[4] == '-'
    && IsDigit(s[5]) && IsDigit(s[6]) && s[7] == '-'
    && IsDigit(s[8]) && IsDigit(s[9])
  }

  /**
   * `parseDate`: a day-first prefix is rebuilt year first from the same
   * digits (no range check); a text with an ISO prefix is returned whole,
   * suffix included; anything else, and any value that is not text, is null.
   */
  function ParseDate(v: JsValue): (r: Option<string>)
    ensures r.Some? <==> v.JsStr? && (DayFirstPrefix(v.s) || IsoPrefix(v.s))
    ensures r.Some? ==> IsoPrefix(r.value)
    ensures v.JsStr? && DayFirstPrefix(v.s) ==>
      r == Some(v.s[6..10] + "-" + v.s[3..5] + "-" + v.s[0..2])
    ensures v.JsStr? && !DayFirstPrefix(v.s) && IsoPrefix(v.s) ==> r == Some(v.s)
  {
    match v
    case JsStr(s) =>
      if s == [] then None
      else if DayFirstPrefix(s) then Some(s[6..10] + "-" + s[3..5] + "-" + s[0..2])
      else if IsoPrefix(s) then Some(s)
      else None
    case _ => None
  }

  /** A parsed date parses to itself: the result is always in the year-first form. */
  lemma ParseDateIdempotent(v: JsValue)
    requires ParseDate(v).Some?
    ensures ParseDate(JsStr(ParseDate(v).value)) == ParseDate(v)
  {
    var o := ParseDate(v).value;
    assert !DayFirstPrefix(o) by {
      assert IsDigit(o[2]);
    }
  }

  /** No calendar check: "99/99/0000" becomes "0000-99-99". */
  lemma ParseDateNoRangeCheck()
    ensures ParseDate(JsStr("99/99/0000")) == Some("0000-99-99")
  {
    var s := "99/99/0000";
    assert DayFirstPrefix(s);
    assert s[6..10] + "-" + s[3..5] + "-" + s[0..2] == "0000-99-99";
  }

  // ---------------------------------------------------------------------------
  // Rows

  /** The record upserted for one sheet row (`ChamadoRow`). */
  datatype Chamado = Chamado(
    idChamado: string,
    dataAbertura: Option<string>,
    dataFechamento: Option<string>,
    status: Option<string>,
    prioridade: Option<string>,
    categoria: Option<string>,
    solucao: Option<string>,
    solicitante: Option<string>,
    tecnico: Option<string>,
    departamento: Option<string>,
    tempoResolucao: Option<real>,
    frtMinutos: Option<real>,
    satisfacao: Option<real>)

  /**
   * `processRow`: null exactly when the id cell is absent or blank after
   * trimming; otherwise every field converted by its own rule.
   */
  function ProcessRow(rt: Runtime, row: seq<JsValue>, m: map<string, nat>): (r: Option<Chamado>)
    ensures r.None? <==> TrimmedText(rt, CellFor(row, m, "id_chamado")).None?
    ensures r.Some? ==> r.value.idChamado == TrimmedText(rt, CellFor(row, m, "id_chamado")).value
    ensures r.Some? ==> r.value.frtMinutos != Some(0.0)
    ensures r.Some? && r.value.dataAbertura.Some? ==> IsoPrefix(r.value.dataAbertura.value)
    ensures r.Some? && r.value.dataFechamento.Some? ==> IsoPrefix(r.value.dataFechamento.value)
    ensures r.Some? && "tempo_resolucao" !in m ==> r.value.tempoResolucao.None?
    ensures r.Some? && "satisfacao" !in m ==> r.value.satisfacao.None?
  {
    match TrimmedText(rt, CellFor(row, m, "id_chamado"))
    case None => None
    case Some(id) =>
      Some(Chamado(
        id,
        ParseDate(CellFor(row, m, "data_abertura")),
        ParseDate(CellFor(row, m, "data_fechamento")),
        TrimmedText(rt, CellFor(row, m, "status")),
        TrimmedText(rt, CellFor(row, m, "prioridade")),
        TrimmedText(rt, CellFor(row, m, "categoria")),
        TrimmedText(rt, CellFor(row, m, "solucao")),
        TrimmedText(rt, CellFor(row, m, "solicitante")),
        TrimmedText(rt, CellFor(row, m, "tecnico")),
        TrimmedText(rt, CellFor(row, m, "departamento")),
        if "tempo_resolucao" in m then EdgeTempo(CellFor(row, m, "tempo_resolucao")) else None,
        if "frt_minutos" in m then EdgeFrt(CellFor(row, m, "frt_minutos")) else None,
        if "satisfacao" in m then ConvertSatisfacao(CellFor(row, m, "satisfacao")) else None))
  }

  /** `trim` removes the no-break space too: an id of only U+00A0 skips the row. */
  lemma NoBreakSpaceIdSkipped(rt: Runtime, row: seq<JsValue>, m: map<string, nat>)
    requires "id_chamado" in m && m["id_chamado"] < |row| && row[m["id_chamado"]] == JsStr("\U{A0}")
    ensures ProcessRow(rt, row, m).None?
  {
    TrimStartBlanks(JavaScript, "\U{A0}", []);
    assert "\U{A0}" + [] == "\U{A0}";
  }

  /** The loop over the data rows: the processed rows that are not null, in order. */
  function KeptRows(rt: Runtime, body: seq<seq<JsValue>>, m: map<string, nat>): (r: seq<Chamado>)
    ensures |r| <= |body|
    ensures forall c :: c in r <==> exists i :: 0 <= i < |body| && ProcessRow(rt, body[i], m) == Some(c)
    ensures |r| == |body| <==> forall i :: 0 <= i < |body| ==> ProcessRow(rt, body[i], m).Some?
  {
    var processed := Processed(rt, body, m);
    var r := Somes(processed);
    assert forall c :: Some(c) in processed <==> exists i :: 0 <= i < |body| && processed[i] == Some(c);
    r
  }

  /** `processRow` applied to every data row. */
  function Processed(rt: Runtime, body: seq<seq<JsValue>>, m: map<string, nat>): (r: seq<Option<Chamado>>)
    ensures |r| == |body|
    ensures forall i :: 0 <= i < |body| ==> r[i] == ProcessRow(rt, body[i], m)
  {
    seq(|body|, i requires 0 <= i < |body| => ProcessRow(rt, body[i], m))
  }

  /** The present values of a sequence of options, in order. */
  function Somes<T(!new)>(s: seq<Option<T>>): (r: seq<T>)
    ensures |r| <= |s|
    ensures forall c :: c in r <==> Some(c) in s
    ensures |r| == |s| <==> forall i :: 0 <= i < |s| ==> s[i].Some?
  {
    if s == [] then []
    else
      var rest := Somes(s[1..]);
      assert forall i :: 0 < i < |s| ==> s[i] == s[1..][i - 1];
      assert forall c :: Some(c) in s <==> Some(c) == s[0] || Some(c) in s[1..];
      match s[0]
      case Some(c) => [c] + rest
      case None => rest
  }

  lemma {:induction false} SomesAppend<T(!new)>(a: seq<Option<T>>, b: seq<Option<T>>)
    ensures Somes(a + b) == Somes(a) + Somes(b)
    decreases |a|
  {
    if a == [] {
      assert a + b == b;
    } else {
      assert (a + b)[0] == a[0];
      assert (a + b)[1..] == a[1..] + b;
      SomesAppend(a[1..], b);
    }
  }

  /** Rows are kept in sheet order: the loop over two blocks is the loop over each, concatenated. */
  lemma KeptRowsAppend(rt: Runtime, a: seq<seq<JsValue>>, b: seq<seq<JsValue>>, m: map<string, nat>)
    ensures KeptRows(rt, a + b, m) == KeptRows(rt, a, m) + KeptRows(rt, b, m)
  {
    var pa, pb := Processed(rt, a, m), Processed(rt, b, m);
    assert Processed(rt, a + b, m) == pa + pb by {
      forall i | 0 <= i < |a + b| ensures Processed(rt, a + b, m)[i] == (pa + pb)[i] {
        if i < |a| {
          assert (a + b)[i] == a[i];
        } else {
          assert (a + b)[i] == b[i - |a|];
        }
      }
    }
    SomesAppend(pa, pb);
  }

  /** The header row as text; a header that is not text makes `toLowerCase` throw. */
  function HeaderTexts(row: seq<JsValue>): (r: Option<seq<string>>)
    ensures r.Some? <==> forall j :: 0 <= j < |row| ==> row[j].JsStr?
    ensures r.Some? ==> |r.value| == |row| && forall j :: 0 <= j < |row| ==> r.value[j] == row[j].s
  {
    if forall j :: 0 <= j < |row| ==> row[j].JsStr? then
      Some(seq(|row|, j requires 0 <= j < |row| => row[j].s))
    else None
  }

  /** What a run reports: an empty sheet, a failure, or the rows upserted and their number. */
  datatype SyncOutcome = EmptySheet | Failed | Synced(rows: seq<Chamado>, synced: nat)

  /**
   * The handler from the `values` array on: an empty sheet reports zero rows;
   * otherwise the first row names the columns and every later row is
   * processed, and `synced` is the number of rows kept.
   */
  function SyncSheet(rt: Runtime, values: seq<seq<JsValue>>): (r: SyncOutcome)
    ensures values == [] <==> r == EmptySheet
    ensures r.Synced? ==> r.synced == |r.rows| && r.synced <= |values| - 1
    ensures r.Failed? <==> values != [] && HeaderTexts(values[0]).None?
    ensures r.Synced? ==> r.rows == KeptRows(rt, values[1..], MapColumns(HeaderTexts(values[0]).value))
  {
    if values == [] then EmptySheet
    else match HeaderTexts(values[0])
      case None => Failed
      case Some(headers) =>
        var kept := KeptRows(rt, values[1..], MapColumns(headers));
        Synced(kept, |kept|)
  }

  // ---------------------------------------------------------------------------
  // The three minutes rules side by side

  /**
   * The edge function decides per value and the Python job per column: in a
   * column holding 50 and 200, the job divides both (the median is 125)
   * while the edge function keeps 50.
   */
  lemma MinutesRulesDiffer()
    ensures MinutesRule([Num(50.0), Num(200.0)])[0] == Num(50.0 / 60.0)
    ensures EdgeTempo(JsNum(50.0)) == Some(50.0)
  {
    PairLooksLikeMinutes();
  }

  lemma PairLooksLikeMinutes()
    ensures LooksLikeMinutes([Num(50.0), Num(200.0)])
  {
    PairNumbers();
    MedianOfPair(50.0, 200.0);
  }

  lemma PairNumbers()
    ensures Numbers([Num(50.0), Num(200.0)]) == [50.0, 200.0]
  {
    var col := [Num(50.0), Num(200.0)];
    assert col[1..] == [Num(200.0)];
    assert col[1..][1..] == [];
  }

  /** The median of two values is their midpoint. */
  lemma MedianOfPair(a: real, b: real)
    requires a < b
    ensures Median([a, b]) == Some((a + b) / 2.0)
  {
    var xs := [a, b];
    assert xs[1..] == [b];
    assert [b][1..] == [];
    assert SortDesc([b], Identity) == [b];
    assert SortDesc(xs, Identity) == Insert(a, [b], Identity);
    assert Insert(a, [b][1..], Identity) == [a];
    assert Insert(a, [b], Identity) == [b, a];
  }
}

=== FILE: frame.dfy ===
/**
 * A pandas data frame as the pipelines use it: labelled columns and rows of
 * cells. Columns are looked up by label; with repeated labels the first
 * column of that label is the one read and written. A row shorter than the
 * header reads as missing cells, so every operation here is total.
 */
module Frames {

  import opened Options
  import opened Cells
  import Frequency

  datatype Frame = Frame(columns: seq<string>, rows: seq<seq<Cell>>)

  /** Cell `j` of a row, missing past its end. */
  function CellAt(row: seq<Cell>, j: nat): Cell {
    if j < |row| then row[j] else Missing
  }

  /** Position of the first column labelled `name`. */
  function LabelIndex(labels: seq<string>, name: string): (r: Option<nat>)
    ensures r.Some? ==> r.value < |labels| && labels[r.value] == name
    ensures r.Some? ==> forall k :: 0 <= k < r.value ==> labels[k] != name
    ensures r.None? <==> name !in labels
  {
    if labels == [] then None
    else if labels[0] == name then Some(0)
    else match LabelIndex(labels[1..], name)
      case None => None
      case Some(k) => Some(k + 1)
  }

  /** `df[name]`: the column's cells, one per row; None when no column has that label. */
  function Column(f: Frame, name: string): (r: Option<seq<Cell>>)
    ensures r.Some? <==> name in f.columns
    ensures r.Some? ==> |r.value| == |f.rows|
    ensures r.Some? ==> forall i :: 0 <= i < |f.rows| ==> r.value[i] == CellAt(f.rows[i], LabelIndex(f.columns, name).value)
  {
    match LabelIndex(f.columns, name)
    case None => None
    case Some(j) => Some(seq(|f.rows|, i requires 0 <= i < |f.rows| => CellAt(f.rows[i], j)))
  }

  /**
   * More than one column carries `name`: pandas then answers `df[name]` with
   * a frame rather than a column, and column-only methods on it raise.
   */
  predicate Repeated(labels: seq<string>, name: string) {
    exists i, j :: 0 <= i < j < |labels| && labels[i] == name && labels[j] == name
  }

  /** `row.get(name, default)` on row `i`. */
  function Get(f: Frame, i: nat, name: string, default: Cell): (r: Cell)
    requires i < |f.rows|
    ensures name in f.columns ==> r == Column(f, name).value[i]
    ensures name !in f.columns ==> r == default
  {
    match LabelIndex(f.columns, name)
    case None => default
    case Some(j) => CellAt(f.rows[i], j)
  }

  /** A row with cell `j` replaced, padded with missing cells up to `j`. */
  function Put(row: seq<Cell>, j: nat, v: Cell): (r: seq<Cell>)
    ensures |r| == if j < |row| then |row| else j + 1
    ensures r[j] == v
    ensures forall k :: 0 <= k < |r| && k != j ==> r[k] == CellAt(row, k)
  {
    seq(if j < |row| then |row| else j + 1, k requires 0 <= k => if k == j then v else CellAt(row, k))
  }

  /**
   * `df[name] = df[name].apply(fn)`: every cell of the column is replaced by
   * its image under `fn`; a frame without that column is returned unchanged.
   */
  function MapColumn(f: Frame, name: string, fn: Cell -> Cell): (r: Frame)
    ensures r.columns == f.columns && |r.rows| == |f.rows|
    ensures name in f.columns ==>
      forall i :: 0 <= i < |f.rows| ==> Column(r, name).value[i] == fn(Column(f, name).value[i])
    ensures forall other :: other != name ==> Column(r, other) == Column(f, other)
    ensures name !in f.columns ==> r == f
  {
    match LabelIndex(f.columns, name)
    case None => f
    case Some(j) =>
      var r := Frame(f.columns, seq(|f.rows|, i requires 0 <= i < |f.rows| => Put(f.rows[i], j, fn(CellAt(f.rows[i], j)))));
      assert forall other :: other != name ==> Column(r, other) == Column(f, other) by {
        forall other | other != name ensures Column(r, other) == Column(f, other) {
          if other in f.columns {
            var k := LabelIndex(f.columns, other).value;
            assert k != j;
            var a := Column(r, other).value;
            var b := Column(f, other).value;
            forall i | 0 <= i < |a| ensures a[i] == b[i] {
              var row := Put(f.rows[i], j, fn(CellAt(f.rows[i], j)));
              assert r.rows[i] == row;
              assert CellAt(row, k) == CellAt(f.rows[i], k);
            }
            assert a == b;
          }
        }
      }
      r
  }

  /** The same `apply` on each listed column in turn; every other column is unchanged. */
  function MapColumns(f: Frame, names: seq<string>, fn: Cell -> Cell): (r: Frame)
    requires forall a, b :: 0 <= a < b < |names| ==> names[a] != names[b]
    ensures r.columns == f.columns && |r.rows| == |f.rows|
    ensures forall name :: name in names && name in f.columns ==>
      forall i :: 0 <= i < |f.rows| ==> Column(r, name).value[i] == fn(Column(f, name).value[i])
    ensures forall other :: other !in names ==> Column(r, other) == Column(f, other)
    decreases |names|
  {
    if names == [] then f
    else
      var g := MapColumn(f, names[0], fn);
      var r := MapColumns(g, names[1..], fn);
      assert names[0] !in names[1..] by {
        forall k | 0 <= k < |names[1..]| ensures names[1..][k] != names[0] {
          assert names[1..][k] == names[k + 1];
        }
      }
      assert forall name :: name in names ==> name == names[0] || name in names[1..];
      r
  }

  /** `df[name] = values` for a label the frame does not have yet: a new last column. */
  function AppendColumn(f: Frame, name: string, values: seq<Cell>): (r: Frame)
    requires |values| == |f.rows| && name !in f.columns
    ensures r.columns == f.columns + [name] && |r.rows| == |f.rows|
    ensures Column(r, name) == Some(values)
    ensures forall other :: other in f.columns ==> Column(r, other) == Column(f, other)
  {
    var r := Frame(f.columns + [name], seq(|f.rows|, i requires 0 <= i < |f.rows| => Widen(f.rows[i], |f.columns|) + [values[i]]));
    AppendedColumns(f, name, values, r);
    r
  }

  /** A row cut or padded to exactly `n` cells. */
  function Widen(row: seq<Cell>, n: nat): (r: seq<Cell>)
    ensures |r| == n && forall k :: 0 <= k < n ==> r[k] == CellAt(row, k)
  {
    seq(n, k requires 0 <= k < n => CellAt(row, k))
  }

  lemma AppendedColumns(f: Frame, name: string, values: seq<Cell>, r: Frame)
    requires |values| == |f.rows|
    requires r == Frame(f.columns + [name], seq(|f.rows|, i requires 0 <= i < |f.rows| => Widen(f.rows[i], |f.columns|) + [values[i]]))
    ensures name !in f.columns ==> Column(r, name) == Some(values)
    ensures forall other :: other in f.columns ==> Column(r, other) == Column(f, other)
  {
    forall other | other in f.columns ensures Column(r, other) == Column(f, other) {
      LabelIndexAppend(f.columns, name, other);
      var k := LabelIndex(f.columns, other).value;
      var a := Column(r, other).value;
      var b := Column(f, other).value;
      forall i | 0 <= i < |a| ensures a[i] == b[i] {
        assert CellAt(r.rows[i], k) == CellAt(f.rows[i], k);
      }
      assert a == b;
    }
    if name !in f.columns {
      LabelIndexAppend(f.columns, name, name);
      var a := Column(r, name).value;
      forall i | 0 <= i < |a| ensures a[i] == values[i] {
        assert CellAt(r.rows[i], |f.columns|) == values[i];
      }
      assert a == values;
    }
  }

  lemma {:induction false} LabelIndexAppend(labels: seq<string>, extra: string, name: string)
    ensures name in labels ==> LabelIndex(labels + [extra], name) == LabelIndex(labels, name)
    ensures name !in labels && name == extra ==> LabelIndex(labels + [extra], name) == Some(|labels|)
  {
    if labels != [] {
      assert (labels + [extra])[1..] == labels[1..] + [extra];
      LabelIndexAppend(labels[1..], extra, name);
    }
  }

  /** `df.columns = [fn(c) for c in df.columns]`. */
  function Relabel(f: Frame, fn: string -> string): (r: Frame)
    ensures |r.columns| == |f.columns| && r.rows == f.rows
    ensures forall j :: 0 <= j < |f.columns| ==> r.columns[j] == fn(f.columns[j])
  {
    Frame(seq(|f.columns|, j requires 0 <= j < |f.columns| => fn(f.columns[j])), f.rows)
  }

  /** The values of a numeric column that are present (`dropna()`). */
  function Numbers(col: seq<Cell>): (r: seq<real>)
    ensures |r| <= |col|
    ensures forall x :: x in r <==> Num(x) in col
    ensures forall x :: multiset(r)[x] == multiset(col)[Num(x)]
  {
    if col == [] then []
    else
      assert col == [col[0]] + col[1..];
      (if col[0].Num? then [col[0].x] else []) + Numbers(col[1..])
  }

  /** The cells of a column that are present, in order: what `value_counts()` counts. */
  function PresentCells(col: seq<Cell>): (r: seq<Cell>)
    ensures |r| <= |col|
    ensures forall c :: c in r <==> c in col && !c.Missing?
    ensures forall c :: multiset(r)[c] == if c.Missing? then 0 else multiset(col)[c]
  {
    if col == [] then []
    else
      assert col == [col[0]] + col[1..];
      (if col[0].Missing? then [] else [col[0]]) + PresentCells(col[1..])
  }

  /** Dropping the missing values keeps the order: a split column drops each part on its own. */
  lemma {:induction false} NumbersAppend(a: seq<Cell>, b: seq<Cell>)
    ensures Numbers(a + b) == Numbers(a) + Numbers(b)
    decreases |a|
  {
    if a != [] {
      assert (a + b)[1..] == a[1..] + b;
      NumbersAppend(a[1..], b);
    } else {
      assert a + b == b;
    }
  }

  lemma {:induction false} PresentCellsAppend(a: seq<Cell>, b: seq<Cell>)
    ensures PresentCells(a + b) == PresentCells(a) + PresentCells(b)
    decreases |a|
  {
    if a == [] {
      assert a + b == b;
    } else {
      assert a == [a[0]] + a[1..];
      assert a + b == [a[0]] + (a[1..] + b);
      PresentCellsAppend(a[1..], b);
      PresentCellsCons(a[0], a[1..] + b);
      PresentCellsCons(a[0], a[1..]);
      var h: seq<Cell> := if a[0].Missing? then [] else [a[0]];
      var x, y := PresentCells(a[1..]), PresentCells(b);
      Frequency.ConcatAssoc(h, x, y);
    }
  }

  lemma {:induction false} PresentCellsCons(c: Cell, rest: seq<Cell>)
    ensures PresentCells([c] + rest) == (if c.Missing? then [] else [c]) + PresentCells(rest)
  {
    var s := [c] + rest;
    assert s[0] == c && s[1..] == rest;
  }

  /** A cell holding an optional number: missing when absent. */
  function NumCell(v: Option<real>): (c: Cell)
    ensures v.Some? <==> c.Num?
    ensures v.Some? ==> c.x == v.value
  {
    match v
    case Some(x) => Num(x)
    case None => Missing
  }

  /** A cell holding an optional timestamp: missing (NaT) when absent. */
  function TimeCell(v: Option<Timestamp>): (c: Cell)
    ensures v.Some? <==> c.Time?
    ensures v.Some? ==> c.t == v.value
  {
    match v
    case Some(t) => Time(t)
    case None => Missing
  }
}

=== FILE: frequency.dfy ===
/**
 * Frequency tables and orderings shared by the metric calculators and the dashboards:
 * the insertion-ordered count dictionaries of the Python sources, pandas
 * `value_counts`, stable descending sorts with top-N truncation, Python's
 * `max(items, key=...)`, and the mean and median of a numeric column.
 */
module Frequency {

  import opened Options

  /** A dictionary from key to count, in insertion order. */
  type Freq<K> = seq<(K, nat)>

  /** Number of occurrences of `x` in `s`. */
  function Occurrences<T(==)>(s: seq<T>, x: T): nat {
    if s == [] then 0 else Occurrences(s[..|s| - 1], x) + (if s[|s| - 1] == x then 1 else 0)
  }

  function Keys<K>(f: Freq<K>): (ks: seq<K>)
    ensures |ks| == |f|
    ensures forall i :: 0 <= i < |f| ==> ks[i] == f[i].0
  {
    if f == [] then [] else [f[0].0] + Keys(f[1..])
  }

  /** No key appears twice. */
  predicate DistinctKeys<K(==)>(f: Freq<K>) {
    forall i, j :: 0 <= i < j < |f| ==> f[i].0 != f[j].0
  }

  /** `d.get(k, 0)`. */
  function Lookup<K(==)>(f: Freq<K>, k: K): nat {
    if f == [] then 0 else if f[0].0 == k then f[0].1 else Lookup(f[1..], k)
  }

  /** `sum(d.values())`. */
  function Total<K>(f: Freq<K>): nat {
    if f == [] then 0 else f[0].1 + Total(f[1..])
  }

  /** `d[k] = d.get(k, 0) + 1`: an existing key is incremented in place, a new key is appended. */
  function Bump<K(==)>(f: Freq<K>, k: K): (r: Freq<K>)
    ensures |r| == |f| || |r| == |f| + 1
    ensures forall i :: 0 <= i < |f| ==> r[i].0 == f[i].0
    ensures |r| == |f| + 1 ==> r[|f|] == (k, 1) && forall i :: 0 <= i < |f| ==> f[i].0 != k
  {
    if f == [] then [(k, 1)]
    else if f[0].0 == k then [(k, f[0].1 + 1)] + f[1..]
    else [f[0]] + Bump(f[1..], k)
  }

  /** The count dictionary built by one pass over `s` (first-appearance key order). */
  function Tally<K(==)>(s: seq<K>): Freq<K> {
    if s == [] then [] else Bump(Tally(s[..|s| - 1]), s[|s| - 1])
  }

  lemma {:induction false} BumpDistinct<K>(f: Freq<K>, k: K)
    requires DistinctKeys(f)
    ensures DistinctKeys(Bump(f, k))
  {
    if f != [] && f[0].0 != k {
      BumpDistinct(f[1..], k);
      var r := Bump(f, k);
      assert r == [f[0]] + Bump(f[1..], k);
      forall j | 0 < j < |r| ensures r[0].0 != r[j].0 {
        if j - 1 < |f[1..]| {
          assert r[j].0 == f[j].0;
        }
      }
    }
  }

  lemma {:induction false} BumpTotal<K>(f: Freq<K>, k: K)
    ensures Total(Bump(f, k)) == Total(f) + 1
  {
    if f != [] && f[0].0 != k {
      BumpTotal(f[1..], k);
    } else if f != [] {
      assert Bump(f, k)[1..] == f[1..];
    }
  }

  lemma {:induction false} BumpLookup<K>(f: Freq<K>, k: K, x: K)
    ensures Lookup(Bump(f, k), x) == Lookup(f, x) + (if x == k then 1 else 0)
  {
    if f != [] && f[0].0 != k {
      if x != f[0].0 {
        BumpLookup(f[1..], k, x);
      }
    } else if f != [] {
      assert Bump(f, k)[1..] == f[1..];
    }
  }

  lemma {:induction false} BumpKeys<K>(f: Freq<K>, k: K, x: K)
    ensures x in Keys(Bump(f, k)) <==> x in Keys(f) || x == k
  {
    if f != [] && f[0].0 != k {
      BumpKeys(f[1..], k, x);
      assert Keys(f) == [f[0].0] + Keys(f[1..]);
      assert Keys(Bump(f, k)) == [f[0].0] + Keys(Bump(f[1..], k));
    } else if f != [] {
      assert Keys(f) == [f[0].0] + Keys(f[1..]);
      assert Keys(Bump(f, k)) == [f[0].0] + Keys(f[1..]);
    }
  }

  lemma {:induction false} BumpPositive<K>(f: Freq<K>, k: K)
    requires forall i :: 0 <= i < |f| ==> f[i].1 >= 1
    ensures forall i :: 0 <= i < |Bump(f, k)| ==> Bump(f, k)[i].1 >= 1
  {
    if f != [] && f[0].0 != k {
      BumpPositive(f[1..], k);
      assert Bump(f, k) == [f[0]] + Bump(f[1..], k);
    }
  }

  /**
   * The tally is a faithful count dictionary: keys are distinct, they are exactly
   * the values that occur, each count is the number of occurrences, and the counts
   * add up to the number of values.
   */
  lemma {:induction false} TallyCounts<K>(s: seq<K>)
    ensures DistinctKeys(Tally(s))
    ensures forall x :: Lookup(Tally(s), x) == Occurrences(s, x)
    ensures forall x :: x in Keys(Tally(s)) <==> x in s
    ensures forall i :: 0 <= i < |Tally(s)| ==> Tally(s)[i].1 >= 1
    ensures Total(Tally(s)) == |s|
  {
    if s != [] {
      var init := s[..|s| - 1];
      var k := s[|s| - 1];
      TallyCounts(init);
      BumpDistinct(Tally(init), k);
      BumpTotal(Tally(init), k);
      BumpPositive(Tally(init), k);
      assert s == init + [k];
      forall x ensures Lookup(Tally(s), x) == Occurrences(s, x) {
        BumpLookup(Tally(init), k, x);
      }
      forall x ensures x in Keys(Tally(s)) <==> x in s {
        BumpKeys(Tally(init), k, x);
      }
    }
  }

  /** Every key of a tally is counted at least once. */
  lemma TallyPositive<K>(s: seq<K>, i: nat)
    requires i < |Tally(s)|
    ensures Tally(s)[i].1 >= 1
  {
    TallyCounts(s);
  }

  /** Sum of a sequence of reals. */
  function SumReal(xs: seq<real>): real {
    if xs == [] then 0.0 else SumReal(xs[..|xs| - 1]) + xs[|xs| - 1]
  }

  /** pandas `Series.mean()` over the present values: None when there are none. */
  function Mean(xs: seq<real>): (r: Option<real>)
    ensures r.None? <==> xs == []
    ensures r.Some? ==> r.value * |xs| as real == SumReal(xs)
  {
    if xs == [] then None else Some(SumReal(xs) / |xs| as real)
  }

  /** The present values of a column, in order (`dropna()`). */
  function Present(xs: seq<Option<real>>): (r: seq<real>)
    ensures |r| <= |xs|
    ensures forall v :: v in r <==> Some(v) in xs
    ensures forall v :: multiset(r)[v] == multiset(xs)[Some(v)]
  {
    if xs == [] then []
    else
      var init := Present(xs[..|xs| - 1]);
      assert xs == xs[..|xs| - 1] + [xs[|xs| - 1]];
      match xs[|xs| - 1]
      case Some(v) => init + [v]
      case None => init
  }

  /** Dropping the missing values keeps the order: a split column drops each part on its own. */
  lemma {:induction false} PresentAppend(a: seq<Option<real>>, b: seq<Option<real>>)
    ensures Present(a + b) == Present(a) + Present(b)
    decreases |b|
  {
    if b == [] {
      assert a + b == a;
    } else {
      var init := b[..|b| - 1];
      var last := b[|b| - 1];
      assert b == init + [last];
      assert a + b == (a + init) + [last];
      PresentAppend(a, init);
      PresentSnoc(a + init, last);
      PresentSnoc(init, last);
      ConcatAssoc(Present(a), Present(init), if last.Some? then [last.value] else []);
    }
  }

  /** Concatenation is associative; stated alone so that it is proved without other facts in scope. */
  lemma ConcatAssoc<T>(a: seq<T>, b: seq<T>, c: seq<T>)
    ensures a + (b + c) == (a + b) + c
  {
  }

  lemma {:induction false} PresentSnoc(xs: seq<Option<real>>, x: Option<real>)
    ensures Present(xs + [x]) == Present(xs) + (if x.Some? then [x.value] else [])
  {
    var ys := xs + [x];
    assert ys[..|ys| - 1] == xs && ys[|ys| - 1] == x;
  }

  /** A mean lies between the least and the greatest value. */
  lemma {:induction false} MeanBounds(xs: seq<real>, lo: real, hi: real)
    requires xs != []
    requires forall i :: 0 <= i < |xs| ==> lo <= xs[i] <= hi
    ensures lo <= Mean(xs).value <= hi
  {
    SumBounds(xs, lo, hi);
  }

  lemma {:induction false} SumBounds(xs: seq<real>, lo: real, hi: real)
    requires forall i :: 0 <= i < |xs| ==> lo <= xs[i] <= hi
    ensures lo * |xs| as real <= SumReal(xs) <= hi * |xs| as real
  {
    if xs != [] {
      SumBounds(xs[..|xs| - 1], lo, hi);
    }
  }

  // ---------------------------------------------------------------------------
  // Stable descending sort (Python `sorted(..., reverse=True)`, JavaScript
  // `Array.prototype.sort((a, b) => b.value - a.value)`, both stable)

  /** `key` is non-increasing along `s`. */
  predicate SortedDesc<T>(s: seq<T>, key: T -> real) {
    forall i, j :: 0 <= i < j < |s| ==> key(s[i]) >= key(s[j])
  }

  /** The elements of `s` whose key is `v`, in their order in `s`. */
  function WithKey<T>(s: seq<T>, key: T -> real, v: real): seq<T> {
    if s == [] then []
    else (if key(s[0]) == v then [s[0]] else []) + WithKey(s[1..], key, v)
  }

  /** Puts `x` before the first element whose key does not exceed its own. */
  function Insert<T>(x: T, t: seq<T>, key: T -> real): (r: seq<T>)
    ensures |r| == |t| + 1
    ensures multiset(r) == multiset(t) + multiset{x}
  {
    if t == [] || key(t[0]) <= key(x) then [x] + t
    else
      assert t == [t[0]] + t[1..];
      [t[0]] + Insert(x, t[1..], key)
  }

  function SortDesc<T>(s: seq<T>, key: T -> real): (r: seq<T>)
    ensures |r| == |s|
    ensures multiset(r) == multiset(s)
  {
    if s == [] then []
    else
      assert s == [s[0]] + s[1..];
      Insert(s[0], SortDesc(s[1..], key), key)
  }

  lemma {:induction false} InsertSorted<T>(x: T, t: seq<T>, key: T -> real)
    requires SortedDesc(t, key)
    ensures SortedDesc(Insert(x, t, key), key)
  {
    if t != [] && key(t[0]) > key(x) {
      InsertSorted(x, t[1..], key);
      var r := Insert(x, t, key);
      var rest := Insert(x, t[1..], key);
      assert r == [t[0]] + rest;
      forall i | 0 <= i < |rest| ensures key(t[0]) >= key(rest[i]) {
        assert rest[i] in multiset(rest);
        assert rest[i] in multiset(t[1..]) || rest[i] == x;
        if rest[i] != x {
          var j :| 0 <= j < |t[1..]| && t[1..][j] == rest[i];
          assert t[j + 1] == rest[i];
        }
      }
    }
  }

  lemma {:induction false} InsertStable<T>(x: T, t: seq<T>, key: T -> real, v: real)
    ensures WithKey(Insert(x, t, key), key, v) == (if key(x) == v then [x] else []) + WithKey(t, key, v)
  {
    var xs: seq<T> := if key(x) == v then [x] else [];
    if t == [] || key(t[0]) <= key(x) {
      assert Insert(x, t, key) == [x] + t;
      WithKeyCons(x, t, key, v);
    } else {
      var t0: seq<T> := if key(t[0]) == v then [t[0]] else [];
      var rest := Insert(x, t[1..], key);
      InsertStable(x, t[1..], key, v);
      assert Insert(x, t, key) == [t[0]] + rest;
      WithKeyCons(t[0], rest, key, v);
      assert WithKey(t, key, v) == t0 + WithKey(t[1..], key, v);
      assert xs == [] || t0 == [];
      SwapEmpty(t0, xs, WithKey(t[1..], key, v));
    }
  }

  /** When one of two prefixes is empty, their order does not matter. */
  lemma SwapEmpty<T>(a: seq<T>, b: seq<T>, c: seq<T>)
    requires a == [] || b == []
    ensures a + (b + c) == b + (a + c)
  {
    if a == [] {
      assert a + (b + c) == b + c && a + c == c;
    } else {
      assert b + c == c && b + (a + c) == a + c;
    }
  }

  lemma WithKeyCons<T>(x: T, t: seq<T>, key: T -> real, v: real)
    ensures WithKey([x] + t, key, v) == (if key(x) == v then [x] else []) + WithKey(t, key, v)
  {
    assert ([x] + t)[1..] == t;
  }

  /** The sort orders by key, keeps every element, and keeps equal keys in their original order. */
  lemma {:induction false} SortDescCorrect<T>(s: seq<T>, key: T -> real)
    ensures SortedDesc(SortDesc(s, key), key)
    ensures multiset(SortDesc(s, key)) == multiset(s)
    ensures forall v :: WithKey(SortDesc(s, key), key, v) == WithKey(s, key, v)
  {
    if s != [] {
      SortDescCorrect(s[1..], key);
      InsertSorted(s[0], SortDesc(s[1..], key), key);
      forall v ensures WithKey(SortDesc(s, key), key, v) == WithKey(s, key, v) {
        InsertStable(s[0], SortDesc(s[1..], key), key, v);
      }
    }
  }

  /** Python slicing `s[:n]` / JavaScript `slice(0, n)`. */
  function Take<T>(s: seq<T>, n: nat): (r: seq<T>)
    ensures |r| == if n < |s| then n else |s|
    ensures r == s[..|r|]
  {
    if n < |s| then s[..n] else s
  }

  /**
   * The first `n` entries of the stable descending sort: the chart and summary
   * top-N. The result is ordered, no entry left out outranks an entry kept,
   * and entries with equal keys keep their original relative order.
   */
  function TopN<T>(s: seq<T>, key: T -> real, n: nat): (r: seq<T>)
    ensures |r| == if n < |s| then n else |s|
    ensures SortedDesc(r, key)
    ensures multiset(r) <= multiset(s)
    ensures forall x, y :: x in r && y in multiset(s) - multiset(r) ==> key(x) >= key(y)
  {
    var sorted := SortDesc(s, key);
    SortDescCorrect(s, key);
    var r := Take(sorted, n);
    PrefixOfSorted(sorted, |r|, key);
    r
  }

  lemma PrefixOfSorted<T>(sorted: seq<T>, k: nat, key: T -> real)
    requires k <= |sorted| && SortedDesc(sorted, key)
    ensures multiset(sorted[..k]) <= multiset(sorted)
    ensures forall x, y :: x in sorted[..k] && y in multiset(sorted) - multiset(sorted[..k]) ==> key(x) >= key(y)
  {
    var r := sorted[..k];
    var rest := sorted[k..];
    assert sorted == r + rest;
    assert multiset(sorted) == multiset(r) + multiset(rest);
    forall x, y | x in r && y in multiset(sorted) - multiset(r) ensures key(x) >= key(y) {
      assert y in multiset(rest);
      assert y in rest;
      var i :| 0 <= i < |r| && r[i] == x;
      var j :| 0 <= j < |rest| && rest[j] == y;
      assert sorted[i] == x && sorted[k + j] == y;
    }
  }

  // ---------------------------------------------------------------------------
  // Python `max(d.items(), key=lambda x: x[1])`: the first entry of largest count

  function FirstMax<K>(f: Freq<K>): (i: nat)
    requires f != []
    ensures i < |f|
    ensures forall j :: 0 <= j < |f| ==> f[j].1 <= f[i].1
    ensures forall j :: 0 <= j < i ==> f[j].1 < f[i].1
  {
    if |f| == 1 then 0
    else
      var b := FirstMax(f[..|f| - 1]);
      if f[|f| - 1].1 > f[b].1 then |f| - 1 else b
  }

  /** On a table already ordered by count, the first maximal entry is the head. */
  lemma FirstMaxOfSorted<K>(f: Freq<K>)
    requires f != []
    requires forall i, j :: 0 <= i < j < |f| ==> f[i].1 >= f[j].1
    ensures FirstMax(f) == 0
  {
  }

  function CountKey<K>(e: (K, nat)): real { e.1 as real }

  /** pandas `value_counts()`: the tally of the present values, ordered by count, most frequent first. */
  function ValueCounts<K(==)>(s: seq<K>): (r: Freq<K>)
    ensures |r| == |Tally(s)|
    ensures multiset(r) == multiset(Tally(s))
    ensures forall i, j :: 0 <= i < j < |r| ==> r[i].1 >= r[j].1
  {
    var r := SortDesc(Tally(s), CountKey);
    SortDescCorrect(Tally(s), CountKey);
    assert forall i, j :: 0 <= i < j < |r| ==> CountKey(r[i]) >= CountKey(r[j]);
    r
  }

  /** The counts of a value_counts table are the numbers of occurrences of its keys. */
  lemma ValueCountsCounts<K>(s: seq<K>, i: nat)
    requires i < |ValueCounts(s)|
    ensures ValueCounts(s)[i].1 == Occurrences(s, ValueCounts(s)[i].0) >= 1
    ensures ValueCounts(s)[i].0 in s
  {
    var r := ValueCounts(s);
    TallyCounts(s);
    assert r[i] in multiset(Tally(s));
    var j :| 0 <= j < |Tally(s)| && Tally(s)[j] == r[i];
    LookupDistinct(Tally(s), j);
    assert r[i].0 in Keys(Tally(s));
  }

  lemma {:induction false} LookupDistinct<K>(f: Freq<K>, j: nat)
    requires DistinctKeys(f) && j < |f|
    ensures Lookup(f, f[j].0) == f[j].1
  {
    if j > 0 {
      LookupDistinct(f[1..], j - 1);
    }
  }

  /**
   * In any reordering of the tally of `s`, the first entry of largest count
   * names a value of `s` that occurs at least as often as every other value,
   * with its true number of occurrences.
   */
  lemma {:induction false} FirstMaxMostFrequent<K>(s: seq<K>, f: Freq<K>)
    requires multiset(f) == multiset(Tally(s)) && f != []
    ensures f[FirstMax(f)].0 in s
    ensures f[FirstMax(f)].1 == Occurrences(s, f[FirstMax(f)].0)
    ensures forall x :: x in s ==> Occurrences(s, x) <= f[FirstMax(f)].1
  {
    var t := Tally(s);
    TallyCounts(s);
    var m := FirstMax(f);
    assert f[m] in multiset(t);
    var j :| 0 <= j < |t| && t[j] == f[m];
    LookupDistinct(t, j);
    assert t[j].0 in Keys(t);
    forall x | x in s ensures Occurrences(s, x) <= f[m].1 {
      OccurrencesBelowMax(s, f, x);
    }
  }

  /** Every value of `s` occurs at most as often as the count `FirstMax` picks from a reordered tally. */
  lemma {:induction false} OccurrencesBelowMax<K>(s: seq<K>, f: Freq<K>, x: K)
    requires multiset(f) == multiset(Tally(s)) && f != [] && x in s
    ensures Occurrences(s, x) <= f[FirstMax(f)].1
  {
    var t := Tally(s);
    TallyCounts(s);
    assert x in Keys(t);
    var k :| 0 <= k < |t| && t[k].0 == x;
    LookupDistinct(t, k);
    assert t[k] in multiset(f);
    var l :| 0 <= l < |f| && f[l] == t[k];
  }

  // ---------------------------------------------------------------------------
  // The largest count against the total

  /** A table whose counts are all at most `m` totals at most `|f| * m`. */
  lemma {:induction false} TotalAtMost<K>(f: Freq<K>, m: nat)
    requires forall j :: 0 <= j < |f| ==> f[j].1 <= m
    ensures Total(f) <= |f| * m
  {
    if f != [] {
      TotalAtMost(f[1..], m);
    }
  }

  /** Every count is part of the total. */
  lemma {:induction false} TotalAtLeast<K>(f: Freq<K>, i: nat)
    requires i < |f|
    ensures f[i].1 <= Total(f)
  {
    if i > 0 {
      TotalAtLeast(f[1..], i - 1);
    }
  }

  /**
   * The share of the first maximal entry: at least an even split of the total,
   * and at most all of it.
   */
  lemma MaxShare<K>(f: Freq<K>)
    requires f != []
    ensures Total(f) <= |f| * f[FirstMax(f)].1
    ensures f[FirstMax(f)].1 <= Total(f)
  {
    TotalAtMost(f, f[FirstMax(f)].1);
    TotalAtLeast(f, FirstMax(f));
  }

  // ---------------------------------------------------------------------------
  // pandas `Series.median()` over the present values

  function Identity(x: real): real { x }

  /** Number of values strictly above `t`. */
  function CountAbove(xs: seq<real>, t: real): (c: nat)
    ensures c <= |xs|
  {
    if xs == [] then 0 else (if xs[0] > t then 1 else 0) + CountAbove(xs[1..], t)
  }

  /**
   * The middle value of the sorted values, or the mean of the two middle
   * values when their number is even; None when there are no values.
   */
  function Median(xs: seq<real>): (r: Option<real>)
    ensures r.None? <==> xs == []
  {
    if xs == [] then None
    else
      var ys := SortDesc(xs, Identity);
      var n := |ys|;
      if n % 2 == 1 then Some(ys[n / 2]) else Some((ys[n / 2 - 1] + ys[n / 2]) / 2.0)
  }

  lemma {:induction false} CountAboveAppend(u: seq<real>, v: seq<real>, t: real)
    ensures CountAbove(u + v, t) == CountAbove(u, t) + CountAbove(v, t)
  {
    if u != [] {
      assert (u + v)[1..] == u[1..] + v;
      CountAboveAppend(u[1..], v, t);
    } else {
      assert u + v == v;
    }
  }

  /** Reordering the values does not change how many lie above a threshold. */
  lemma {:induction false} CountAbovePermutation(a: seq<real>, b: seq<real>, t: real)
    requires multiset(a) == multiset(b)
    ensures CountAbove(a, t) == CountAbove(b, t)
    decreases |a|
  {
    if a == [] {
      assert |b| == |multiset(b)| == 0;
    } else {
      var x := a[0];
      assert x in multiset(b);
      var k :| 0 <= k < |b| && b[k] == x;
      var rest := b[..k] + b[k + 1..];
      assert b == b[..k] + [x] + b[k + 1..];
      assert multiset(rest) == multiset(b) - multiset{x};
      assert a == [x] + a[1..];
      assert multiset(a[1..]) == multiset(a) - multiset{x};
      CountAbovePermutation(a[1..], rest, t);
      CountAboveAppend(b[..k], b[k + 1..], t);
      CountAboveAppend(b[..k] + [x], b[k + 1..], t);
      CountAboveAppend(b[..k], [x], t);
    }
  }

  /** In a non-increasing sequence the values above `t` are exactly the first CountAbove of them. */
  lemma {:induction false} SortedAbovePrefix(ys: seq<real>, t: real)
    requires SortedDesc(ys, Identity)
    ensures forall i :: 0 <= i < CountAbove(ys, t) ==> ys[i] > t
    ensures forall i :: CountAbove(ys, t) <= i < |ys| ==> ys[i] <= t
  {
    if ys != [] {
      var tl := ys[1..];
      assert SortedDesc(tl, Identity) by {
        forall i, j | 0 <= i < j < |tl| ensures Identity(tl[i]) >= Identity(tl[j]) {
          assert tl[i] == ys[i + 1] && tl[j] == ys[j + 1];
        }
      }
      SortedAbovePrefix(tl, t);
      if |ys| > 1 {
        assert Identity(ys[0]) >= Identity(ys[1]);
      }
    }
  }

  /**
   * The median exceeds `t` when more than half of the values do, and only
   * when at least half of them do.
   */
  lemma MedianAbove(xs: seq<real>, t: real)
    requires xs != []
    ensures 2 * CountAbove(xs, t) > |xs| ==> Median(xs).value > t
    ensures Median(xs).value > t ==> 2 * CountAbove(xs, t) >= |xs|
  {
    var ys := SortDesc(xs, Identity);
    SortDescCorrect(xs, Identity);
    CountAbovePermutation(xs, ys, t);
    SortedAbovePrefix(ys, t);
    var n := |ys|;
    var c := CountAbove(ys, t);
    if n % 2 == 1 {
      assert Median(xs).value == ys[n / 2];
    } else {
      assert Median(xs).value == (ys[n / 2 - 1] + ys[n / 2]) / 2.0;
      assert Identity(ys[n / 2 - 1]) >= Identity(ys[n / 2]);
    }
  }

  lemma {:induction false} TotalAppend<K>(u: Freq<K>, v: Freq<K>)
    ensures Total(u + v) == Total(u) + Total(v)
  {
    if u != [] {
      assert (u + v)[1..] == u[1..] + v;
      TotalAppend(u[1..], v);
    } else {
      assert u + v == v;
    }
  }

  /** Reordering a table keeps its total. */
  lemma {:induction false} TotalPermutation<K>(a: Freq<K>, b: Freq<K>)
    requires multiset(a) == multiset(b)
    ensures Total(a) == Total(b)
    decreases |a|
  {
    if a == [] {
      assert |b| == |multiset(b)| == 0;
    } else {
      var x := a[0];
      assert x in multiset(b);
      var k :| 0 <= k < |b| && b[k] == x;
      var rest := b[..k] + b[k + 1..];
      RemoveOne(b, k);
      assert a == [x] + a[1..];
      assert multiset(a[1..]) == multiset(a) - multiset{x};
      TotalPermutation(a[1..], rest);
      TotalRemove(b, k);
    }
  }

  lemma RemoveOne<T>(b: seq<T>, k: nat)
    requires k < |b|
    ensures multiset(b[..k] + b[k + 1..]) == multiset(b) - multiset{b[k]}
  {
    assert b == b[..k] + [b[k]] + b[k + 1..];
  }

  lemma TotalRemove<K>(b: Freq<K>, k: nat)
    requires k < |b|
    ensures Total(b) == b[k].1 + Total(b[..k] + b[k + 1..])
  {
    var p, e, q := b[..k], [b[k]], b[k + 1..];
    assert b == p + e + q;
    TotalAppend(p + e, q);
    TotalAppend(p, e);
    TotalAppend(p, q);
    assert Total(e) == b[k].1 by {
      assert e[1..] == [];
    }
  }
}

=== FILE: googlesheets.dfy ===
/**
 * The Google Sheets calculator (api/google_sheets.py): header normalisation
 * and renaming, coercion of the known columns, the metrics dictionary and its
 * insights. Reading the spreadsheet itself is outside the model: a pipeline
 * starts from the frame that was read.
 */
module GoogleSheets {

  import opened Options
  import opened Text
  import opened Cells
  import opened Frequency
  import opened Frames
  import opened Headers
  import opened Reports

  // ---------------------------------------------------------------------------
  // Headers

  /** The header labels after `_normalize_column_name`, before any renaming. */
  function NormalizedLabels(f: Frame): (r: seq<string>)
    ensures |r| == |f.columns|
    ensures forall j :: 0 <= j < |r| ==> IsSlug(r[j])
  {
    Relabel(f, NormalizeColumnName).columns
  }

  /**
   * Normalisation followed by the rename loop over `table`: every column is
   * relabelled as Resolve says, rows untouched.
   */
  function RenameWith(f: Frame, table: seq<Alias>): (r: Frame)
    requires NonInterfering(table)
    ensures r.rows == f.rows && |r.columns| == |f.columns|
    ensures forall j :: 0 <= j < |f.columns| ==>
      r.columns[j] == Resolve(NormalizedLabels(f), table, NormalizedLabels(f)[j])
  {
    var labels := NormalizedLabels(f);
    RenameColumnsResolves(labels, table);
    Frame(RenameColumns(labels, table), f.rows)
  }

  /** The spreadsheet's `column_mapping` as written: `tma_minutos` is a spelling of `tempo_resolucao`. */
  function SheetHeadersAsWritten(f: Frame): (r: Frame)
    ensures r.rows == f.rows && |r.columns| == |f.columns|
    ensures forall j :: 0 <= j < |f.columns| ==>
      r.columns[j] == Resolve(NormalizedLabels(f), SheetAliases, NormalizedLabels(f)[j])
  {
    SheetAliasesNonInterfering();
    RenameWith(f, SheetAliases)
  }

  /**
   * The mapping with `tma_minutos` no longer a spelling of `tempo_resolucao`,
   * so that the minutes column reaches the conversion that turns it into hours.
   */
  const MinutesField: string := "tma_minutos"

  const CorrectedSheetAliases: seq<Alias> :=
    SheetAliases[..6] + [Alias("tempo_resolucao", ["tempo_resolucao", "tempo", "duracao"])] + SheetAliases[7..]

  /** Removing spellings from a field keeps the table non-interfering. */
  lemma CorrectedAliasesNonInterfering()
    ensures NonInterfering(CorrectedSheetAliases)
  {
    SheetAliasesNonInterfering();
    var c := CorrectedSheetAliases;
    assert |c| == |SheetAliases|;
    assert forall k :: 0 <= k < |c| ==> c[k].canonical == SheetAliases[k].canonical;
    assert forall k, v :: 0 <= k < |c| && v in c[k].variants ==> v in SheetAliases[k].variants;
    forall i, j | 0 <= i < j < |c| ensures Disjoint(c[i], c[j]) {
      assert Disjoint(SheetAliases[i], SheetAliases[j]);
    }
  }

  function SheetHeaders(f: Frame): (r: Frame)
    ensures r.rows == f.rows && |r.columns| == |f.columns|
    ensures forall j :: 0 <= j < |f.columns| ==>
      r.columns[j] == Resolve(NormalizedLabels(f), CorrectedSheetAliases, NormalizedLabels(f)[j])
  {
    CorrectedAliasesNonInterfering();
    RenameWith(f, CorrectedSheetAliases)
  }

  // ---------------------------------------------------------------------------
  // Type coercion

  /** The satisfaction label mapping followed by `to_numeric`. */
  function AsSatisfaction(rt: Runtime, c: Cell): (r: Cell)
    ensures r.Missing? || r.Num?
  {
    NumCell(SheetSatisfaction(rt, c))
  }

  /** `series / 60.0` on one coerced cell: NaN stays NaN. */
  function MinutesToHours(c: Cell): (r: Cell)
    ensures r.Missing? || r.Num?
  {
    if c.Num? then Num(c.x / 60.0) else Missing
  }

  /** The two dates and satisfaction, coerced in place. */
  function CoerceCommon(rt: Runtime, f: Frame): (r: Frame)
    ensures r.columns == f.columns && |r.rows| == |f.rows|
    ensures "data_abertura" in f.columns ==> forall i :: 0 <= i < |f.rows| ==>
      Column(r, "data_abertura").value[i] == AsDate(rt, Column(f, "data_abertura").value[i])
    ensures "data_fechamento" in f.columns ==> forall i :: 0 <= i < |f.rows| ==>
      Column(r, "data_fechamento").value[i] == AsDate(rt, Column(f, "data_fechamento").value[i])
    ensures "satisfacao" in f.columns ==> forall i :: 0 <= i < |f.rows| ==>
      Column(r, "satisfacao").value[i] == AsSatisfaction(rt, Column(f, "satisfacao").value[i])
    ensures forall name :: name != "data_abertura" && name != "data_fechamento" && name != "satisfacao" ==>
      Column(r, name) == Column(f, name)
  {
    var f1 := MapColumn(f, "data_abertura", c => AsDate(rt, c));
    var f2 := MapColumn(f1, "data_fechamento", c => AsDate(rt, c));
    MapColumn(f2, "satisfacao", c => AsSatisfaction(rt, c))
  }

  /**
   * The duration step: `tempo_resolucao` coerced to numbers when present,
   * otherwise derived in hours from a `tma_minutos` column in minutes.
   */
  function ConvertDuration(f: Frame): (r: Frame)
    ensures |r.rows| == |f.rows|
    ensures "tempo_resolucao" in f.columns || MinutesField !in f.columns ==> r.columns == f.columns
    ensures "tempo_resolucao" !in f.columns && MinutesField in f.columns ==> r.columns == f.columns + ["tempo_resolucao"]
    ensures "tempo_resolucao" in f.columns ==> forall i :: 0 <= i < |f.rows| ==>
      Column(r, "tempo_resolucao").value[i] == AsNumber(Column(f, "tempo_resolucao").value[i])
    ensures "tempo_resolucao" !in f.columns && MinutesField in f.columns ==> forall i :: 0 <= i < |f.rows| ==>
      Column(r, "tempo_resolucao").value[i] == MinutesToHours(AsNumber(Column(f, MinutesField).value[i]))
    ensures forall name :: name in f.columns && name != "tempo_resolucao" && name != MinutesField ==>
      Column(r, name) == Column(f, name)
  {
    if "tempo_resolucao" in f.columns then
      MapColumn(f, "tempo_resolucao", AsNumber)
    else if MinutesField in f.columns then
      var h := MapColumn(f, MinutesField, AsNumber);
      var minutes := Column(h, MinutesField).value;
      var hours := seq(|h.rows|, i requires 0 <= i < |h.rows| => MinutesToHours(minutes[i]));
      AppendColumn(h, "tempo_resolucao", hours)
    else f
  }

  /** `_convert_data_types`: the dates, satisfaction and the duration. */
  function ConvertTypes(rt: Runtime, f: Frame): (r: Frame)
    ensures |r.rows| == |f.rows|
    ensures "tempo_resolucao" in f.columns || MinutesField !in f.columns ==> r.columns == f.columns
    ensures "tempo_resolucao" !in f.columns && MinutesField in f.columns ==> r.columns == f.columns + ["tempo_resolucao"]
    ensures Coerced(r)
    ensures "tempo_resolucao" in f.columns ==> forall i :: 0 <= i < |f.rows| ==>
      Column(r, "tempo_resolucao").value[i] == AsNumber(Column(f, "tempo_resolucao").value[i])
    ensures "tempo_resolucao" !in f.columns && MinutesField in f.columns ==> forall i :: 0 <= i < |f.rows| ==>
      Column(r, "tempo_resolucao").value[i] == MinutesToHours(AsNumber(Column(f, MinutesField).value[i]))
  {
    var g := CoerceCommon(rt, f);
    var r := ConvertDuration(g);
    ConvertedColumns(rt, f, g, r);
    DurationCarried(rt, f, g, r);
    r
  }

  lemma ConvertedColumns(rt: Runtime, f: Frame, g: Frame, r: Frame)
    requires g == CoerceCommon(rt, f) && r == ConvertDuration(g)
    ensures Coerced(r)
  {
    CommonCoerced(rt, f);
    DurationCoerced(g);
  }

  /** After the first step the dates hold timestamps and satisfaction numbers. */
  lemma CommonCoerced(rt: Runtime, f: Frame)
    ensures var g := CoerceCommon(rt, f);
      && ("data_abertura" in g.columns ==> AllDates(Column(g, "data_abertura").value))
      && ("data_fechamento" in g.columns ==> AllDates(Column(g, "data_fechamento").value))
      && ("satisfacao" in g.columns ==> AllNumbers(Column(g, "satisfacao").value))
  {
  }

  /** The duration step keeps those columns and yields a numeric duration. */
  lemma DurationCoerced(g: Frame)
    requires "data_abertura" in g.columns ==> AllDates(Column(g, "data_abertura").value)
    requires "data_fechamento" in g.columns ==> AllDates(Column(g, "data_fechamento").value)
    requires "satisfacao" in g.columns ==> AllNumbers(Column(g, "satisfacao").value)
    ensures Coerced(ConvertDuration(g))
  {
    DurationKeeps(g, "data_abertura");
    DurationKeeps(g, "data_fechamento");
    DurationKeeps(g, "satisfacao");
    DurationNumeric(g);
  }

  lemma DurationKeeps(g: Frame, name: string)
    requires name == "data_abertura" || name == "data_fechamento" || name == "satisfacao"
    ensures name in ConvertDuration(g).columns ==> name in g.columns && Column(ConvertDuration(g), name) == Column(g, name)
  {
  }

  lemma DurationNumeric(g: Frame)
    ensures "tempo_resolucao" in ConvertDuration(g).columns ==> AllNumbers(Column(ConvertDuration(g), "tempo_resolucao").value)
  {
  }

  /** The duration step reads `tempo_resolucao` and `tma_minutos` as the source frame holds them. */
  lemma DurationCarried(rt: Runtime, f: Frame, g: Frame, r: Frame)
    requires g == CoerceCommon(rt, f) && r == ConvertDuration(g)
    ensures "tempo_resolucao" in f.columns ==> forall i :: 0 <= i < |f.rows| ==>
      Column(r, "tempo_resolucao").value[i] == AsNumber(Column(f, "tempo_resolucao").value[i])
    ensures "tempo_resolucao" !in f.columns && MinutesField in f.columns ==> forall i :: 0 <= i < |f.rows| ==>
      Column(r, "tempo_resolucao").value[i] == MinutesToHours(AsNumber(Column(f, MinutesField).value[i]))
  {
    assert Column(g, "tempo_resolucao") == Column(f, "tempo_resolucao");
    assert Column(g, MinutesField) == Column(f, MinutesField);
  }

  // ---------------------------------------------------------------------------
  // Metrics

  /**
   * pandas refuses the `.str` accessor on a nonempty column that holds no text
   * at all: a numeric or datetime column, and also a column whose every cell is
   * blank, which `read_excel` gives the float dtype. The metrics call then
   * raises. A column without rows keeps the object dtype and is accepted.
   */
  predicate StrAccessorFails(col: seq<Cell>) {
    |col| > 0 && forall i :: 0 <= i < |col| ==> !col[i].Str?
  }

  /** Every cell of the column is blank. */
  predicate AllBlank(col: seq<Cell>) {
    forall i :: 0 <= i < |col| ==> col[i].Missing?
  }

  /** `.str.lower().str.strip()` of one cell: values that are not text become NaN. */
  function LowerStripCell(c: Cell): Cell {
    if c.Str? then Str(Strip(Python, Lower(c.s))) else Missing
  }

  /** The technician, category and satisfaction insights; the error triple when the category step raises. */
  function SheetInsights(rt: Runtime, f: Frame, byTechnician: Freq<Cell>, byCategory: Freq<Cell>): (r: Insights)
    ensures CategoryText(rt, byCategory).Some? ==>
      r == Insights(TechnicianText(rt, byTechnician, SheetTechnicianEnding),
                    CategoryText(rt, byCategory).value,
                    SatisfactionText(rt, SatisfactionMean(f)))
    ensures CategoryText(rt, byCategory).None? ==> r == SheetInsightErrors
  {
    match CategoryText(rt, byCategory)
    case None => SheetInsightErrors
    case Some(category) =>
      Insights(TechnicianText(rt, byTechnician, SheetTechnicianEnding), category, SatisfactionText(rt, SatisfactionMean(f)))
  }

  const SheetTechnicianEnding: string := " chamados resolvidos."

  const SheetInsightErrors: Insights := Insights(
    "Erro na an\U{E1}lise de t\U{E9}cnicos",
    "Erro na an\U{E1}lise de categorias",
    "Erro na an\U{E1}lise de satisfa\U{E7}\U{E3}o")

  /** Rows kept in `tabela`. */
  const SheetTableLimit: nat := 50

  /** `tabela[:50]`: one entry per row in row order, the id read from `id_chamado`. */
  function SheetTable(f: Frame): (t: seq<Entry>)
    ensures |t| == if |f.rows| < SheetTableLimit then |f.rows| else SheetTableLimit
    ensures forall i :: 0 <= i < |t| ==> t[i] == EntryOf(f, i, Get(f, i, "id_chamado", Str("N/A")))
  {
    var n := if |f.rows| < SheetTableLimit then |f.rows| else SheetTableLimit;
    seq(n, i requires 0 <= i < n => EntryOf(f, i, Get(f, i, "id_chamado", Str("N/A"))))
  }

  /**
   * `_calculate_metrics` on a coerced frame. With a `status` column the
   * statuses are lowercased and stripped and counted against the two buckets;
   * without one a third of the rows is reported open. When the `.str`
   * accessor raises, the failure report is returned.
   */
  function SheetMetrics(rt: Runtime, f: Frame): (r: Report)
    ensures r.total == |f.rows| && r.open + r.closed <= r.total && r.source.None?
    ensures StatusFails(f) ==> r == FailureReport(|f.rows|, None)
    ensures "status" in f.columns && |f.rows| > 0 && AllBlank(Column(f, "status").value) ==>
      r == FailureReport(|f.rows|, None) && r.table == []
    ensures "status" !in f.columns ==> r.open == |f.rows| / 3 && r.open + r.closed == |f.rows|
    ensures !StatusFails(f) ==> |r.table| == if |f.rows| < SheetTableLimit then |f.rows| else SheetTableLimit
  {
    if StatusFails(f) then FailureReport(|f.rows|, None)
    else SheetComputed(rt, f)
  }

  /** The `.str` accessor raises on the status column, or on a status label that is repeated. */
  predicate StatusFails(f: Frame) {
    "status" in f.columns && (Repeated(f.columns, "status") || StrAccessorFails(Column(f, "status").value))
  }

  /** The frame with its status column lowercased and stripped. */
  function StatusNormalized(f: Frame): (g: Frame)
    ensures g.columns == f.columns && |g.rows| == |f.rows|
    ensures forall name :: name != "status" ==> Column(g, name) == Column(f, name)
    ensures "status" in f.columns ==> forall i :: 0 <= i < |f.rows| ==>
      Column(g, "status").value[i] == LowerStripCell(Column(f, "status").value[i])
  {
    MapColumn(f, "status", LowerStripCell)
  }

  /** The body of `_calculate_metrics` when nothing raises. */
  function SheetComputed(rt: Runtime, f: Frame): (r: Report)
    ensures r.total == |f.rows| && r.open + r.closed <= r.total && r.source.None?
    ensures "status" !in f.columns ==> r.open == |f.rows| / 3 && r.open + r.closed == |f.rows|
    ensures r.table == SheetTable(StatusNormalized(f))
    ensures "status" in f.columns ==>
      && r.open == CountStatus(Column(StatusNormalized(f), "status").value, OpenStatuses)
      && r.closed == CountStatus(Column(StatusNormalized(f), "status").value, SheetClosedStatuses)
  {
    var n := |f.rows|;
    var g := StatusNormalized(f);
    var st := Column(g, "status").GetOr([]);
    StatusBucketsDisjoint();
    DisjointBucketsBounded(st, OpenStatuses, SheetClosedStatuses);
    var open: nat := if "status" in f.columns then CountStatus(st, OpenStatuses) else n / 3;
    var closed: nat := if "status" in f.columns then CountStatus(st, SheetClosedStatuses) else n - open;
    var byTechnician := ColumnCounts(f, "tecnico");
    var byCategory := ColumnCounts(f, "categoria");
    Report(n, open, closed, HoursText(rt, MeanResolutionHours(f)), byTechnician, byCategory,
      SheetTable(g), SheetInsights(rt, f, byTechnician, byCategory), None)
  }

  /** The insight step of the metrics never takes its error path: column tables have positive totals. */
  lemma SheetInsightsNoError(rt: Runtime, f: Frame)
    requires !StatusFails(f)
    ensures SheetMetrics(rt, f).insights != SheetInsightErrors
    ensures SheetMetrics(rt, f).insights.mainCategory == CategoryText(rt, ColumnCounts(f, "categoria")).value
  {
    CategoryInsightDefined(rt, f, "categoria");
  }

  /**
   * `tabela` lists the first rows in order: each entry carries its row's id,
   * technician, category and satisfaction (or "N/A" where the column is
   * absent) and its row's normalised status.
   */
  lemma SheetTableRows(rt: Runtime, f: Frame, i: nat)
    requires !StatusFails(f) && i < |SheetMetrics(rt, f).table|
    ensures i < |f.rows|
    ensures var e := SheetMetrics(rt, f).table[i];
      && e.id == Get(f, i, "id_chamado", Str("N/A"))
      && e.tecnico == Get(f, i, "tecnico", Str("N/A"))
      && e.categoria == Get(f, i, "categoria", Str("N/A"))
      && e.satisfacao == Get(f, i, "satisfacao", Str("N/A"))
      && e.status == (if "status" in f.columns then LowerStripCell(Column(f, "status").value[i]) else Str("N/A"))
  {
    var g := StatusNormalized(f);
    var e := SheetMetrics(rt, f).table[i];
    assert e == EntryOf(g, i, Get(g, i, "id_chamado", Str("N/A")));
    assert Column(g, "id_chamado") == Column(f, "id_chamado");
    assert Column(g, "tecnico") == Column(f, "tecnico");
    assert Column(g, "categoria") == Column(f, "categoria");
    assert Column(g, "satisfacao") == Column(f, "satisfacao");
  }

  /**
   * The technician insight names a technician who occurs at least as often as
   * any other, with that technician's number of rows.
   */
  lemma SheetTopTechnician(rt: Runtime, f: Frame)
    requires !StatusFails(f) && "tecnico" in f.columns
    requires exists i :: 0 <= i < |f.rows| && !Column(f, "tecnico").value[i].Missing?
    ensures var col := Column(f, "tecnico").value;
      exists k :: k in col && !k.Missing?
        && (forall x :: x in col && !x.Missing? ==> Occurrences(PresentCells(col), x) <= Occurrences(PresentCells(col), k))
        && SheetMetrics(rt, f).insights.bestTechnician ==
             "\U{1F3C6} " + PyStr(rt, k) + " foi o t\U{E9}cnico mais produtivo com " +
             NatText(Occurrences(PresentCells(col), k)) + SheetTechnicianEnding
  {
    CategoryInsightDefined(rt, f, "categoria");
    TopTechnicianText(rt, f, SheetTechnicianEnding);
  }

  /**
   * With a status column, the open and closed counts are the numbers of rows
   * whose lowercased, stripped status text falls in each bucket.
   */
  lemma SheetStatusCounts(rt: Runtime, f: Frame)
    requires "status" in f.columns && !Repeated(f.columns, "status") && !StrAccessorFails(Column(f, "status").value)
    ensures var st := seq(|f.rows|, i requires 0 <= i < |f.rows| => LowerStripCell(Column(f, "status").value[i]));
      && SheetMetrics(rt, f).open == CountStatus(st, OpenStatuses)
      && SheetMetrics(rt, f).closed == CountStatus(st, SheetClosedStatuses)
  {
    StatusColumnNormalized(f);
    MetricsComputed(rt, f);
  }

  lemma StatusColumnNormalized(f: Frame)
    requires "status" in f.columns
    ensures Column(StatusNormalized(f), "status").value ==
      seq(|f.rows|, i requires 0 <= i < |f.rows| => LowerStripCell(Column(f, "status").value[i]))
  {
  }

  lemma MetricsComputed(rt: Runtime, f: Frame)
    requires !StatusFails(f)
    ensures SheetMetrics(rt, f) == SheetComputed(rt, f)
  {
  }

  /** The whole calculator: headers, coercion, metrics (with the corrected mapping). */
  function SheetReport(rt: Runtime, f: Frame): (r: Report)
    ensures r.total == |f.rows| && r.open + r.closed <= r.total
    ensures |r.table| <= SheetTableLimit
  {
    SheetMetrics(rt, ConvertTypes(rt, SheetHeaders(f)))
  }

  /** The calculator with `column_mapping` exactly as written. */
  function SheetReportAsWritten(rt: Runtime, f: Frame): (r: Report)
    ensures r.total == |f.rows| && r.open + r.closed <= r.total
  {
    SheetMetrics(rt, ConvertTypes(rt, SheetHeadersAsWritten(f)))
  }

  // ---------------------------------------------------------------------------
  // The minutes column

  /**
   * A table in which field `t` is `tempo_resolucao`, and `tma_minutos` is no
   * field's canonical name.
   */
  predicate DurationField(table: seq<Alias>, t: nat) {
    && t < |table| && table[t].canonical == "tempo_resolucao"
    && "tempo_resolucao" in table[t].variants
    && forall k :: 0 <= k < |table| ==> table[k].canonical != MinutesField
  }

  /**
   * When the minutes header is one of the duration field's spellings, the
   * rename loop never leaves `tma_minutos` without a `tempo_resolucao` beside
   * it, so the conversion from minutes cannot run.
   */
  lemma {:induction false} MinutesShadowed(labels: seq<string>, table: seq<Alias>, t: nat)
    requires NonInterfering(table) && DurationField(table, t) && MinutesField in table[t].variants
    ensures var cols := RenameColumns(labels, table);
      MinutesField in cols ==> "tempo_resolucao" in cols
  {
    var cols := RenameColumns(labels, table);
    RenameColumnsResolves(labels, table);
    if MinutesField in cols {
      var j :| 0 <= j < |cols| && cols[j] == MinutesField;
      ResolveCases(labels, table, labels[j]);
      assert labels[j] == MinutesField;
      var v := FirstPresent(labels, table[t].variants).value;
      var m :| 0 <= m < |labels| && labels[m] == v;
      ResolveOfFirst(labels, table, t, v);
      assert cols[m] == "tempo_resolucao";
    }
  }

  /**
   * When no field lists the minutes header, a sheet with a minutes column and
   * no duration column keeps `tma_minutos` and gets no `tempo_resolucao`.
   */
  lemma {:induction false} MinutesKept(labels: seq<string>, table: seq<Alias>, t: nat)
    requires NonInterfering(table) && DurationField(table, t)
    requires forall k :: 0 <= k < |table| ==> MinutesField !in table[k].variants
    requires forall k :: 0 <= k < |table| && k != t ==> table[k].canonical != "tempo_resolucao"
    requires MinutesField in labels
    requires forall v :: v in table[t].variants ==> v !in labels
    ensures var cols := RenameColumns(labels, table);
      MinutesField in cols && "tempo_resolucao" !in cols
  {
    var cols := RenameColumns(labels, table);
    RenameColumnsResolves(labels, table);
    var j :| 0 <= j < |labels| && labels[j] == MinutesField;
    ResolveForeign(labels, table, MinutesField);
    assert cols[j] == MinutesField;
    assert FirstPresent(labels, table[t].variants).None?;
    forall i | 0 <= i < |cols| ensures cols[i] != "tempo_resolucao" {
      ResolveCases(labels, table, labels[i]);
    }
  }

  lemma SheetDurationField()
    ensures NonInterfering(SheetAliases) && DurationField(SheetAliases, 6)
    ensures MinutesField in SheetAliases[6].variants
  {
    SheetAliasesNonInterfering();
  }

  lemma CorrectedDurationField()
    ensures NonInterfering(CorrectedSheetAliases) && DurationField(CorrectedSheetAliases, 6)
    ensures forall k :: 0 <= k < |CorrectedSheetAliases| ==> MinutesField !in CorrectedSheetAliases[k].variants
    ensures forall k :: 0 <= k < |CorrectedSheetAliases| && k != 6 ==> CorrectedSheetAliases[k].canonical != "tempo_resolucao"
  {
    CorrectedAliasesNonInterfering();
  }

  /**
   * As written, whenever a `tma_minutos` column survives the rename loop so
   * does a `tempo_resolucao` column: the derivation from minutes is dead.
   */
  lemma MinutesBranchDead(f: Frame)
    ensures var cols := SheetHeadersAsWritten(f).columns;
      MinutesField in cols ==> "tempo_resolucao" in cols
  {
    SheetDurationField();
    MinutesShadowed(NormalizedLabels(f), SheetAliases, 6);
  }

  /**
   * With the corrected mapping, a sheet whose only duration column is
   * `tma_minutos` gets `tempo_resolucao` derived from it in hours.
   */
  lemma MinutesBecomeHours(rt: Runtime, f: Frame)
    requires MinutesField in NormalizedLabels(f)
    requires forall v :: v in CorrectedSheetAliases[6].variants ==> v !in NormalizedLabels(f)
    ensures var h := SheetHeaders(f);
      && MinutesField in h.columns && "tempo_resolucao" !in h.columns
      && forall i :: 0 <= i < |f.rows| ==>
           Column(ConvertTypes(rt, h), "tempo_resolucao").value[i] == MinutesToHours(AsNumber(Column(h, MinutesField).value[i]))
  {
    CorrectedDurationField();
    MinutesKept(NormalizedLabels(f), CorrectedSheetAliases, 6);
  }

  /** A sheet with only a minutes column: "tma_minutos" holding 120. */
  const MinutesSheet: Frame := Frame([MinutesField], [[Num(120.0)]])

  lemma MinutesLabelIsSlug()
    ensures NormalizedLabels(MinutesSheet) == [MinutesField]
  {
    var s := MinutesField;
    assert IsSlug(s) by {
      assert forall i :: 0 <= i < |s| ==> IsSlugOrUnderscore(s[i]);
    }
    NormalizeSlugFixed(s);
  }

  /** The mean of a one-row numeric column is its value. */
  lemma MeanOfSingle(f: Frame, x: real)
    requires "tempo_resolucao" in f.columns && Column(f, "tempo_resolucao").value == [Num(x)]
    ensures MeanResolutionHours(f) == Some(x)
  {
    var col := Column(f, "tempo_resolucao").value;
    assert col[1..] == [];
    assert Numbers(col) == [x];
    assert SumReal([x]) == x + SumReal([]);
  }

  /** As written, 120 minutes are averaged as 120 hours. */
  lemma MinutesReadAsHours(rt: Runtime)
    ensures MeanResolutionHours(ConvertTypes(rt, SheetHeadersAsWritten(MinutesSheet))) == Some(120.0)
  {
    AsWrittenMinutesHeaders();
    OneDurationRow(rt, SheetHeadersAsWritten(MinutesSheet), 120.0);
  }

  lemma AsWrittenMinutesHeaders()
    ensures SheetHeadersAsWritten(MinutesSheet).columns == ["tempo_resolucao"]
    ensures SheetHeadersAsWritten(MinutesSheet).rows == [[Num(120.0)]]
  {
    MinutesLabelIsSlug();
    MinutesClaimed(NormalizedLabels(MinutesSheet));
  }

  /** A one-row sheet whose duration column holds `x` averages `x` hours. */
  lemma OneDurationRow(rt: Runtime, h: Frame, x: real)
    requires h.columns == ["tempo_resolucao"] && h.rows == [[Num(x)]]
    ensures MeanResolutionHours(ConvertTypes(rt, h)) == Some(x)
  {
    var g := ConvertTypes(rt, h);
    assert Column(h, "tempo_resolucao").value[0] == Num(x);
    assert Column(g, "tempo_resolucao").value == [Num(x)];
    MeanOfSingle(g, x);
  }

  /** A one-row sheet whose only column is minutes holding `x` gets `x / 60` hours. */
  lemma OneMinutesRow(rt: Runtime, h: Frame, x: real)
    requires h.columns == [MinutesField] && h.rows == [[Num(x)]]
    ensures MeanResolutionHours(ConvertTypes(rt, h)) == Some(x / 60.0)
  {
    var g := ConvertTypes(rt, h);
    assert "tempo_resolucao" !in h.columns;
    assert Column(h, MinutesField).value[0] == Num(x);
    var col := Column(g, "tempo_resolucao").value;
    assert col[0] == Num(x / 60.0);
    assert col == [Num(x / 60.0)];
    MeanOfSingle(g, x / 60.0);
  }

  /** A `tma_minutos` header makes some column come out as `tempo_resolucao`. */
  lemma MinutesClaimed(labels: seq<string>)
    requires labels == [MinutesField]
    ensures RenameColumns(labels, SheetAliases) == ["tempo_resolucao"]
  {
    SheetDurationField();
    SingleLabelClaimed(labels, SheetAliases, 6, MinutesField);
  }

  /** A sheet whose only label is an alias of field `t` comes out with that field's name. */
  lemma SingleLabelClaimed(labels: seq<string>, table: seq<Alias>, t: nat, x: string)
    requires NonInterfering(table) && t < |table|
    requires labels == [x] && x in table[t].variants
    ensures RenameColumns(labels, table) == [table[t].canonical]
  {
    var first := FirstPresent(labels, table[t].variants);
    assert x in labels;
    assert first.Some? && first.value in labels;
    assert first.value == x;
    ResolveOfFirst(labels, table, t, x);
    RenameColumnsResolves(labels, table);
    var cols := RenameColumns(labels, table);
    assert |cols| == 1 && cols[0] == Resolve(labels, table, labels[0]);
  }

  /** With the corrected mapping, 120 minutes are averaged as 2 hours. */
  lemma MinutesReadAsMinutes(rt: Runtime)
    ensures MeanResolutionHours(ConvertTypes(rt, SheetHeaders(MinutesSheet))) == Some(2.0)
  {
    MinutesLabelIsSlug();
    CorrectedMinutesHeaders(MinutesSheet);
    OneMinutesRow(rt, SheetHeaders(MinutesSheet), 120.0);
  }

  lemma CorrectedMinutesHeaders(f: Frame)
    requires NormalizedLabels(f) == [MinutesField]
    ensures SheetHeaders(f).columns == [MinutesField]
  {
    CorrectedDurationField();
    var labels := NormalizedLabels(f);
    assert forall v :: v in CorrectedSheetAliases[6].variants ==> v !in labels;
    MinutesKept(labels, CorrectedSheetAliases, 6);
    var cols := SheetHeaders(f).columns;
    assert |cols| == 1 && cols[0] == MinutesField;
  }
}

=== FILE: headers.dfy ===
/**
 * The column normaliser: header text to lowercase snake case without accents,
 * and the alias tables that rename recognised headers to canonical field names.
 */
module Headers {

  import opened Options
  import opened Text

  // ---------------------------------------------------------------------------
  // Accent folding

  /**
   * Base letter of each Latin-1 letter U+00C0..U+00FF once its canonical
   * decomposition loses its combining mark; `*` marks letters with no
   * decomposition (Æ, Ð, ×, Ø, Þ, ß and their partners).
   */
  const Latin1Base: string := "AAAAAA*CEEEEIIII*NOOOOO**UUUUY**aaaaaa*ceeeeiiii*nooooo**uuuuy*y"

  /** NFD followed by dropping combining marks U+0300..U+036F, on one character. */
  function FoldCanonical(c: char): string {
    if IsCombiningMark(c) then []
    else if '\U{C0}' <= c <= '\U{FF}' && Latin1Base[c as int - 0xC0] != '*' then [Latin1Base[c as int - 0xC0]]
    else [c]
  }

  /**
   * NFKD followed by dropping combining marks, on one character: the canonical
   * folding plus the compatibility decompositions of the ordinal indicators,
   * superscript digits and the no-break space.
   */
  function FoldCompatible(c: char): string {
    if c == '\U{AA}' then "a"
    else if c == '\U{BA}' then "o"
    else if c == '\U{B9}' then "1"
    else if c == '\U{B2}' then "2"
    else if c == '\U{B3}' then "3"
    else if c == '\U{A0}' then " "
    else FoldCanonical(c)
  }

  predicate IsCompatibilityChar(c: char) {
    c in {'\U{AA}', '\U{BA}', '\U{B9}', '\U{B2}', '\U{B3}', '\U{A0}'}
  }

  function FoldWith(s: string, compatible: bool): string {
    if s == [] then []
    else (if compatible then FoldCompatible(s[0]) else FoldCanonical(s[0])) + FoldWith(s[1..], compatible)
  }

  // ---------------------------------------------------------------------------
  // `[^a-z0-9]+` -> `_`, then trim `_` at both ends

  /** Drops the leading run of characters outside `[a-z0-9]`. */
  function SkipSeparators(s: string): (r: string)
    ensures |r| <= |s| && r == s[|s| - |r|..]
    ensures r == [] || IsSlugChar(r[0])
  {
    if s != [] && !IsSlugChar(s[0]) then SkipSeparators(s[1..]) else s
  }

  /** `re.sub(r'[^a-z0-9]+', '_', s)`: each maximal run of other characters becomes one `_`. */
  function ReplaceRuns(s: string): string
    decreases |s|
  {
    if s == [] then []
    else if IsSlugChar(s[0]) then [s[0]] + ReplaceRuns(s[1..])
    else "_" + ReplaceRuns(SkipSeparators(s[1..]))
  }

  function TrimLeadingUnderscores(s: string): (r: string)
    ensures |r| <= |s| && r == s[|s| - |r|..]
    ensures r == [] || r[0] != '_'
  {
    if s != [] && s[0] == '_' then TrimLeadingUnderscores(s[1..]) else s
  }

  function TrimTrailingUnderscores(s: string): (r: string)
    ensures |r| <= |s| && r == s[..|r|]
    ensures r == [] || r[|r| - 1] != '_'
  {
    if s != [] && s[|s| - 1] == '_' then TrimTrailingUnderscores(s[..|s| - 1]) else s
  }

  /** Runs of non-`[a-z0-9]` become `_`, and `_` is trimmed from both ends. */
  function Slug(s: string): string {
    TrimTrailingUnderscores(TrimLeadingUnderscores(ReplaceRuns(s)))
  }

  /** The output alphabet of the normaliser, `[a-z0-9_]`. */
  predicate IsSlugOrUnderscore(c: char) { IsSlugChar(c) || c == '_' }

  /** `[a-z0-9_]` only, with no doubled `_`: what ReplaceRuns produces. */
  predicate IsCollapsed(s: string) {
    && (forall i :: 0 <= i < |s| ==> IsSlugOrUnderscore(s[i]))
    && (forall i :: 0 <= i < |s| - 1 ==> !(s[i] == '_' && s[i + 1] == '_'))
  }

  /** Only `[a-z0-9_]`, no `_` at either end, no `__` anywhere. */
  predicate IsSlug(s: string) {
    IsCollapsed(s) && (s == [] || (s[0] != '_' && s[|s| - 1] != '_'))
  }

  /** Prefixing a collapsed string keeps it collapsed unless it doubles a `_`. */
  lemma ConsCollapsed(c: char, r: string)
    requires IsCollapsed(r)
    requires IsSlugChar(c) || (c == '_' && (r == [] || r[0] != '_'))
    ensures IsCollapsed([c] + r)
  {
    var t := [c] + r;
    forall i | 0 <= i < |t| ensures IsSlugOrUnderscore(t[i]) {
      if i > 0 { assert t[i] == r[i - 1]; }
    }
    forall i | 0 <= i < |t| - 1 ensures !(t[i] == '_' && t[i + 1] == '_') {
      if i > 0 { assert t[i] == r[i - 1] && t[i + 1] == r[i]; }
    }
  }

  lemma {:induction false} ReplaceRunsCollapsed(s: string)
    ensures IsCollapsed(ReplaceRuns(s))
    ensures ReplaceRuns(s) != [] && ReplaceRuns(s)[0] == '_' ==> s != [] && !IsSlugChar(s[0])
    decreases |s|
  {
    if s == [] {
    } else if IsSlugChar(s[0]) {
      ReplaceRunsCollapsed(s[1..]);
      ConsCollapsed(s[0], ReplaceRuns(s[1..]));
    } else {
      var rest := SkipSeparators(s[1..]);
      ReplaceRunsCollapsed(rest);
      ConsCollapsed('_', ReplaceRuns(rest));
      assert ReplaceRuns(s) == "_" + ReplaceRuns(rest);
    }
  }

  /** Any slice of a collapsed string is collapsed. */
  lemma CollapsedSlice(s: string, i: nat, j: nat)
    requires IsCollapsed(s) && i <= j <= |s|
    ensures IsCollapsed(s[i..j])
  {
    var t := s[i..j];
    forall k | 0 <= k < |t| ensures IsSlugOrUnderscore(t[k]) {
      assert t[k] == s[i + k];
    }
    forall k | 0 <= k < |t| - 1 ensures !(t[k] == '_' && t[k + 1] == '_') {
      assert t[k] == s[i + k] && t[k + 1] == s[i + k + 1];
    }
  }

  /** The normalised shape of a header: `[a-z0-9_]` only, no edge `_`, no doubled `_`. */
  lemma SlugShape(s: string)
    ensures IsSlug(Slug(s))
  {
    var r := ReplaceRuns(s);
    ReplaceRunsCollapsed(s);
    var a := TrimLeadingUnderscores(r);
    CollapsedSlice(r, |r| - |a|, |r|);
    TrimTrailingShape(a);
  }

  lemma TrimTrailingShape(a: string)
    requires IsCollapsed(a) && (a == [] || a[0] != '_')
    ensures IsSlug(TrimTrailingUnderscores(a))
  {
    var b := TrimTrailingUnderscores(a);
    CollapsedSlice(a, 0, |b|);
    assert b == [] || b[0] == a[0];
  }

  lemma {:induction false} ReplaceRunsOfCollapsed(s: string)
    requires IsCollapsed(s)
    requires s == [] || s[0] != '_'
    ensures ReplaceRuns(s) == s
    decreases |s|
  {
    if s != [] {
      var t := s[1..];
      CollapsedSlice(s, 1, |s|);
      assert IsSlugChar(s[0]);
      if t != [] && t[0] == '_' {
        assert |t| == 1 || IsSlugChar(t[1]) by {
          if |t| > 1 { assert s[2] != '_' && IsSlugOrUnderscore(s[2]); }
        }
        var u := t[1..];
        CollapsedSlice(t, 1, |t|);
        assert SkipSeparators(u) == u;
        ReplaceRunsOfCollapsed(u);
        assert ReplaceRuns(t) == "_" + u;
      } else {
        ReplaceRunsOfCollapsed(t);
      }
      assert ReplaceRuns(s) == [s[0]] + ReplaceRuns(t);
    }
  }

  /** A string already in normalised shape is left unchanged by the slug step. */
  lemma SlugOfSlug(s: string)
    requires IsSlug(s)
    ensures Slug(s) == s
  {
    ReplaceRunsOfCollapsed(s);
  }

  // ---------------------------------------------------------------------------
  // The two normalisers

  /**
   * `_normalize_column_name` / `normalize_column_name` of the Python sources:
   * NFKD accent removal, `strip()`, `lower()`, then the slug step. (The
   * `replace('ç', 'c')` there never fires: NFKD has already split `ç`.)
   */
  function NormalizeColumnName(text: string): (r: string)
    ensures IsSlug(r)
  {
    SlugShape(Lower(Strip(Python, FoldWith(text, true))));
    Slug(Lower(Strip(Python, FoldWith(text, true))))
  }

  /**
   * `normalizeColumnName` of the edge function: `toLowerCase()`, NFD, removal of
   * U+0300..U+036F, then the slug step.
   */
  function NormalizeColumnNameNfd(text: string): (r: string)
    ensures IsSlug(r)
  {
    SlugShape(FoldWith(Lower(text), false));
    Slug(FoldWith(Lower(text), false))
  }

  lemma {:induction false} FoldIdentity(s: string, compatible: bool)
    requires forall i :: 0 <= i < |s| ==> IsSlugOrUnderscore(s[i])
    ensures FoldWith(s, compatible) == s
    decreases |s|
  {
    if s != [] {
      FoldIdentity(s[1..], compatible);
      assert (if compatible then FoldCompatible(s[0]) else FoldCanonical(s[0])) == [s[0]];
      assert s == [s[0]] + s[1..];
    }
  }

  /** The normaliser's output alphabet has no case, no accents and no spaces. */
  lemma SlugAlphabetFixed(s: string)
    requires forall i :: 0 <= i < |s| ==> IsSlugOrUnderscore(s[i])
    ensures Lower(s) == s && Strip(Python, s) == s
    ensures FoldWith(s, true) == s && FoldWith(s, false) == s
  {
    LowerIdentity(s);
    StripIdentity(s);
    FoldIdentity(s, true);
    FoldIdentity(s, false);
  }

  lemma StripIdentity(s: string)
    requires forall i :: 0 <= i < |s| ==> IsSlugOrUnderscore(s[i])
    ensures Strip(Python, s) == s
  {
    forall i | 0 <= i < |s| ensures !IsBlank(Python, s[i]) {
      assert IsSlugOrUnderscore(s[i]);
    }
    StripNoBlank(Python, s);
  }

  lemma LowerIdentity(s: string)
    requires forall i :: 0 <= i < |s| ==> IsSlugOrUnderscore(s[i])
    ensures Lower(s) == s
  {
    var l := Lower(s);
    forall i | 0 <= i < |s| ensures l[i] == s[i] {
      assert IsSlugOrUnderscore(s[i]);
      assert !IsUpper(s[i]);
    }
  }

  /** A header already in slug form is its own normal form (Python variant). */
  lemma NormalizeSlugFixed(s: string)
    requires IsSlug(s)
    ensures NormalizeColumnName(s) == s
  {
    SlugAlphabetFixed(s);
    SlugOfSlug(s);
  }

  /** Normalising a normalised header changes nothing (Python variant). */
  lemma NormalizeIdempotent(text: string)
    ensures NormalizeColumnName(NormalizeColumnName(text)) == NormalizeColumnName(text)
  {
    var n := NormalizeColumnName(text);
    SlugAlphabetFixed(n);
    SlugOfSlug(n);
  }

  /** Normalising a normalised header changes nothing (edge-function variant). */
  lemma NormalizeNfdIdempotent(text: string)
    ensures NormalizeColumnNameNfd(NormalizeColumnNameNfd(text)) == NormalizeColumnNameNfd(text)
  {
    var n := NormalizeColumnNameNfd(text);
    SlugAlphabetFixed(n);
    SlugOfSlug(n);
  }

  /**
   * The two normalisers differ on compatibility characters: NFKD turns the
   * ordinal indicator of "Nº" into an `o`, NFD leaves it to be replaced.
   */
  lemma OrdinalIndicatorDiffers()
    ensures NormalizeColumnName("N\U{BA}") == "no"
    ensures NormalizeColumnNameNfd("N\U{BA}") == "n"
  {
    OrdinalCompatible();
    OrdinalCanonical();
  }

  lemma OrdinalCompatible()
    ensures NormalizeColumnName("N\U{BA}") == "no"
  {
    var t := "N\U{BA}";
    assert FoldCompatible(t[0]) == "N";
    assert FoldCompatible(t[1]) == "o";
    assert FoldWith(t[1..], true) == "o";
    assert FoldWith(t, true) == "No";
    StripNoBlank(Python, "No");
    assert Lower("No") == "no";
    SlugAlphabetFixed("no");
    SlugOfSlug("no");
  }

  lemma OrdinalCanonical()
    ensures NormalizeColumnNameNfd("N\U{BA}") == "n"
  {
    var u := "n\U{BA}";
    assert Lower("N\U{BA}") == u;
    assert FoldCanonical(u[0]) == "n";
    assert FoldCanonical(u[1]) == [u[1]];
    assert FoldWith(u[1..], false) == u[1..];
    assert FoldWith(u, false) == u;
    assert SkipSeparators([]) == [];
    assert ReplaceRuns(u[1..]) == "_";
    assert ReplaceRuns(u) == "n_";
    assert TrimLeadingUnderscores("n_") == "n_";
    assert TrimTrailingUnderscores("n_") == "n";
  }

  // ---------------------------------------------------------------------------
  // Alias resolution (the rename loop of the Python pipelines)

  /** A canonical field name and the normalised header spellings it accepts, in priority order. */
  datatype Alias = Alias(canonical: string, variants: seq<string>)

  /** `column_mapping` of api/google_sheets.py, in dictionary order. */
  const SheetAliases: seq<Alias> := [
    Alias("id_chamado", ["id_chamado", "id", "chamado_id", "numero", "id_do_chamado"]),
    Alias("data_abertura", ["data_abertura", "abertura", "data_inicio", "data_de_abertura"]),
    Alias("data_fechamento", ["data_fechamento", "fechamento", "data_fim", "data_de_fechamento"]),
    Alias("tecnico", ["tecnico", "responsavel", "atendente", "agente_responsavel"]),
    Alias("categoria", ["categoria", "tipo", "classificacao", "motivo"]),
    Alias("status", ["status", "situacao", "estado"]),
    Alias("tempo_resolucao", ["tempo_resolucao", "tempo", "duracao", "tma_minutos"]),
    Alias("satisfacao", ["satisfacao", "nota", "avaliacao", "satisfacao_do_cliente"])
  ]

  /** `column_mapping` of api/sync_drive_to_supabase.py: the sheet table plus four more fields. */
  const SyncAliases: seq<Alias> := SheetAliases + [
    Alias("solicitante", ["solicitante", "cliente", "usuario"]),
    Alias("departamento", ["departamento", "area", "setor"]),
    Alias("prioridade", ["prioridade", "urgencia"]),
    Alias("solucao", ["solucao", "resolucao", "descricao_solucao"])
  ]

  /** The first variant, in priority order, that is among the columns. */
  function FirstPresent(cols: seq<string>, variants: seq<string>): (r: Option<string>)
    ensures r.Some? ==> r.value in variants && r.value in cols
    ensures r.None? <==> forall v :: v in variants ==> v !in cols
  {
    if variants == [] then None
    else if variants[0] in cols then Some(variants[0])
    else FirstPresent(cols, variants[1..])
  }

  /** `df.rename(columns={from: to})`: every column labelled `from` is relabelled. */
  function RenameAll(cols: seq<string>, from: string, to: string): (r: seq<string>)
    ensures |r| == |cols|
    ensures forall i :: 0 <= i < |cols| ==> r[i] == if cols[i] == from then to else cols[i]
  {
    seq(|cols|, i requires 0 <= i < |cols| => if cols[i] == from then to else cols[i])
  }

  /** One iteration of the rename loop: rename the first present variant, then `break`. */
  function RenameStep(cols: seq<string>, a: Alias): seq<string> {
    match FirstPresent(cols, a.variants)
    case Some(v) => RenameAll(cols, v, a.canonical)
    case None => cols
  }

  /** The whole rename loop, fields in table order, each seeing the columns left by the previous ones. */
  function RenameColumns(cols: seq<string>, table: seq<Alias>): (r: seq<string>)
    ensures |r| == |cols|
    decreases |table|
  {
    if table == [] then cols else RenameColumns(RenameStep(cols, table[0]), table[1..])
  }

  /**
   * Reference meaning of the rename: a column gets the canonical name of the
   * field whose first present variant it is, and keeps its own name otherwise.
   */
  function Resolve(cols: seq<string>, table: seq<Alias>, c: string): string {
    if table == [] then c
    else if FirstPresent(cols, table[0].variants) == Some(c) then table[0].canonical
    else Resolve(cols, table[1..], c)
  }

  /** Neither the canonical name nor any variant of `a` is a variant of `b`. */
  predicate Disjoint(a: Alias, b: Alias) {
    a.canonical !in b.variants && forall v :: v in a.variants ==> v !in b.variants
  }

  /**
   * A table whose fields do not interfere: variant lists of different fields are
   * disjoint, and no field's canonical name is a variant of a later field.
   */
  predicate NonInterfering(table: seq<Alias>) {
    forall i, j :: 0 <= i < j < |table| ==> Disjoint(table[i], table[j])
  }

  lemma {:induction false} StepKeepsPresence(cols: seq<string>, a: Alias, b: Alias)
    requires Disjoint(a, b)
    ensures FirstPresent(RenameStep(cols, a), b.variants) == FirstPresent(cols, b.variants)
  {
    var cols1 := RenameStep(cols, a);
    forall v | v in b.variants ensures v in cols1 <==> v in cols {
      match FirstPresent(cols, a.variants)
      case None =>
      case Some(w) =>
        assert v != w && v != a.canonical;
        if v in cols {
          var i :| 0 <= i < |cols| && cols[i] == v;
          assert cols1[i] == v;
        }
        if v in cols1 {
          var i :| 0 <= i < |cols1| && cols1[i] == v;
          assert cols[i] == v;
        }
    }
    FirstPresentSameMembers(cols, cols1, b.variants);
  }

  lemma {:induction false} FirstPresentSameMembers(c1: seq<string>, c2: seq<string>, vs: seq<string>)
    requires forall v :: v in vs ==> (v in c1 <==> v in c2)
    ensures FirstPresent(c1, vs) == FirstPresent(c2, vs)
  {
    if vs != [] {
      FirstPresentSameMembers(c1, c2, vs[1..]);
    }
  }

  lemma {:induction false} ResolveSameFirsts(c1: seq<string>, c2: seq<string>, table: seq<Alias>, c: string)
    requires forall k :: 0 <= k < |table| ==> FirstPresent(c1, table[k].variants) == FirstPresent(c2, table[k].variants)
    ensures Resolve(c1, table, c) == Resolve(c2, table, c)
  {
    if table != [] {
      ResolveSameFirsts(c1, c2, table[1..], c);
    }
  }

  /** A name that is no variant of any field resolves to itself. */
  lemma {:induction false} ResolveForeign(cols: seq<string>, table: seq<Alias>, c: string)
    requires forall k :: 0 <= k < |table| ==> c !in table[k].variants
    ensures Resolve(cols, table, c) == c
  {
    if table != [] {
      ResolveForeign(cols, table[1..], c);
    }
  }

  /** The first present variant of a field resolves to that field's canonical name. */
  lemma {:induction false} ResolveOfFirst(cols: seq<string>, table: seq<Alias>, k: nat, v: string)
    requires NonInterfering(table) && k < |table|
    requires FirstPresent(cols, table[k].variants) == Some(v)
    ensures Resolve(cols, table, v) == table[k].canonical
    decreases k
  {
    if k > 0 {
      assert Disjoint(table[0], table[k]);
      assert v !in table[0].variants;
      var rest := table[1..];
      assert NonInterfering(rest) by {
        forall i, j | 0 <= i < j < |rest| ensures Disjoint(rest[i], rest[j]) {
          assert rest[i] == table[i + 1] && rest[j] == table[j + 1];
        }
      }
      assert rest[k - 1] == table[k];
      ResolveOfFirst(cols, rest, k - 1, v);
    }
  }

  /** A column resolves either to its own name or to some field's canonical name. */
  lemma {:induction false} ResolveCases(cols: seq<string>, table: seq<Alias>, c: string)
    ensures Resolve(cols, table, c) == c ||
      (exists k :: 0 <= k < |table| && FirstPresent(cols, table[k].variants) == Some(c) && Resolve(cols, table, c) == table[k].canonical)
  {
    if table != [] && FirstPresent(cols, table[0].variants) != Some(c) {
      ResolveCases(cols, table[1..], c);
      if Resolve(cols, table, c) != c {
        var k :| 0 <= k < |table[1..]| && FirstPresent(cols, table[1..][k].variants) == Some(c) &&
          Resolve(cols, table, c) == table[1..][k].canonical;
        assert table[1..][k] == table[k + 1];
      }
    }
  }

  /**
   * For each canonical field only the first present variant is renamed, and
   * every other column keeps its name: the rename loop computes Resolve column
   * by column.
   */
  lemma {:induction false} RenameColumnsResolves(cols: seq<string>, table: seq<Alias>)
    requires NonInterfering(table)
    ensures forall i :: 0 <= i < |cols| ==> RenameColumns(cols, table)[i] == Resolve(cols, table, cols[i])
    decreases |table|
  {
    if table != [] {
      var a := table[0];
      var rest := table[1..];
      var cols1 := RenameStep(cols, a);
      assert NonInterfering(rest) by {
        forall i, j | 0 <= i < j < |rest| ensures Disjoint(rest[i], rest[j]) {
          assert rest[i] == table[i + 1] && rest[j] == table[j + 1];
        }
      }
      RenameColumnsResolves(cols1, rest);
      forall k | 0 <= k < |rest| ensures FirstPresent(cols1, rest[k].variants) == FirstPresent(cols, rest[k].variants) {
        assert rest[k] == table[k + 1];
        StepKeepsPresence(cols, a, rest[k]);
      }
      forall i | 0 <= i < |cols| ensures RenameColumns(cols, table)[i] == Resolve(cols, table, cols[i]) {
        ResolveSameFirsts(cols1, cols, rest, cols1[i]);
        match FirstPresent(cols, a.variants)
        case Some(w) =>
          if cols[i] == w {
            assert cols1[i] == a.canonical;
            forall k | 0 <= k < |rest| ensures a.canonical !in rest[k].variants {
              assert rest[k] == table[k + 1];
            }
            ResolveForeign(cols, rest, a.canonical);
          } else {
            assert cols1[i] == cols[i];
          }
        case None =>
          assert cols1[i] == cols[i];
      }
    }
  }

  // The two literal tables are checked field by field: each row lemma states
  // that one field does not interfere with any later one.

  lemma SyncRow0a() ensures forall j :: 0 < j < 8 ==> Disjoint(SyncAliases[0], SyncAliases[j]) {}
  lemma SyncRow0b() ensures forall j :: 8 <= j < |SyncAliases| ==> Disjoint(SyncAliases[0], SyncAliases[j]) {}
  lemma SyncRow1a() ensures forall j :: 1 < j < 8 ==> Disjoint(SyncAliases[1], SyncAliases[j]) {}
  lemma SyncRow1b() ensures forall j :: 8 <= j < |SyncAliases| ==> Disjoint(SyncAliases[1], SyncAliases[j]) {}
  lemma SyncRow2a() ensures forall j :: 2 < j < 8 ==> Disjoint(SyncAliases[2], SyncAliases[j]) {}
  lemma SyncRow2b() ensures forall j :: 8 <= j < |SyncAliases| ==> Disjoint(SyncAliases[2], SyncAliases[j]) {}
  lemma SyncRow3a() ensures forall j :: 3 < j < 8 ==> Disjoint(SyncAliases[3], SyncAliases[j]) {}
  lemma SyncRow3b() ensures forall j :: 8 <= j < |SyncAliases| ==> Disjoint(SyncAliases[3], SyncAliases[j]) {}
  lemma SyncRow4a() ensures forall j :: 4 < j < 8 ==> Disjoint(SyncAliases[4], SyncAliases[j]) {}
  lemma SyncRow4b() ensures forall j :: 8 <= j < |SyncAliases| ==> Disjoint(SyncAliases[4], SyncAliases[j]) {}
  lemma SyncRow5() ensures forall j :: 5 < j < |SyncAliases| ==> Disjoint(SyncAliases[5], SyncAliases[j]) {}
  lemma SyncRow6() ensures forall j :: 6 < j < |SyncAliases| ==> Disjoint(SyncAliases[6], SyncAliases[j]) {}
  lemma SyncRow7() ensures forall j :: 7 < j < |SyncAliases| ==> Disjoint(SyncAliases[7], SyncAliases[j]) {}
  lemma SyncRow8() ensures forall j :: 8 < j < |SyncAliases| ==> Disjoint(SyncAliases[8], SyncAliases[j]) {}
  lemma SyncRow9() ensures forall j :: 9 < j < |SyncAliases| ==> Disjoint(SyncAliases[9], SyncAliases[j]) {}
  lemma SyncRow10() ensures forall j :: 10 < j < |SyncAliases| ==> Disjoint(SyncAliases[10], SyncAliases[j]) {}

  lemma SyncAliasesNonInterfering()
    ensures NonInterfering(SyncAliases)
  {
    forall i, j | 0 <= i < j < |SyncAliases| ensures Disjoint(SyncAliases[i], SyncAliases[j]) {
      SyncPair(i, j);
    }
  }

  lemma SyncPair(i: nat, j: nat)
    requires i < j < |SyncAliases|
    ensures Disjoint(SyncAliases[i], SyncAliases[j])
  {
    if i == 0 { SyncRow0a(); SyncRow0b(); }
    else if i == 1 { SyncRow1a(); SyncRow1b(); }
    else if i == 2 { SyncRow2a(); SyncRow2b(); }
    else if i == 3 { SyncRow3a(); SyncRow3b(); }
    else if i == 4 { SyncRow4a(); SyncRow4b(); }
    else if i == 5 { SyncRow5(); }
    else if i == 6 { SyncRow6(); }
    else if i == 7 { SyncRow7(); }
    else if i == 8 { SyncRow8(); }
    else if i == 9 { SyncRow9(); }
    else { SyncRow10(); }
  }

  /** The sheet table is the first eight fields of the sync table. */
  lemma SheetAliasesNonInterfering()
    ensures NonInterfering(SheetAliases)
  {
    forall i, j | 0 <= i < j < |SheetAliases| ensures Disjoint(SheetAliases[i], SheetAliases[j]) {
      assert SheetAliases[i] == SyncAliases[i] && SheetAliases[j] == SyncAliases[j];
      SyncPair(i, j);
    }
  }
}

=== FILE: indexapi.dfy ===
/**
 * The counting and assembly block of the serverless endpoint (api/index.py,
 * `get_chamados`): plain Python over the records the database returns, no
 * pandas. The cache, the database call and the clock are outside the model.
 */
module IndexApi {

  import opened Options
  import opened Text
  import opened Cells
  import opened Frequency
  import opened Reports

  /** One record of the `chamados` table as the client returns it; JSON null is `Missing`. */
  type Row = map<string, Cell>

  /** `str(v)` of a JSON value: null renders as "None". */
  function JsonStr(rt: Runtime, c: Cell): string {
    match c
    case Missing => "None"
    case _ => PyStr(rt, c)
  }

  /** `row.get(name, default)`. */
  function FieldOr(row: Row, name: string, default: Cell): (c: Cell)
    ensures name in row ==> c == row[name]
    ensures name !in row ==> c == default
  {
    if name in row then row[name] else default
  }

  /** `str(row.get('status', 'desconhecido')).lower()`: lowercased, not stripped. */
  function StatusKey(rt: Runtime, row: Row): (k: string)
    ensures "status" !in row ==> k == Lower("desconhecido")
    ensures "status" in row ==> k == Lower(JsonStr(rt, row["status"]))
  {
    var c := FieldOr(row, "status", Str("desconhecido"));
    assert "status" !in row ==> JsonStr(rt, c) == "desconhecido";
    Lower(JsonStr(rt, c))
  }

  function StatusKeys(rt: Runtime, data: seq<Row>): (ks: seq<string>)
    ensures |ks| == |data|
    ensures forall i :: 0 <= i < |data| ==> ks[i] == StatusKey(rt, data[i])
  {
    seq(|data|, i requires 0 <= i < |data| => StatusKey(rt, data[i]))
  }

  /** The values of one field, `'N/A'` where a record lacks it. */
  function FieldValues(data: seq<Row>, name: string): (vs: seq<Cell>)
    ensures |vs| == |data|
    ensures forall i :: 0 <= i < |data| ==> vs[i] == FieldOr(data[i], name, Str("N/A"))
  {
    seq(|data|, i requires 0 <= i < |data| => FieldOr(data[i], name, Str("N/A")))
  }

  /**
   * `d[v] = d.get(v, 0) + 1` over the values of one field: each value once,
   * with the number of records holding it.
   */
  function CountTable(data: seq<Row>, name: string): (t: Freq<Cell>)
    ensures DistinctKeys(t) && Total(t) == |data|
    ensures forall x :: Lookup(t, x) == Occurrences(FieldValues(data, name), x)
    ensures forall x :: x in Keys(t) <==> x in FieldValues(data, name)
    ensures t == [] <==> data == []
  {
    var vs := FieldValues(data, name);
    TallyCounts(vs);
    assert data != [] ==> vs[0] in Keys(Tally(vs));
    Tally(vs)
  }

  /** The bucket lists in the order the endpoint sums them. */
  const OpenList: seq<string> := ["aberto", "em andamento", "pendente"]
  const ClosedList: seq<string> := ["fechado", "resolvido", "conclu\U{ED}do", "concluido"]

  /** `sum(status_count.get(k, 0) for k in ks)`. */
  function BucketSum(f: Freq<string>, ks: seq<string>): nat {
    if ks == [] then 0 else Lookup(f, ks[0]) + BucketSum(f, ks[1..])
  }

  /** Number of keys that fall in `bucket`. */
  function CountIn(s: seq<string>, bucket: set<string>): (n: nat)
    ensures n <= |s|
  {
    if s == [] then 0 else CountIn(s[..|s| - 1], bucket) + (if s[|s| - 1] in bucket then 1 else 0)
  }

  /**
   * Insight value: the key of the first entry of largest count, `'N/A'` for
   * an empty table. `max` keeps the first of equal maxima in the dict's
   * insertion order.
   */
  function MostFrequent(f: Freq<Cell>): (c: Cell)
    ensures f == [] ==> c == Str("N/A")
    ensures f != [] ==>
      exists i :: 0 <= i < |f| && f[i].0 == c &&
        (forall j :: 0 <= j < |f| ==> f[j].1 <= f[i].1) && (forall j :: 0 <= j < i ==> f[j].1 < f[i].1)
  {
    if f == [] then Str("N/A") else f[FirstMax(f)].0
  }

  datatype ApiResult = ApiResult(
    total: nat,
    open: nat,
    closed: nat,
    meanTime: string,
    byTechnician: Freq<Cell>,
    byCategory: Freq<Cell>,
    table: seq<Row>,
    bestTechnician: Cell,
    mainCategory: Cell,
    satisfactionTrend: string,
    source: string)

  const ApiTableLimit: nat := 100

  /**
   * The result the endpoint assembles from the records: the status buckets
   * are the listed lowercase texts, the two tables count every record, the
   * table is the first hundred records as returned, the mean time is never
   * computed and the insights name the most frequent keys.
   */
  function GetChamados(rt: Runtime, data: seq<Row>): (r: ApiResult)
    ensures r.total == |data|
    ensures r.open == CountIn(StatusKeys(rt, data), OpenStatuses)
    ensures r.closed == CountIn(StatusKeys(rt, data), ClosedStatuses)
    ensures r.open + r.closed <= r.total
    ensures Total(r.byTechnician) == |data| && Total(r.byCategory) == |data|
    ensures DistinctKeys(r.byTechnician) && DistinctKeys(r.byCategory)
    ensures forall x :: Lookup(r.byTechnician, x) == Occurrences(FieldValues(data, "tecnico"), x)
    ensures forall x :: Lookup(r.byCategory, x) == Occurrences(FieldValues(data, "categoria"), x)
    ensures |r.table| == (if |data| < ApiTableLimit then |data| else ApiTableLimit) && r.table == data[..|r.table|]
    ensures r.meanTime == "N/A" && r.source == "Supabase"
    ensures data == [] <==> r.bestTechnician == Str("N/A") && r.byTechnician == []
    ensures r.bestTechnician == MostFrequent(r.byTechnician) && r.mainCategory == MostFrequent(r.byCategory)
  {
    var keys := StatusKeys(rt, data);
    var statusCount := Tally(keys);
    var tecnicos := CountTable(data, "tecnico");
    var categorias := CountTable(data, "categoria");
    TallyCounts(keys);
    BucketListsExact();
    BucketSumCounts(keys, OpenList);
    BucketSumCounts(keys, ClosedList);
    StatusBucketsDisjoint();
    DisjointCounts(keys, OpenStatuses, ClosedStatuses);
    ApiResult(
      |data|,
      BucketSum(statusCount, OpenList),
      BucketSum(statusCount, ClosedList),
      "N/A",
      tecnicos,
      categorias,
      Take(data, ApiTableLimit),
      MostFrequent(tecnicos),
      MostFrequent(categorias),
      "Processando...",
      "Supabase")
  }

  /** The summed lists hold each bucket text once, and exactly the texts of the buckets. */
  lemma BucketListsExact()
    ensures DistinctList(OpenList) && ListSet(OpenList) == OpenStatuses
    ensures DistinctList(ClosedList) && ListSet(ClosedList) == ClosedStatuses
  {
    assert OpenList[0][0] != OpenList[1][0] && OpenList[0][0] != OpenList[2][0] && OpenList[1][0] != OpenList[2][0];
    assert ClosedList[0][0] != ClosedList[1][0] && ClosedList[0][0] != ClosedList[2][0] && ClosedList[0][0] != ClosedList[3][0];
    assert ClosedList[1][0] != ClosedList[2][0] && ClosedList[1][0] != ClosedList[3][0];
    assert ClosedList[2][6] != ClosedList[3][6];
  }

  function ListSet(ks: seq<string>): set<string> {
    set k | k in ks
  }

  predicate DistinctList(ks: seq<string>) {
    forall i, j :: 0 <= i < j < |ks| ==> ks[i] != ks[j]
  }

  /** Summing a tally over distinct keys counts the values among those keys. */
  lemma {:induction false} BucketSumCounts(s: seq<string>, ks: seq<string>)
    requires DistinctList(ks)
    ensures BucketSum(Tally(s), ks) == CountIn(s, ListSet(ks))
    decreases |ks|
  {
    TallyCounts(s);
    if ks == [] {
      CountInEmpty(s, ListSet(ks));
    } else {
      BucketSumCounts(s, ks[1..]);
      assert ListSet(ks) == ListSet(ks[1..]) + {ks[0]};
      assert ks[0] !in ListSet(ks[1..]);
      CountInAdd(s, ListSet(ks[1..]), ks[0]);
    }
  }

  lemma {:induction false} CountInEmpty(s: seq<string>, bucket: set<string>)
    requires bucket == {}
    ensures CountIn(s, bucket) == 0
  {
    if s != [] {
      CountInEmpty(s[..|s| - 1], bucket);
    }
  }

  lemma {:induction false} CountInAdd(s: seq<string>, bucket: set<string>, k: string)
    requires k !in bucket
    ensures CountIn(s, bucket + {k}) == CountIn(s, bucket) + Occurrences(s, k)
  {
    if s != [] {
      CountInAdd(s[..|s| - 1], bucket, k);
    }
  }

  lemma {:induction false} DisjointCounts(s: seq<string>, a: set<string>, b: set<string>)
    requires a * b == {}
    ensures CountIn(s, a) + CountIn(s, b) <= |s|
  {
    if s != [] {
      DisjointCounts(s[..|s| - 1], a, b);
      var x := s[|s| - 1];
      assert x in a && x in b ==> x in a * b;
    }
  }

  /** The insights name values that occur in the records, and no value occurs more often. */
  lemma InsightsMostFrequent(rt: Runtime, data: seq<Row>)
    requires data != []
    ensures var r := GetChamados(rt, data);
      var vs := FieldValues(data, "tecnico");
      r.bestTechnician in vs && forall x :: x in vs ==> Occurrences(vs, x) <= Occurrences(vs, r.bestTechnician)
  {
    var vs := FieldValues(data, "tecnico");
    var f := Tally(vs);
    TallyCounts(vs);
    assert vs[0] in Keys(f);
    FirstMaxMostFrequent(vs, f);
  }

  /**
   * The key is not stripped: a status with a leading blank lands in neither
   * bucket, whatever follows it.
   */
  lemma PaddedStatusUncounted(rt: Runtime, row: Row)
    requires "status" in row && row["status"].Str?
    requires row["status"].s != [] && IsBlank(Python, row["status"].s[0])
    ensures StatusKey(rt, row) !in OpenStatuses && StatusKey(rt, row) !in ClosedStatuses
  {
    var k := StatusKey(rt, row);
    assert IsBlank(Python, k[0]);
    assert forall b :: b in OpenStatuses + ClosedStatuses ==> b != [] && !IsBlank(Python, b[0]);
  }

  /** A null status renders as "none": it is counted under that key, not under 'desconhecido'. */
  lemma NullStatusKey(rt: Runtime, row: Row, none: string)
    requires "status" in row && row["status"] == Missing && none == "none"
    ensures StatusKey(rt, row) == none
  {
    var k := StatusKey(rt, row);
    assert forall i :: 0 <= i < |k| ==> k[i] == none[i];
  }
}

=== FILE: option.dfy ===
/** The "value or missing" wrapper used for every cell that pandas would hold as NaN/None/NaT. */
module Options {

  datatype Option<T> = None | Some(value: T) {
    function GetOr(default: T): T {
      match this
      case Some(v) => v
      case None => default
    }
  }
}

=== FILE: report.dfy ===
/**
 * Pieces shared by the two pandas metric calculators (the Google Sheets one
 * and the Supabase one): the status buckets, the textual satisfaction scale,
 * the mean resolution time, the dashboard table entry, the insight texts and
 * the report record itself.
 */
module Reports {

  import opened Options
  import opened Text
  import opened Cells
  import opened Frequency
  import opened Frames

  // ---------------------------------------------------------------------------
  // Status buckets

  const OpenStatuses: set<string> := {"aberto", "em andamento", "pendente"}

  /** The closed bucket of the Google Sheets calculator: no accented `concluído`. */
  const SheetClosedStatuses: set<string> := {"fechado", "resolvido", "concluido"}

  /** The closed bucket of the Supabase calculator and the serverless API. */
  const ClosedStatuses: set<string> := {"fechado", "resolvido", "concluido", "conclu\U{ED}do"}

  /** No status text is both open and closed, in either calculator. */
  lemma StatusBucketsDisjoint()
    ensures OpenStatuses * ClosedStatuses == {}
    ensures OpenStatuses * SheetClosedStatuses == {}
  {
  }

  /** Number of cells holding one of the texts of `bucket` (`len(df[df[c].isin(bucket)])`). */
  function CountStatus(col: seq<Cell>, bucket: set<string>): (c: nat)
    ensures c <= |col|
    ensures c > 0 <==> exists i :: 0 <= i < |col| && col[i].Str? && col[i].s in bucket
  {
    if col == [] then 0
    else
      var rest := CountStatus(col[1..], bucket);
      assert forall i :: 0 < i < |col| ==> col[i] == col[1..][i - 1];
      (if col[0].Str? && col[0].s in bucket then 1 else 0) + rest
  }

  /** Two disjoint buckets together count no more cells than the column has. */
  lemma {:induction false} DisjointBucketsBounded(col: seq<Cell>, a: set<string>, b: set<string>)
    requires a * b == {}
    ensures CountStatus(col, a) + CountStatus(col, b) <= |col|
  {
    if col != [] {
      DisjointBucketsBounded(col[1..], a, b);
      if col[0].Str? {
        var x := col[0].s;
        assert x in a && x in b ==> x in a * b;
      }
    }
  }

  // ---------------------------------------------------------------------------
  // Textual satisfaction scale of the Python pipelines

  /** The labels of the five-point scale, already stripped and lowercased. */
  const SatisfactionLabels: set<string> :=
    {"ruim", "regular", "medio", "m\U{E9}dio", "bom", "otimo", "\U{F3}timo", "excelente"}

  /** `satisf_map.get(key)`. */
  function SatisfactionLabel(key: string): (r: Option<nat>)
    ensures r.Some? <==> key in SatisfactionLabels
    ensures r.Some? ==> 1 <= r.value <= 5
    ensures key == "ruim" ==> r == Some(1)
    ensures key == "regular" ==> r == Some(2)
    ensures key == "medio" || key == "m\U{E9}dio" ==> r == Some(3)
    ensures key == "bom" ==> r == Some(4)
    ensures key == "otimo" || key == "\U{F3}timo" || key == "excelente" ==> r == Some(5)
  {
    if key == "ruim" then Some(1)
    else if key == "regular" then Some(2)
    else if key == "medio" || key == "m\U{E9}dio" then Some(3)
    else if key == "bom" then Some(4)
    else if key == "otimo" || key == "\U{F3}timo" || key == "excelente" then Some(5)
    else None
  }

  /**
   * The Google Sheets coercion of one satisfaction cell: the label of
   * `str(x).strip().lower()` if it is one, otherwise `to_numeric` of the cell
   * itself. Nothing is clamped to the 1..5 scale.
   */
  function SheetSatisfaction(rt: Runtime, c: Cell): (r: Option<real>)
    ensures c.Missing? ==> r.None?
    ensures c.Str? && Lower(Strip(Python, c.s)) in SatisfactionLabels ==> r.Some? && 1.0 <= r.value <= 5.0
    ensures c.Str? && Lower(Strip(Python, c.s)) !in SatisfactionLabels ==> r == ParseNumber(c.s)
    ensures c.Num? && Lower(Strip(Python, rt.pyNumber(c.x))) !in SatisfactionLabels ==> r == Some(c.x)
  {
    NanIsNoLabel();
    match SatisfactionLabel(Lower(Strip(Python, PyStr(rt, c))))
    case Some(n) => Some(n as real)
    case None => ToNumeric(c)
  }

  /** `str(NaN)` is "nan", which is no label of the scale. */
  lemma NanIsNoLabel()
    ensures Lower(Strip(Python, "nan")) !in SatisfactionLabels
  {
    NanFixed();
  }

  /**
   * The Supabase and sync-job coercion: the same, but only applied to present
   * values (`... if pd.notna(x) else x`).
   */
  function GuardedSatisfaction(rt: Runtime, c: Cell): (r: Option<real>)
    ensures c.Missing? ==> r.None?
  {
    if c.Missing? then None else SheetSatisfaction(rt, c)
  }

  /** The `notna` guard changes nothing: `str(NaN)` is no label and NaN coerces to NaN. */
  lemma SatisfactionGuardIrrelevant(rt: Runtime, c: Cell)
    ensures GuardedSatisfaction(rt, c) == SheetSatisfaction(rt, c)
  {
    if c.Missing? {
      NanIsNoLabel();
    }
  }

  /**
   * Surrounding blanks and capitals are ignored: a label written with any
   * padding and in any case scores as the label does ("  MÉDIO " scores 3).
   */
  lemma SatisfactionLabelNormalised(rt: Runtime, pre: string, core: string, post: string)
    requires forall i :: 0 <= i < |pre| ==> IsBlank(Python, pre[i])
    requires forall i :: 0 <= i < |post| ==> IsBlank(Python, post[i])
    requires core != [] && !IsBlank(Python, core[0]) && !IsBlank(Python, core[|core| - 1])
    requires Lower(core) in SatisfactionLabels
    ensures SheetSatisfaction(rt, Str(pre + core + post)) == Some(SatisfactionLabel(Lower(core)).value as real)
  {
    StripPadded(Python, pre, core, post);
    LabelScore(rt, pre + core + post);
  }

  /** A text whose stripped lowercase is a label scores that label. */
  lemma LabelScore(rt: Runtime, s: string)
    requires Lower(Strip(Python, s)) in SatisfactionLabels
    ensures SheetSatisfaction(rt, Str(s)) == Some(SatisfactionLabel(Lower(Strip(Python, s))).value as real)
  {
  }

  /** "MÉDIO" lowercases to the label "médio". */
  lemma LowerOfMedio()
    ensures Lower("M\U{C9}DIO") == "m\U{E9}dio"
  {
    var key := Lower("M\U{C9}DIO");
    assert |key| == 5;
    assert key[0] == 'm' && key[1] == '\U{E9}' && key[2] == 'd' && key[3] == 'i' && key[4] == 'o';
  }

  /** Numeric text outside the scale is kept as it is: "7" scores 7. */
  lemma SatisfactionNotClamped(rt: Runtime)
    ensures SheetSatisfaction(rt, Str("7")) == Some(7.0)
  {
    assert NatText(7) == "7";
    ParseNumberOfNatText(7);
    StripNoBlank(Python, "7");
    var key := Lower("7");
    assert key == "7" by {
      assert |key| == 1 && key[0] == '7';
    }
    assert SatisfactionLabel(key).None?;
  }

  // ---------------------------------------------------------------------------
  // Coercions of one cell and of the known columns

  /** `to_datetime(errors='coerce')` of one cell. */
  function AsDate(rt: Runtime, c: Cell): (r: Cell)
    ensures r.Missing? || r.Time?
  {
    TimeCell(ToDatetime(rt, c))
  }

  /** `to_numeric(errors='coerce')` of one cell. */
  function AsNumber(c: Cell): (r: Cell)
    ensures r.Missing? || r.Num?
  {
    NumCell(ToNumeric(c))
  }

  /** The satisfaction mapping, applied to present values only, followed by `to_numeric`. */
  function AsGuardedSatisfaction(rt: Runtime, c: Cell): (r: Cell)
    ensures r.Missing? || r.Num?
  {
    NumCell(GuardedSatisfaction(rt, c))
  }

  predicate AllDates(col: seq<Cell>) {
    forall i :: 0 <= i < |col| ==> col[i].Missing? || col[i].Time?
  }

  predicate AllNumbers(col: seq<Cell>) {
    forall i :: 0 <= i < |col| ==> col[i].Missing? || col[i].Num?
  }

  /** After coercion the date columns hold timestamps and the measure columns numbers. */
  predicate Coerced(f: Frame) {
    && ("data_abertura" in f.columns ==> AllDates(Column(f, "data_abertura").value))
    && ("data_fechamento" in f.columns ==> AllDates(Column(f, "data_fechamento").value))
    && ("satisfacao" in f.columns ==> AllNumbers(Column(f, "satisfacao").value))
    && ("tempo_resolucao" in f.columns ==> AllNumbers(Column(f, "tempo_resolucao").value))
  }

  // ---------------------------------------------------------------------------
  // Mean resolution time

  /** `(fechamento - abertura).dt.total_seconds() / 3600` on one row: None unless both are timestamps. */
  function DateDiffHours(start: Cell, finish: Cell): (r: Option<real>)
    ensures r.Some? <==> start.Time? && finish.Time?
  {
    if start.Time? && finish.Time? then Some((finish.t.seconds - start.t.seconds) as real / 3600.0) else None
  }

  /** The per-row hour differences of two date columns. */
  function DateDiffs(f: Frame): (r: seq<Option<real>>)
    requires "data_abertura" in f.columns && "data_fechamento" in f.columns
    ensures |r| == |f.rows|
    ensures forall i :: 0 <= i < |f.rows| ==>
      r[i] == DateDiffHours(Column(f, "data_abertura").value[i], Column(f, "data_fechamento").value[i])
  {
    var a := Column(f, "data_abertura").value;
    var b := Column(f, "data_fechamento").value;
    seq(|f.rows|, i requires 0 <= i < |f.rows| => DateDiffHours(a[i], b[i]))
  }

  /**
   * `tempo_medio_num`: the mean of the present `tempo_resolucao` values when
   * that column exists, otherwise the mean difference in hours over the rows
   * with both dates, otherwise nothing.
   */
  function MeanResolutionHours(f: Frame): (r: Option<real>)
    ensures "tempo_resolucao" in f.columns ==> r == Mean(Numbers(Column(f, "tempo_resolucao").value))
    ensures "tempo_resolucao" !in f.columns && "data_abertura" in f.columns && "data_fechamento" in f.columns ==>
      r == Mean(Present(DateDiffs(f)))
  {
    if "tempo_resolucao" in f.columns then Mean(Numbers(Column(f, "tempo_resolucao").value))
    else if "data_abertura" in f.columns && "data_fechamento" in f.columns then Mean(Present(DateDiffs(f)))
    else None
  }

  /** Rows where both dates are timestamps: the rows the date fallback averages over. */
  ghost predicate HasDatedRow(f: Frame)
    requires "data_abertura" in f.columns && "data_fechamento" in f.columns
  {
    exists i :: 0 <= i < |f.rows| && Column(f, "data_abertura").value[i].Time? && Column(f, "data_fechamento").value[i].Time?
  }

  /** The mean is reported exactly when some value exists to average. */
  lemma MeanResolutionAvailable(f: Frame)
    ensures "tempo_resolucao" in f.columns ==>
      (MeanResolutionHours(f).Some? <==> exists x :: Num(x) in Column(f, "tempo_resolucao").value)
    ensures "tempo_resolucao" !in f.columns && "data_abertura" in f.columns && "data_fechamento" in f.columns ==>
      (MeanResolutionHours(f).Some? <==> HasDatedRow(f))
    ensures "tempo_resolucao" !in f.columns && !("data_abertura" in f.columns && "data_fechamento" in f.columns) ==>
      MeanResolutionHours(f).None?
  {
    if "tempo_resolucao" in f.columns {
      var col := Column(f, "tempo_resolucao").value;
      var xs := Numbers(col);
      if xs != [] {
        assert Num(xs[0]) in col;
      }
      if exists x :: Num(x) in col {
        var x :| Num(x) in col;
        assert x in xs;
      }
    } else if "data_abertura" in f.columns && "data_fechamento" in f.columns {
      DatedMeanAvailable(f);
    }
  }

  lemma DatedMeanAvailable(f: Frame)
    requires "data_abertura" in f.columns && "data_fechamento" in f.columns
    ensures Present(DateDiffs(f)) != [] <==> HasDatedRow(f)
  {
    var a := Column(f, "data_abertura").value;
    var b := Column(f, "data_fechamento").value;
    var d := DateDiffs(f);
    var p := Present(d);
    if p != [] {
      assert p[0] in p;
      assert Some(p[0]) in d;
      var i :| 0 <= i < |d| && d[i] == Some(p[0]);
      assert DateDiffHours(a[i], b[i]).Some?;
    }
    if HasDatedRow(f) {
      var i :| 0 <= i < |f.rows| && a[i].Time? && b[i].Time?;
      assert d[i].Some?;
      assert Some(d[i].value) in d;
      assert d[i].value in p;
    }
  }

  /** `tempo_medio`: "N/A" or the one-decimal rendering followed by " horas". */
  function HoursText(rt: Runtime, v: Option<real>): string {
    match v
    case None => "N/A"
    case Some(x) => rt.fixed1(x) + " horas"
  }

  // ---------------------------------------------------------------------------
  // Frequency tables of a column

  /** `df[name].value_counts()` as a table, or the empty table when the column is absent. */
  function ColumnCounts(f: Frame, name: string): (r: Freq<Cell>)
    ensures name !in f.columns ==> r == []
    ensures forall i, j :: 0 <= i < j < |r| ==> r[i].1 >= r[j].1
    ensures forall i :: 0 <= i < |r| ==> !r[i].0.Missing? && r[i].0 in Column(f, name).value
  {
    match Column(f, name)
    case None => []
    case Some(col) =>
      var r := ValueCounts(PresentCells(col));
      assert forall i :: 0 <= i < |r| ==> r[i].0 in PresentCells(col) by {
        forall i | 0 <= i < |r| ensures r[i].0 in PresentCells(col) {
          ValueCountsCounts(PresentCells(col), i);
        }
      }
      r
  }

  /** The counts of a column table add up to the number of present cells in that column. */
  lemma ColumnCountsTotal(f: Frame, name: string)
    requires name in f.columns
    ensures Total(ColumnCounts(f, name)) == |PresentCells(Column(f, name).value)|
  {
    var s := PresentCells(Column(f, name).value);
    TallyCounts(s);
    TotalPermutation(ValueCounts(s), Tally(s));
  }

  /** A column table is empty exactly when the column is absent or holds no present value. */
  lemma ColumnCountsEmpty(f: Frame, name: string)
    ensures ColumnCounts(f, name) == [] <==>
      name !in f.columns || forall i :: 0 <= i < |f.rows| ==> Column(f, name).value[i].Missing?
  {
    if name in f.columns {
      var col := Column(f, name).value;
      var s := PresentCells(col);
      TallyCounts(s);
      if s != [] {
        assert s[0] in s;
        assert s[0] in Keys(Tally(s));
      }
      if exists i :: 0 <= i < |f.rows| && !col[i].Missing? {
        var i :| 0 <= i < |f.rows| && !col[i].Missing?;
        assert col[i] in s;
      }
    }
  }

  /**
   * The entry `max(counts.items(), key=count)` picks from a column table is a
   * present value of the column that occurs at least as often as any other,
   * and its count is its number of occurrences.
   */
  lemma ColumnCountsTop(f: Frame, name: string)
    requires ColumnCounts(f, name) != []
    ensures name in f.columns
    ensures var e := ColumnCounts(f, name)[FirstMax(ColumnCounts(f, name))];
      && e.0 in Column(f, name).value && !e.0.Missing?
      && e.1 == Occurrences(PresentCells(Column(f, name).value), e.0)
      && forall x :: x in Column(f, name).value && !x.Missing? ==>
           Occurrences(PresentCells(Column(f, name).value), x) <= e.1
  {
    var s := PresentCells(Column(f, name).value);
    FirstMaxMostFrequent(s, ValueCounts(s));
  }

  /** Column tables never make the category insight divide by zero. */
  lemma CategoryInsightDefined(rt: Runtime, f: Frame, name: string)
    ensures CategoryText(rt, ColumnCounts(f, name)).Some?
  {
    var t := ColumnCounts(f, name);
    if t != [] {
      ColumnCountsTotal(f, name);
      ColumnCountsTop(f, name);
      var s := PresentCells(Column(f, name).value);
      assert t[0].0 in s;
      assert |s| > 0;
    }
  }

  // ---------------------------------------------------------------------------
  // Dashboard table entries and the report

  /** One row of `tabela`: exactly these five fields. */
  datatype Entry = Entry(id: Cell, tecnico: Cell, categoria: Cell, status: Cell, satisfacao: Cell)

  /** `row.get(field, 'N/A')` for the four non-id fields of row `i`, with the id given. */
  function EntryOf(f: Frame, i: nat, id: Cell): (e: Entry)
    requires i < |f.rows|
    ensures e.id == id
    ensures "tecnico" in f.columns ==> e.tecnico == Column(f, "tecnico").value[i]
    ensures "tecnico" !in f.columns ==> e.tecnico == Str("N/A")
    ensures "categoria" in f.columns ==> e.categoria == Column(f, "categoria").value[i]
    ensures "categoria" !in f.columns ==> e.categoria == Str("N/A")
    ensures "status" in f.columns ==> e.status == Column(f, "status").value[i]
    ensures "status" !in f.columns ==> e.status == Str("N/A")
    ensures "satisfacao" in f.columns ==> e.satisfacao == Column(f, "satisfacao").value[i]
    ensures "satisfacao" !in f.columns ==> e.satisfacao == Str("N/A")
  {
    Entry(id,
      Get(f, i, "tecnico", Str("N/A")),
      Get(f, i, "categoria", Str("N/A")),
      Get(f, i, "status", Str("N/A")),
      Get(f, i, "satisfacao", Str("N/A")))
  }

  datatype Insights = Insights(bestTechnician: string, mainCategory: string, satisfaction: string)

  /**
   * The metrics dictionary: counts, mean time text, the two frequency tables,
   * the table rows and the insights. `source` is the `fonte` field, which only
   * the Supabase calculator sets. The wall-clock `ultima_atualizacao` is not
   * part of the model.
   */
  datatype Report = Report(
    total: nat,
    open: nat,
    closed: nat,
    meanTime: string,
    byTechnician: Freq<Cell>,
    byCategory: Freq<Cell>,
    table: seq<Entry>,
    insights: Insights,
    source: Option<string>)

  const InsufficientData: Insights := Insights("Dados insuficientes", "Dados insuficientes", "Dados insuficientes")

  /** The report returned when computing the metrics raises: the row count survives, everything else is emptied. */
  function FailureReport(total: nat, source: Option<string>): (r: Report)
    ensures r.total == total && r.open == 0 && r.closed == 0
    ensures r.meanTime == "N/A" && r.byTechnician == [] && r.byCategory == [] && r.table == []
    ensures r.insights == InsufficientData && r.source == source
  {
    Report(total, 0, 0, "N/A", [], [], [], InsufficientData, source)
  }

  // ---------------------------------------------------------------------------
  // Insight texts shared by both calculators

  const NoTechnicianData: string := "\U{1F4CA} Dados de t\U{E9}cnicos n\U{E3}o dispon\U{ED}veis."
  const NoCategoryData: string := "\U{1F4CA} Dados de categorias n\U{E3}o dispon\U{ED}veis."
  const NoSatisfactionData: string := "\U{1F4CA} Dados de satisfa\U{E7}\U{E3}o n\U{E3}o dispon\U{ED}veis."

  /** `part / whole * 100`: the percentage `part` makes of `whole`. */
  function Percent(part: nat, whole: nat): (p: real)
    requires whole > 0
    ensures p * whole as real == part as real * 100.0
  {
    part as real / whole as real * 100.0
  }

  /**
   * The share of the largest of `n` counts adding up to `total` lies between
   * an even split and the whole.
   */
  lemma PercentBounds(top: nat, total: nat, n: nat)
    requires 0 < total && top <= total && total <= n * top
    ensures 0.0 < Percent(top, total) <= 100.0
    ensures Percent(top, total) * n as real >= 100.0
  {
    var p := Percent(top, total);
    var t := top as real;
    var s := total as real;
    assert top > 0;
    assert p * s == t * 100.0;
    CancelPositive(p, 100.0, s, t * 100.0);
    assert (n * top) as real == n as real * t;
    assert p * n as real * s == n as real * t * 100.0;
    assert n as real * t >= s;
  }

  lemma CancelPositive(a: real, b: real, s: real, c: real)
    requires s > 0.0 && a * s == c && c <= b * s
    ensures a <= b
  {
  }

  /**
   * `count / sum(counts) * 100` for the first maximal entry of a table; None
   * where the division raises, on an empty table or a zero total.
   */
  function TopShare<K>(f: Freq<K>): (r: Option<real>)
    ensures r.None? <==> f == [] || Total(f) == 0
    ensures r.Some? ==> r.value == Percent(f[FirstMax(f)].1, Total(f))
    ensures r.Some? ==> 0.0 < r.value <= 100.0
    ensures r.Some? ==> r.value * |f| as real >= 100.0
  {
    if f == [] || Total(f) == 0 then None
    else
      MaxShare(f);
      PercentBounds(f[FirstMax(f)].1, Total(f), |f|);
      Some(Percent(f[FirstMax(f)].1, Total(f)))
  }

  /**
   * The technician insight: the first entry of largest count named with its
   * count, followed by `ending`; the fixed message for an empty table.
   */
  function TechnicianText(rt: Runtime, f: Freq<Cell>, ending: string): string {
    if f == [] then NoTechnicianData
    else
      var top := f[FirstMax(f)];
      "\U{1F3C6} " + PyStr(rt, top.0) + " foi o t\U{E9}cnico mais produtivo com " + NatText(top.1) + ending
  }

  /**
   * The technician insight of a column table names a technician who occurs at
   * least as often as any other, with that technician's number of rows.
   */
  lemma TopTechnicianText(rt: Runtime, f: Frame, ending: string)
    requires "tecnico" in f.columns
    requires exists i :: 0 <= i < |f.rows| && !Column(f, "tecnico").value[i].Missing?
    ensures var col := Column(f, "tecnico").value;
      exists k :: k in col && !k.Missing?
        && (forall x :: x in col && !x.Missing? ==> Occurrences(PresentCells(col), x) <= Occurrences(PresentCells(col), k))
        && TechnicianText(rt, ColumnCounts(f, "tecnico"), ending) ==
             "\U{1F3C6} " + PyStr(rt, k) + " foi o t\U{E9}cnico mais produtivo com " +
             NatText(Occurrences(PresentCells(col), k)) + ending
  {
    ColumnCountsEmpty(f, "tecnico");
    var t := ColumnCounts(f, "tecnico");
    ColumnCountsTop(f, "tecnico");
    var k := t[FirstMax(t)].0;
    assert k in Column(f, "tecnico").value;
  }

  /** Which of the three satisfaction messages a mean selects. */
  datatype Tone = Pleased | Improvable | Alarming

  function ToneOf(mean: real): (t: Tone)
    ensures t == Pleased <==> mean >= 4.0
    ensures t == Improvable <==> 3.0 <= mean < 4.0
    ensures t == Alarming <==> mean < 3.0
  {
    if mean >= 4.0 then Pleased else if mean >= 3.0 then Improvable else Alarming
  }

  /** A higher mean never selects a worse message. */
  lemma ToneMonotone(a: real, b: real)
    requires a <= b
    ensures ToneOf(a) == Pleased ==> ToneOf(b) == Pleased
    ensures ToneOf(b) == Alarming ==> ToneOf(a) == Alarming
  {
  }

  function SatisfactionText(rt: Runtime, mean: Option<real>): string {
    match mean
    case None => NoSatisfactionData
    case Some(m) =>
      match ToneOf(m)
      case Pleased => "\U{1F60A} Excelente! Satisfa\U{E7}\U{E3}o m\U{E9}dia de " + rt.fixed1(m) + "/5 - clientes muito satisfeitos."
      case Improvable => "\U{1F642} Satisfa\U{E7}\U{E3}o m\U{E9}dia de " + rt.fixed1(m) + "/5 - h\U{E1} espa\U{E7}o para melhorias."
      case Alarming => "\U{1F61F} Aten\U{E7}\U{E3}o! Satisfa\U{E7}\U{E3}o baixa de " + rt.fixed1(m) + "/5 - revisar processos."
  }

  /** The category insight; None where `sum(categorias.values())` is zero and the division raises. */
  function CategoryText(rt: Runtime, f: Freq<Cell>): Option<string> {
    if f == [] then Some(NoCategoryData)
    else
      var top := f[FirstMax(f)];
      match TopShare(f)
      case Some(p) =>
        Some("\U{1F4C8} " + PyStr(rt, top.0) + " representa " + rt.fixed1(p) + "% dos chamados (" + NatText(top.1) + " ocorr\U{EA}ncias).")
      case None => None
  }

  /** `df['satisfacao'].mean()` when the column exists. */
  function SatisfactionMean(f: Frame): (r: Option<real>)
    ensures "satisfacao" !in f.columns ==> r.None?
    ensures "satisfacao" in f.columns ==> r == Mean(Numbers(Column(f, "satisfacao").value))
  {
    match Column(f, "satisfacao")
    case None => None
    case Some(col) => Mean(Numbers(col))
  }
}

=== FILE: supabase.dfy ===
/**
 * The Supabase calculator (api/supabase_client.py): the same pipeline as the
 * Google Sheets one over the rows of the `chamados` table, with its own header
 * normalisation, coercions, status handling, table ordering and texts.
 * Fetching the rows is outside the model: a pipeline starts from the frame
 * that was fetched.
 */
module SupabaseClient {

  import opened Options
  import opened Text
  import opened Cells
  import opened Frequency
  import opened Frames
  import opened Reports

  // ---------------------------------------------------------------------------
  // Headers

  /** The frame with every label lowercased and stripped; the rows are untouched. */
  function SupabaseHeaders(f: Frame): (r: Frame)
    ensures r.rows == f.rows && |r.columns| == |f.columns|
    ensures forall j :: 0 <= j < |f.columns| ==> r.columns[j] == LowerStrip(Python, f.columns[j])
  {
    Relabel(f, s => LowerStrip(Python, s))
  }

  // ---------------------------------------------------------------------------
  // Type coercion

  /** The four timestamp columns of the table, coerced in place. */
  function CoerceDates(rt: Runtime, f: Frame): (r: Frame)
    ensures r.columns == f.columns && |r.rows| == |f.rows|
    ensures forall name :: name in SupabaseDateFields && name in f.columns ==> forall i :: 0 <= i < |f.rows| ==>
      Column(r, name).value[i] == AsDate(rt, Column(f, name).value[i])
    ensures forall name :: name !in SupabaseDateFields ==> Column(r, name) == Column(f, name)
  {
    var names := ["data_abertura", "data_fechamento", "created_at", "updated_at"];
    assert names[0][5] != names[1][5] && names[0][0] != names[2][0] && names[0][0] != names[3][0];
    assert names[1][0] != names[2][0] && names[1][0] != names[3][0] && names[2][0] != names[3][0];
    assert forall name :: name in SupabaseDateFields <==> name in names;
    MapColumns(f, names, c => AsDate(rt, c))
  }

  const SupabaseDateFields: set<string> := {"data_abertura", "data_fechamento", "created_at", "updated_at"}

  /** Satisfaction and the resolution time, coerced in place. */
  function CoerceMeasures(rt: Runtime, f: Frame): (r: Frame)
    ensures r.columns == f.columns && |r.rows| == |f.rows|
    ensures "satisfacao" in f.columns ==> forall i :: 0 <= i < |f.rows| ==>
      Column(r, "satisfacao").value[i] == AsGuardedSatisfaction(rt, Column(f, "satisfacao").value[i])
    ensures "tempo_resolucao" in f.columns ==> forall i :: 0 <= i < |f.rows| ==>
      Column(r, "tempo_resolucao").value[i] == AsNumber(Column(f, "tempo_resolucao").value[i])
    ensures forall name :: name != "satisfacao" && name != "tempo_resolucao" ==> Column(r, name) == Column(f, name)
  {
    var g := MapColumn(f, "satisfacao", c => AsGuardedSatisfaction(rt, c));
    MapColumn(g, "tempo_resolucao", AsNumber)
  }

  /** After coercion the four timestamp columns hold timestamps and the measures numbers. */
  predicate SupabaseCoerced(f: Frame) {
    && Coerced(f)
    && ("created_at" in f.columns ==> AllDates(Column(f, "created_at").value))
    && ("updated_at" in f.columns ==> AllDates(Column(f, "updated_at").value))
  }

  /**
   * `_convert_data_types`: the columns keep their labels and order, the known
   * columns are coerced cell by cell, every other column is left alone.
   */
  function SupabaseConvert(rt: Runtime, f: Frame): (r: Frame)
    ensures r.columns == f.columns && |r.rows| == |f.rows|
    ensures SupabaseCoerced(r)
    ensures forall name :: name in SupabaseDateFields && name in f.columns ==> forall i :: 0 <= i < |f.rows| ==>
      Column(r, name).value[i] == AsDate(rt, Column(f, name).value[i])
    ensures "satisfacao" in f.columns ==> forall i :: 0 <= i < |f.rows| ==>
      Column(r, "satisfacao").value[i] == AsGuardedSatisfaction(rt, Column(f, "satisfacao").value[i])
    ensures "tempo_resolucao" in f.columns ==> forall i :: 0 <= i < |f.rows| ==>
      Column(r, "tempo_resolucao").value[i] == AsNumber(Column(f, "tempo_resolucao").value[i])
    ensures forall name :: name !in SupabaseDateFields && name != "satisfacao" && name != "tempo_resolucao" ==>
      Column(r, name) == Column(f, name)
  {
    var g := CoerceDates(rt, f);
    var r := CoerceMeasures(rt, g);
    SupabaseConverted(rt, f, g, r);
    r
  }

  lemma SupabaseConverted(rt: Runtime, f: Frame, g: Frame, r: Frame)
    requires g == CoerceDates(rt, f) && r == CoerceMeasures(rt, g)
    ensures SupabaseCoerced(r)
    ensures forall name :: name in SupabaseDateFields && name in f.columns ==> forall i :: 0 <= i < |f.rows| ==>
      Column(r, name).value[i] == AsDate(rt, Column(f, name).value[i])
    ensures "satisfacao" in f.columns ==> forall i :: 0 <= i < |f.rows| ==>
      Column(r, "satisfacao").value[i] == AsGuardedSatisfaction(rt, Column(f, "satisfacao").value[i])
    ensures "tempo_resolucao" in f.columns ==> forall i :: 0 <= i < |f.rows| ==>
      Column(r, "tempo_resolucao").value[i] == AsNumber(Column(f, "tempo_resolucao").value[i])
    ensures forall name :: name !in SupabaseDateFields && name != "satisfacao" && name != "tempo_resolucao" ==>
      Column(r, name) == Column(f, name)
  {
    ConvertedDates(rt, f, g, r);
    ConvertedMeasures(rt, f, g, r);
  }

  lemma ConvertedDates(rt: Runtime, f: Frame, g: Frame, r: Frame)
    requires g == CoerceDates(rt, f) && r == CoerceMeasures(rt, g)
    ensures forall name :: name in SupabaseDateFields && name in f.columns ==> forall i :: 0 <= i < |f.rows| ==>
      Column(r, name).value[i] == AsDate(rt, Column(f, name).value[i])
    ensures forall name :: name in SupabaseDateFields && name in r.columns ==> AllDates(Column(r, name).value)
  {
    forall name | name in SupabaseDateFields ensures Column(r, name) == Column(g, name) {
    }
    forall name | name in SupabaseDateFields && name in r.columns ensures AllDates(Column(r, name).value) {
      DatesCoerced(rt, f, g, r, name);
    }
  }

  lemma ConvertedMeasures(rt: Runtime, f: Frame, g: Frame, r: Frame)
    requires g == CoerceDates(rt, f) && r == CoerceMeasures(rt, g)
    ensures "satisfacao" in f.columns ==> forall i :: 0 <= i < |f.rows| ==>
      Column(r, "satisfacao").value[i] == AsGuardedSatisfaction(rt, Column(f, "satisfacao").value[i])
    ensures "tempo_resolucao" in f.columns ==> forall i :: 0 <= i < |f.rows| ==>
      Column(r, "tempo_resolucao").value[i] == AsNumber(Column(f, "tempo_resolucao").value[i])
    ensures "satisfacao" in r.columns ==> AllNumbers(Column(r, "satisfacao").value)
    ensures "tempo_resolucao" in r.columns ==> AllNumbers(Column(r, "tempo_resolucao").value)
    ensures forall name :: name !in SupabaseDateFields && name != "satisfacao" && name != "tempo_resolucao" ==>
      Column(r, name) == Column(f, name)
  {
    assert Column(g, "satisfacao") == Column(f, "satisfacao");
    assert Column(g, "tempo_resolucao") == Column(f, "tempo_resolucao");
  }

  lemma DatesCoerced(rt: Runtime, f: Frame, g: Frame, r: Frame, name: string)
    requires g == CoerceDates(rt, f) && r.columns == g.columns && Column(r, name) == Column(g, name)
    requires name in SupabaseDateFields && name in r.columns
    ensures AllDates(Column(r, name).value)
  {
    var col := Column(r, name).value;
    forall i | 0 <= i < |col| ensures col[i].Missing? || col[i].Time? {
      assert col[i] == AsDate(rt, Column(f, name).value[i]);
    }
  }

  // ---------------------------------------------------------------------------
  // Table order: newest opening date first, rows without a date last

  /** Row positions `0 .. n-1`. */
  function Positions(n: nat): (r: seq<nat>)
    ensures |r| == n && forall i :: 0 <= i < n ==> r[i] == i
  {
    seq(n, i requires 0 <= i < n => i)
  }

  predicate Increasing(s: seq<nat>) {
    forall i, j :: 0 <= i < j < |s| ==> s[i] < s[j]
  }

  /** Row `k` has an opening timestamp. */
  predicate Dated(col: seq<Cell>, k: nat) {
    k < |col| && col[k].Time?
  }

  /** The sort key of row `k`: its opening time in seconds. */
  function DateKey(col: seq<Cell>): nat -> real {
    (k: nat) => if k < |col| && col[k].Time? then col[k].t.seconds as real else 0.0
  }

  /** Rows `k` and `m` tie: both without a date, or both opened at the same time. */
  predicate SameDate(col: seq<Cell>, k: nat, m: nat) {
    Dated(col, k) == Dated(col, m) && (Dated(col, k) ==> col[k].t == col[m].t)
  }

  /** The positions of `idx` that are (or are not) dated, in their order in `idx`. */
  function Where(col: seq<Cell>, idx: seq<nat>, dated: bool): (r: seq<nat>)
    ensures |r| <= |idx|
    ensures forall k :: k in r <==> k in idx && Dated(col, k) == dated
    ensures forall i :: 0 <= i < |r| ==> Dated(col, r[i]) == dated
  {
    if idx == [] then []
    else
      assert idx == [idx[0]] + idx[1..];
      (if Dated(col, idx[0]) == dated then [idx[0]] else []) + Where(col, idx[1..], dated)
  }

  lemma {:induction false} WherePartition(col: seq<Cell>, idx: seq<nat>)
    ensures multiset(Where(col, idx, true)) + multiset(Where(col, idx, false)) == multiset(idx)
  {
    if idx != [] {
      var x, tl := idx[0], idx[1..];
      WherePartition(col, tl);
      assert idx == [x] + tl;
      assert Where(col, idx, true) == (if Dated(col, x) then [x] else []) + Where(col, tl, true);
      assert Where(col, idx, false) == (if !Dated(col, x) then [x] else []) + Where(col, tl, false);
      assert multiset(idx) == multiset{x} + multiset(tl);
    }
  }

  lemma {:induction false} WhereIncreasing(col: seq<Cell>, idx: seq<nat>, dated: bool)
    requires Increasing(idx)
    ensures Increasing(Where(col, idx, dated))
  {
    if idx != [] {
      var tl := idx[1..];
      WhereIncreasing(col, tl, dated);
      var rest := Where(col, tl, dated);
      forall y | y in rest ensures idx[0] < y {
        var j :| 0 <= j < |tl| && tl[j] == y;
        assert idx[j + 1] == y;
      }
    }
  }

  /** Positions of equal key keep their relative order. */
  predicate TiesIncreasing(s: seq<nat>, key: nat -> real) {
    forall i, j :: 0 <= i < j < |s| && key(s[i]) == key(s[j]) ==> s[i] < s[j]
  }

  /** Inserting a position smaller than all others keeps ties in increasing order. */
  lemma {:induction false} InsertTies(x: nat, t: seq<nat>, key: nat -> real)
    requires SortedDesc(t, key) && TiesIncreasing(t, key)
    requires forall y :: y in t ==> x < y
    ensures TiesIncreasing(Insert(x, t, key), key)
  {
    var r := Insert(x, t, key);
    if t != [] && key(t[0]) > key(x) {
      var tl := t[1..];
      TailOrdered(t, key);
      assert forall y :: y in tl ==> y in t;
      InsertTies(x, tl, key);
      var rest := Insert(x, tl, key);
      assert r == [t[0]] + rest;
      InsertMembers(x, tl, key);
      forall y | y in rest && key(y) == key(t[0]) ensures t[0] < y {
        if y != x {
          var m :| 0 <= m < |tl| && tl[m] == y;
          assert t[m + 1] == y;
        }
      }
      ConsTies(t[0], rest, key);
    } else {
      assert r == [x] + t;
      ConsTies(x, t, key);
    }
  }

  /** A head smaller than every later position of the same key keeps ties in increasing order. */
  lemma ConsTies(h: nat, rest: seq<nat>, key: nat -> real)
    requires TiesIncreasing(rest, key)
    requires forall y :: y in rest && key(y) == key(h) ==> h < y
    ensures TiesIncreasing([h] + rest, key)
  {
    var s := [h] + rest;
    forall i, j | 0 <= i < j < |s| && key(s[i]) == key(s[j]) ensures s[i] < s[j] {
      assert s[j] == rest[j - 1];
      if i > 0 {
        assert s[i] == rest[i - 1];
      } else {
        assert s[j] in rest;
      }
    }
  }

  lemma TailOrdered(t: seq<nat>, key: nat -> real)
    requires t != [] && SortedDesc(t, key) && TiesIncreasing(t, key)
    ensures SortedDesc(t[1..], key) && TiesIncreasing(t[1..], key)
  {
    var tl := t[1..];
    forall i, j | 0 <= i < j < |tl| ensures key(tl[i]) >= key(tl[j]) {
      assert tl[i] == t[i + 1] && tl[j] == t[j + 1];
    }
    forall i, j | 0 <= i < j < |tl| && key(tl[i]) == key(tl[j]) ensures tl[i] < tl[j] {
      assert tl[i] == t[i + 1] && tl[j] == t[j + 1];
    }
  }

  lemma InsertMembers<T>(x: T, t: seq<T>, key: T -> real)
    ensures forall y :: y in Insert(x, t, key) ==> y == x || y in t
  {
    var r := Insert(x, t, key);
    forall y | y in r ensures y == x || y in t {
      assert y in multiset(r);
    }
  }

  /** The stable sort of increasing positions lists equal keys in increasing order. */
  lemma {:induction false} SortTies(s: seq<nat>, key: nat -> real)
    requires Increasing(s)
    ensures TiesIncreasing(SortDesc(s, key), key)
  {
    if s != [] {
      var tl := s[1..];
      SortTies(tl, key);
      SortDescCorrect(tl, key);
      var sorted := SortDesc(tl, key);
      forall y | y in sorted ensures s[0] < y {
        assert y in multiset(sorted);
        assert y in multiset(tl);
        var j :| 0 <= j < |tl| && tl[j] == y;
        assert s[j + 1] == y;
      }
      InsertTies(s[0], sorted, key);
    }
  }

  /**
   * `sort_values('data_abertura', ascending=False)` on a column of opening
   * dates: the dated rows from the newest to the oldest, then the rows
   * without a date, each group keeping the original order among ties.
   */
  function RowOrder(col: seq<Cell>): (r: seq<nat>)
    ensures |r| == |col|
    ensures forall i :: 0 <= i < |r| ==> r[i] < |col|
  {
    var r := SortDesc(Where(col, Positions(|col|), true), DateKey(col)) + Where(col, Positions(|col|), false);
    RowOrderCorrect(col);
    r
  }

  lemma RowOrderCorrect(col: seq<Cell>)
    ensures var r := SortDesc(Where(col, Positions(|col|), true), DateKey(col)) + Where(col, Positions(|col|), false);
      && |r| == |col| && multiset(r) == multiset(Positions(|col|))
      && (forall i :: 0 <= i < |r| ==> r[i] < |col|)
  {
    var p := Positions(|col|);
    var d := Where(col, p, true);
    var u := Where(col, p, false);
    var s := SortDesc(d, DateKey(col));
    var r := s + u;
    WherePartition(col, p);
    assert multiset(r) == multiset(p);
    assert |multiset(r)| == |multiset(p)|;
    forall i | 0 <= i < |r| ensures r[i] < |col| {
      assert r[i] in multiset(r);
      assert r[i] in p;
    }
  }

  /**
   * The order is a permutation of the rows; a dated row is preceded only by
   * dated rows opened no earlier; rows that tie keep their original order.
   */
  lemma RowOrderSorted(col: seq<Cell>)
    ensures var r := RowOrder(col);
      && multiset(r) == multiset(Positions(|col|))
      && (forall i, j :: 0 <= i < j < |r| && Dated(col, r[j]) ==>
            Dated(col, r[i]) && col[r[i]].t.seconds >= col[r[j]].t.seconds)
      && (forall i, j :: 0 <= i < j < |r| && SameDate(col, r[i], r[j]) ==> r[i] < r[j])
  {
    RowOrderCorrect(col);
    var p := Positions(|col|);
    var key := DateKey(col);
    var d := Where(col, p, true);
    var u := Where(col, p, false);
    var s := SortDesc(d, key);
    SortDescCorrect(d, key);
    WhereIncreasing(col, p, false);
    assert Increasing(p);
    WhereIncreasing(col, p, true);
    SortTies(d, key);
    forall i | 0 <= i < |s| ensures Dated(col, s[i]) {
      assert s[i] in multiset(d);
      assert s[i] in d;
    }
    OrderedConcat(col, s, u);
  }

  /** Dated rows sorted newest first followed by undated rows in order satisfy both ordering facts. */
  lemma OrderedConcat(col: seq<Cell>, s: seq<nat>, u: seq<nat>)
    requires forall i :: 0 <= i < |s| ==> Dated(col, s[i])
    requires forall i :: 0 <= i < |u| ==> !Dated(col, u[i])
    requires SortedDesc(s, DateKey(col)) && TiesIncreasing(s, DateKey(col)) && Increasing(u)
    ensures var r := s + u;
      && (forall i, j :: 0 <= i < j < |r| && Dated(col, r[j]) ==>
            Dated(col, r[i]) && col[r[i]].t.seconds >= col[r[j]].t.seconds)
      && (forall i, j :: 0 <= i < j < |r| && SameDate(col, r[i], r[j]) ==> r[i] < r[j])
  {
    var r := s + u;
    var key := DateKey(col);
    assert forall i :: 0 <= i < |s| ==> r[i] == s[i];
    assert forall j :: |s| <= j < |r| ==> r[j] == u[j - |s|];
    forall i, j | 0 <= i < j < |r| && Dated(col, r[j])
      ensures Dated(col, r[i]) && col[r[i]].t.seconds >= col[r[j]].t.seconds
    {
      assert key(s[i]) >= key(s[j]);
    }
    forall i, j | 0 <= i < j < |r| && SameDate(col, r[i], r[j]) ensures r[i] < r[j] {
      if j < |s| {
        assert key(s[i]) == key(s[j]);
      } else if i >= |s| {
        assert r[i] == u[i - |s|] && r[j] == u[j - |s|];
      }
    }
  }

  /** The order `tabela` lists rows in: by opening date when that column exists, else as fetched. */
  function TableOrder(f: Frame): (r: seq<nat>)
    ensures |r| == |f.rows|
    ensures forall i :: 0 <= i < |r| ==> r[i] < |f.rows|
  {
    match Column(f, "data_abertura")
    case None => Positions(|f.rows|)
    case Some(col) => RowOrder(col)
  }

  // ---------------------------------------------------------------------------
  // Metrics

  /** `astype(str).str.lower().str.strip()` of one status cell: always text, "nan" for a missing one. */
  function StatusText(rt: Runtime, c: Cell): Cell {
    Str(LowerStrip(Python, PyStr(rt, c)))
  }

  /** A missing status reads "nan" and so is counted neither open nor closed. */
  lemma MissingStatusUncounted(rt: Runtime)
    ensures StatusText(rt, Missing).s !in OpenStatuses && StatusText(rt, Missing).s !in ClosedStatuses
  {
    NanStatusText(rt);
    ShortUncounted("nan");
  }

  lemma NanStatusText(rt: Runtime)
    ensures StatusText(rt, Missing) == Str("nan")
  {
    NanFixed();
  }

  /** No text of three characters or fewer is a status of either bucket. */
  lemma ShortUncounted(k: string)
    requires |k| <= 3
    ensures k !in OpenStatuses && k !in ClosedStatuses
  {
    assert forall b :: b in OpenStatuses || b in ClosedStatuses ==> |b| > 3;
  }

  /** The id of a row: `id_chamado`, else `id`, else "N/A". */
  function RowId(f: Frame, i: nat): (r: Cell)
    requires i < |f.rows|
    ensures "id_chamado" in f.columns ==> r == Column(f, "id_chamado").value[i]
    ensures "id_chamado" !in f.columns && "id" in f.columns ==> r == Column(f, "id").value[i]
    ensures "id_chamado" !in f.columns && "id" !in f.columns ==> r == Str("N/A")
  {
    Get(f, i, "id_chamado", Get(f, i, "id", Str("N/A")))
  }

  /** Rows kept in `tabela`. */
  const SupabaseTableLimit: nat := 100

  /** `head(100)` of the ordered rows, one entry per row. */
  function SupabaseTable(f: Frame): (t: seq<Entry>)
    ensures |t| == if |f.rows| < SupabaseTableLimit then |f.rows| else SupabaseTableLimit
    ensures forall k :: 0 <= k < |t| ==> t[k] == EntryOf(f, TableOrder(f)[k], RowId(f, TableOrder(f)[k]))
  {
    var order := TableOrder(f);
    var n := if |f.rows| < SupabaseTableLimit then |f.rows| else SupabaseTableLimit;
    seq(n, k requires 0 <= k < n => EntryOf(f, order[k], RowId(f, order[k])))
  }

  const SupabaseTechnicianEnding: string := " chamados."

  const SupabaseInsightErrors: Insights := Insights("Erro na an\U{E1}lise", "Erro na an\U{E1}lise", "Erro na an\U{E1}lise")

  const SupabaseSource: string := "Supabase"

  /** `_generate_insights`: the error triple when the category step raises. */
  function SupabaseInsights(rt: Runtime, f: Frame, byTechnician: Freq<Cell>, byCategory: Freq<Cell>): (r: Insights)
    ensures CategoryText(rt, byCategory).Some? ==>
      r == Insights(TechnicianText(rt, byTechnician, SupabaseTechnicianEnding),
                    CategoryText(rt, byCategory).value,
                    SatisfactionText(rt, SatisfactionMean(f)))
    ensures CategoryText(rt, byCategory).None? ==> r == SupabaseInsightErrors
  {
    match CategoryText(rt, byCategory)
    case None => SupabaseInsightErrors
    case Some(category) =>
      Insights(TechnicianText(rt, byTechnician, SupabaseTechnicianEnding), category, SatisfactionText(rt, SatisfactionMean(f)))
  }

  /** The frame with its status column turned into normalised text. */
  function StatusAsText(rt: Runtime, f: Frame): (g: Frame)
    ensures g.columns == f.columns && |g.rows| == |f.rows|
    ensures forall name :: name != "status" ==> Column(g, name) == Column(f, name)
    ensures "status" in f.columns ==> forall i :: 0 <= i < |f.rows| ==>
      Column(g, "status").value[i] == StatusText(rt, Column(f, "status").value[i])
  {
    MapColumn(f, "status", c => StatusText(rt, c))
  }

  /**
   * `_calculate_metrics` on a coerced frame. With a `status` column every
   * status is turned into lowercase stripped text and counted against the two
   * buckets; without one every row counts as closed. The only step that can
   * raise is the `.str` accessor on a repeated `status` label, and then the
   * failure report (tagged with the source) is returned.
   */
  function SupabaseMetrics(rt: Runtime, f: Frame): (r: Report)
    ensures r.total == |f.rows| && r.open + r.closed <= r.total
    ensures r.source == Some(SupabaseSource)
    ensures Repeated(f.columns, "status") ==> r == FailureReport(|f.rows|, Some(SupabaseSource))
    ensures "status" !in f.columns ==> r.open == 0 && r.closed == |f.rows|
    ensures !Repeated(f.columns, "status") ==>
      |r.table| == if |f.rows| < SupabaseTableLimit then |f.rows| else SupabaseTableLimit
  {
    if Repeated(f.columns, "status") then FailureReport(|f.rows|, Some(SupabaseSource))
    else SupabaseComputed(rt, f)
  }

  /** The body of `_calculate_metrics` when nothing raises. */
  function SupabaseComputed(rt: Runtime, f: Frame): (r: Report)
    ensures r.total == |f.rows| && r.open + r.closed <= r.total
    ensures r.source == Some(SupabaseSource)
    ensures "status" !in f.columns ==> r.open == 0 && r.closed == |f.rows|
    ensures r.table == SupabaseTable(StatusAsText(rt, f))
  {
    var n := |f.rows|;
    var g := StatusAsText(rt, f);
    var st := Column(g, "status").GetOr([]);
    StatusBucketsDisjoint();
    DisjointBucketsBounded(st, OpenStatuses, ClosedStatuses);
    var open: nat := if "status" in f.columns then CountStatus(st, OpenStatuses) else 0;
    var closed: nat := if "status" in f.columns then CountStatus(st, ClosedStatuses) else n;
    var byTechnician := ColumnCounts(f, "tecnico");
    var byCategory := ColumnCounts(f, "categoria");
    Report(n, open, closed, HoursText(rt, MeanResolutionHours(f)), byTechnician, byCategory,
      SupabaseTable(g), SupabaseInsights(rt, f, byTechnician, byCategory), Some(SupabaseSource))
  }

  /**
   * With a status column, the open and closed counts are the numbers of rows
   * whose status, as lowercase stripped text, falls in each bucket.
   */
  lemma SupabaseStatusCounts(rt: Runtime, f: Frame)
    requires "status" in f.columns && !Repeated(f.columns, "status")
    ensures var st := seq(|f.rows|, i requires 0 <= i < |f.rows| => StatusText(rt, Column(f, "status").value[i]));
      && SupabaseMetrics(rt, f).open == CountStatus(st, OpenStatuses)
      && SupabaseMetrics(rt, f).closed == CountStatus(st, ClosedStatuses)
  {
    var g := StatusAsText(rt, f);
    var st := seq(|f.rows|, i requires 0 <= i < |f.rows| => StatusText(rt, Column(f, "status").value[i]));
    assert Column(g, "status").value == st;
  }

  /**
   * Entry `k` of `tabela` describes row `TableOrder(f)[k]`: its id (from
   * `id_chamado`, else `id`), technician, category and satisfaction, and its
   * status as normalised text.
   */
  lemma SupabaseTableRows(rt: Runtime, f: Frame, k: nat)
    requires !Repeated(f.columns, "status") && k < |SupabaseMetrics(rt, f).table|
    ensures k < |TableOrder(f)|
    ensures var i := TableOrder(f)[k]; var e := SupabaseMetrics(rt, f).table[k];
      && i < |f.rows|
      && e.id == RowId(f, i)
      && e.tecnico == Get(f, i, "tecnico", Str("N/A"))
      && e.categoria == Get(f, i, "categoria", Str("N/A"))
      && e.satisfacao == Get(f, i, "satisfacao", Str("N/A"))
      && e.status == (if "status" in f.columns then StatusText(rt, Column(f, "status").value[i]) else Str("N/A"))
  {
    var g := StatusAsText(rt, f);
    assert SupabaseMetrics(rt, f).table == SupabaseTable(g);
    StatusAsTextEntry(rt, f, g, k);
  }

  lemma StatusAsTextEntry(rt: Runtime, f: Frame, g: Frame, k: nat)
    requires g == StatusAsText(rt, f) && k < |SupabaseTable(g)|
    ensures k < |TableOrder(f)|
    ensures var i := TableOrder(f)[k]; var e := SupabaseTable(g)[k];
      && i < |f.rows|
      && e.id == RowId(f, i)
      && e.tecnico == Get(f, i, "tecnico", Str("N/A"))
      && e.categoria == Get(f, i, "categoria", Str("N/A"))
      && e.satisfacao == Get(f, i, "satisfacao", Str("N/A"))
      && e.status == (if "status" in f.columns then StatusText(rt, Column(f, "status").value[i]) else Str("N/A"))
  {
    assert Column(g, "data_abertura") == Column(f, "data_abertura");
    assert TableOrder(g) == TableOrder(f);
    var i := TableOrder(f)[k];
    assert Column(g, "id_chamado") == Column(f, "id_chamado");
    assert Column(g, "id") == Column(f, "id");
    assert Column(g, "tecnico") == Column(f, "tecnico");
    assert Column(g, "categoria") == Column(f, "categoria");
    assert Column(g, "satisfacao") == Column(f, "satisfacao");
  }

  /**
   * `tabela` lists distinct rows, all of them when there are at most 100.
   * With an opening-date column it lists the newest first and undated rows
   * last, ties in fetch order, and no row left out is newer than a row kept;
   * without one it lists the first rows as fetched.
   */
  lemma SupabaseTableNewestFirst(f: Frame)
    ensures multiset(TableOrder(f)) == multiset(Positions(|f.rows|))
    ensures "data_abertura" !in f.columns ==> TableOrder(f) == Positions(|f.rows|)
    ensures "data_abertura" in f.columns ==> var col := Column(f, "data_abertura").value; var r := TableOrder(f);
      && (forall i, j :: 0 <= i < j < |r| && Dated(col, r[j]) ==>
            Dated(col, r[i]) && col[r[i]].t.seconds >= col[r[j]].t.seconds)
      && (forall i, j :: 0 <= i < j < |r| && SameDate(col, r[i], r[j]) ==> r[i] < r[j])
  {
    if "data_abertura" in f.columns {
      RowOrderSorted(Column(f, "data_abertura").value);
    }
  }

  /** A row left out of `tabela` is never newer than a row kept in it. */
  lemma SupabaseTableKeepsNewest(f: Frame, k: nat, j: nat)
    requires "data_abertura" in f.columns
    requires k < SupabaseTableLimit && k < |f.rows| && j < |f.rows|
    requires j !in Take(TableOrder(f), SupabaseTableLimit)
    ensures var col := Column(f, "data_abertura").value; var i := TableOrder(f)[k];
      Dated(col, j) ==> Dated(col, i) && col[i].t.seconds >= col[j].t.seconds
  {
    var r := TableOrder(f);
    SupabaseTableNewestFirst(f);
    assert Positions(|f.rows|)[j] == j;
    assert j in multiset(Positions(|f.rows|));
    assert j in r;
    var m :| 0 <= m < |r| && r[m] == j;
    assert m >= SupabaseTableLimit;
  }

  /** The insight step never takes its error path: column tables have positive totals. */
  lemma SupabaseInsightsNoError(rt: Runtime, f: Frame)
    requires !Repeated(f.columns, "status")
    ensures SupabaseMetrics(rt, f).insights != SupabaseInsightErrors
    ensures SupabaseMetrics(rt, f).insights.mainCategory == CategoryText(rt, ColumnCounts(f, "categoria")).value
  {
    CategoryInsightDefined(rt, f, "categoria");
  }

  /**
   * The technician insight names a technician who occurs at least as often as
   * any other, with that technician's number of rows.
   */
  lemma SupabaseTopTechnician(rt: Runtime, f: Frame)
    requires !Repeated(f.columns, "status") && "tecnico" in f.columns
    requires exists i :: 0 <= i < |f.rows| && !Column(f, "tecnico").value[i].Missing?
    ensures var col := Column(f, "tecnico").value;
      exists k :: k in col && !k.Missing?
        && (forall x :: x in col && !x.Missing? ==> Occurrences(PresentCells(col), x) <= Occurrences(PresentCells(col), k))
        && SupabaseMetrics(rt, f).insights.bestTechnician ==
             "\U{1F3C6} " + PyStr(rt, k) + " foi o t\U{E9}cnico mais produtivo com " +
             NatText(Occurrences(PresentCells(col), k)) + SupabaseTechnicianEnding
  {
    CategoryInsightDefined(rt, f, "categoria");
    TopTechnicianText(rt, f, SupabaseTechnicianEnding);
  }

  /** `process_chamados_data`: headers, coercion, metrics. */
  function SupabaseReport(rt: Runtime, f: Frame): (r: Report)
    ensures r.total == |f.rows| && r.open + r.closed <= r.total
    ensures r.source == Some(SupabaseSource)
    ensures |r.table| <= SupabaseTableLimit
  {
    SupabaseMetrics(rt, SupabaseConvert(rt, SupabaseHeaders(f)))
  }
}

=== FILE: syncdrive.dfy ===
/**
 * The Drive-to-Supabase sync job (api/sync_drive_to_supabase.py): header
 * normalisation and the twelve-field rename, coercion with the median rule
 * for minutes, and the cleaning of each record before the upsert. Reading the
 * sheet and the upsert itself are outside the model.
 */
module SyncDrive {

  import opened Options
  import opened Cells
  import opened Frequency
  import opened Frames
  import opened Headers
  import opened Reports
  import opened GoogleSheets

  // ---------------------------------------------------------------------------
  // Headers

  /** `map_columns`: normalisation, then the rename loop over the twelve fields. */
  function SyncHeaders(f: Frame): (r: Frame)
    ensures r.rows == f.rows && |r.columns| == |f.columns|
    ensures forall j :: 0 <= j < |f.columns| ==>
      r.columns[j] == Resolve(NormalizedLabels(f), SyncAliases, NormalizedLabels(f)[j])
  {
    SyncAliasesNonInterfering();
    RenameWith(f, SyncAliases)
  }

  /** Fields listed after a name that is none of their variants cannot claim it. */
  lemma {:induction false} ResolveIgnoresLater(cols: seq<string>, first: seq<Alias>, later: seq<Alias>, c: string)
    requires forall k :: 0 <= k < |later| ==> c !in later[k].variants
    ensures Resolve(cols, first + later, c) == Resolve(cols, first, c)
  {
    if first == [] {
      assert first + later == later;
      ResolveForeign(cols, later, c);
    } else {
      assert (first + later)[0] == first[0];
      assert (first + later)[1..] == first[1..] + later;
      ResolveIgnoresLater(cols, first[1..], later, c);
    }
  }

  /** The four fields the sync table adds to the spreadsheet's. */
  const ExtraAliases: seq<Alias> := SyncAliases[|SheetAliases|..]

  /**
   * The sync rename extends the spreadsheet's as written: a header that is
   * no spelling of the four added fields gets the same name from both.
   */
  lemma SyncExtendsSheet(f: Frame, j: nat)
    requires j < |f.columns|
    requires forall k :: 0 <= k < |ExtraAliases| ==> NormalizedLabels(f)[j] !in ExtraAliases[k].variants
    ensures SyncHeaders(f).columns[j] == SheetHeadersAsWritten(f).columns[j]
  {
    assert SyncAliases == SheetAliases + ExtraAliases;
    ResolveIgnoresLater(NormalizedLabels(f), SheetAliases, ExtraAliases, NormalizedLabels(f)[j]);
  }

  // ---------------------------------------------------------------------------
  // The median rule for the resolution time

  /** The column's median exceeds 100: the job then takes its values for minutes. */
  predicate LooksLikeMinutes(col: seq<Cell>) {
    var m := Median(Numbers(col));
    m.Some? && m.value > 100.0
  }

  /**
   * `tempo_resolucao` after `to_numeric`: divided by 60 as a whole when its
   * median is above 100, left alone otherwise.
   */
  function MinutesRule(col: seq<Cell>): (r: seq<Cell>)
    ensures |r| == |col|
    ensures LooksLikeMinutes(col) ==> forall i :: 0 <= i < |col| ==> r[i] == MinutesToHours(col[i])
    ensures !LooksLikeMinutes(col) ==> r == col
  {
    if LooksLikeMinutes(col) then seq(|col|, i requires 0 <= i < |col| => MinutesToHours(col[i])) else col
  }

  /**
   * The rule is decided by majority: more than half of the values above 100
   * converts the column, and a converted column had at least half of its
   * values above 100. A column with no numbers is never converted.
   */
  lemma MinutesRuleMajority(col: seq<Cell>)
    ensures Numbers(col) == [] ==> !LooksLikeMinutes(col)
    ensures Numbers(col) != [] && 2 * CountAbove(Numbers(col), 100.0) > |Numbers(col)| ==> LooksLikeMinutes(col)
    ensures LooksLikeMinutes(col) ==> 2 * CountAbove(Numbers(col), 100.0) >= |Numbers(col)|
  {
    if Numbers(col) != [] {
      MedianAbove(Numbers(col), 100.0);
    }
  }

  /** All or nothing: either every present value is divided by 60 or none is. */
  lemma {:induction false} MinutesRuleUniform(col: seq<Cell>, i: nat, j: nat)
    requires i < |col| && j < |col| && col[i].Num? && col[j].Num?
    ensures var r := MinutesRule(col);
      (r[i] == Num(col[i].x / 60.0) && r[j] == Num(col[j].x / 60.0)) || (r[i] == col[i] && r[j] == col[j])
  {
    var r := MinutesRule(col);
    if LooksLikeMinutes(col) {
      assert r[i] == MinutesToHours(col[i]) && r[j] == MinutesToHours(col[j]);
    } else {
      assert r == col;
    }
  }

  // ---------------------------------------------------------------------------
  // Type coercion

  /** The two dates and satisfaction coerced in place, missing satisfaction kept missing. */
  function SyncCoerceCommon(rt: Runtime, f: Frame): (r: Frame)
    ensures r.columns == f.columns && |r.rows| == |f.rows|
    ensures "data_abertura" in f.columns ==> forall i :: 0 <= i < |f.rows| ==>
      Column(r, "data_abertura").value[i] == AsDate(rt, Column(f, "data_abertura").value[i])
    ensures "data_fechamento" in f.columns ==> forall i :: 0 <= i < |f.rows| ==>
      Column(r, "data_fechamento").value[i] == AsDate(rt, Column(f, "data_fechamento").value[i])
    ensures "satisfacao" in f.columns ==> forall i :: 0 <= i < |f.rows| ==>
      Column(r, "satisfacao").value[i] == AsGuardedSatisfaction(rt, Column(f, "satisfacao").value[i])
    ensures forall name :: name != "data_abertura" && name != "data_fechamento" && name != "satisfacao" ==>
      Column(r, name) == Column(f, name)
  {
    var f1 := MapColumn(f, "data_abertura", c => AsDate(rt, c));
    var f2 := MapColumn(f1, "data_fechamento", c => AsDate(rt, c));
    MapColumn(f2, "satisfacao", c => AsGuardedSatisfaction(rt, c))
  }

  /** The resolution time coerced to numbers, then the median rule. */
  function SyncDuration(f: Frame): (r: Frame)
    ensures r.columns == f.columns && |r.rows| == |f.rows|
    ensures "tempo_resolucao" in f.columns ==>
      Column(r, "tempo_resolucao").value == MinutesRule(NumberColumn(Column(f, "tempo_resolucao").value))
    ensures forall name :: name != "tempo_resolucao" ==> Column(r, name) == Column(f, name)
  {
    match Column(f, "tempo_resolucao")
    case None => f
    case Some(raw) =>
      var g := MapColumn(f, "tempo_resolucao", AsNumber);
      var numbers := Column(g, "tempo_resolucao").value;
      assert numbers == NumberColumn(raw);
      if LooksLikeMinutes(numbers) then MapColumn(g, "tempo_resolucao", MinutesToHours) else g
  }

  /** `to_numeric` of every cell of a column. */
  function NumberColumn(col: seq<Cell>): (r: seq<Cell>)
    ensures |r| == |col| && forall i :: 0 <= i < |col| ==> r[i] == AsNumber(col[i])
  {
    seq(|col|, i requires 0 <= i < |col| => AsNumber(col[i]))
  }

  /** `convert_data_types` of the sync job. */
  function SyncConvert(rt: Runtime, f: Frame): (r: Frame)
    ensures r.columns == f.columns && |r.rows| == |f.rows|
    ensures Coerced(r)
    ensures "tempo_resolucao" in f.columns ==>
      Column(r, "tempo_resolucao").value == MinutesRule(NumberColumn(Column(f, "tempo_resolucao").value))
  {
    var g := SyncCoerceCommon(rt, f);
    var r := SyncDuration(g);
    SyncConverted(rt, f, g, r);
    r
  }

  lemma SyncConverted(rt: Runtime, f: Frame, g: Frame, r: Frame)
    requires g == SyncCoerceCommon(rt, f) && r == SyncDuration(g)
    ensures Coerced(r)
    ensures "tempo_resolucao" in f.columns ==>
      Column(r, "tempo_resolucao").value == MinutesRule(NumberColumn(Column(f, "tempo_resolucao").value))
  {
    assert Column(g, "tempo_resolucao") == Column(f, "tempo_resolucao");
    if "data_abertura" in r.columns {
      assert Column(r, "data_abertura") == Column(g, "data_abertura");
    }
    if "data_fechamento" in r.columns {
      assert Column(r, "data_fechamento") == Column(g, "data_fechamento");
    }
    if "satisfacao" in r.columns {
      assert Column(r, "satisfacao") == Column(g, "satisfacao");
    }
    if "tempo_resolucao" in r.columns {
      var col := Column(r, "tempo_resolucao").value;
      var numbers := NumberColumn(Column(g, "tempo_resolucao").value);
      assert AllNumbers(col) by {
        forall i | 0 <= i < |col| ensures col[i].Missing? || col[i].Num? {
          if LooksLikeMinutes(numbers) {
            assert col[i] == MinutesToHours(numbers[i]);
          } else {
            assert col[i] == numbers[i];
          }
        }
      }
    }
  }

  // ---------------------------------------------------------------------------
  // Records sent to the upsert

  /** A record of `to_dict('records')`: the column labels with the row's values, in column order. */
  type Record = seq<(string, Cell)>

  /** The cleaning of one value: NaN and NaT become None, timestamps their ISO text. */
  function CleanValue(rt: Runtime, c: Cell): (r: Cell)
    ensures r.Missing? <==> c.Missing?
    ensures !r.Time?
    ensures c.Time? ==> r == Str(rt.isoFormat(c.t))
    ensures c.Str? || c.Num? ==> r == c
  {
    match c
    case Time(t) => Str(rt.isoFormat(t))
    case _ => c
  }

  /** Cleaning a clean value changes nothing. */
  lemma CleanValueIdempotent(rt: Runtime, c: Cell)
    ensures CleanValue(rt, CleanValue(rt, c)) == CleanValue(rt, c)
  {
  }

  /** The record of row `i`. */
  function RecordOf(f: Frame, i: nat): (r: Record)
    requires i < |f.rows|
    ensures |r| == |f.columns|
    ensures forall j :: 0 <= j < |f.columns| ==> r[j] == (f.columns[j], CellAt(f.rows[i], j))
  {
    seq(|f.columns|, j requires 0 <= j < |f.columns| => (f.columns[j], CellAt(f.rows[i], j)))
  }

  /** The cleaning loop over one record: values cleaned, keys untouched. */
  function CleanRecord(rt: Runtime, rec: Record): (r: Record)
    ensures |r| == |rec|
    ensures forall j :: 0 <= j < |rec| ==> r[j].0 == rec[j].0 && r[j].1 == CleanValue(rt, rec[j].1)
  {
    seq(|rec|, j requires 0 <= j < |rec| => (rec[j].0, CleanValue(rt, rec[j].1)))
  }

  /** Keys of a record, in order. */
  function RecordKeys(rec: Record): (ks: seq<string>)
    ensures |ks| == |rec| && forall j :: 0 <= j < |rec| ==> ks[j] == rec[j].0
  {
    seq(|rec|, j requires 0 <= j < |rec| => rec[j].0)
  }

  /** The records of a frame after cleaning: one per row, in row order. */
  function SyncRecords(rt: Runtime, f: Frame): (r: seq<Record>)
    ensures |r| == |f.rows|
    ensures forall i :: 0 <= i < |f.rows| ==> r[i] == CleanRecord(rt, RecordOf(f, i))
  {
    seq(|f.rows|, i requires 0 <= i < |f.rows| => CleanRecord(rt, RecordOf(f, i)))
  }

  /**
   * Every cleaned record carries exactly the frame's labels as keys; a value
   * is None exactly where the cell was missing, no timestamp is left, and
   * text and numbers pass through unchanged.
   */
  lemma SyncRecordsClean(rt: Runtime, f: Frame, i: nat, j: nat)
    requires i < |f.rows| && j < |f.columns|
    ensures var rec := SyncRecords(rt, f)[i]; var c := CellAt(f.rows[i], j);
      && RecordKeys(rec) == f.columns
      && rec[j].0 == f.columns[j]
      && (rec[j].1.Missing? <==> c.Missing?)
      && !rec[j].1.Time?
      && (c.Str? || c.Num? ==> rec[j].1 == c)
      && (c.Time? ==> rec[j].1 == Str(rt.isoFormat(c.t)))
  {
    var rec := SyncRecords(rt, f)[i];
    assert rec == CleanRecord(rt, RecordOf(f, i));
  }

  /** The job up to the upsert: headers, coercion, cleaned records. */
  function SyncPayload(rt: Runtime, f: Frame): (r: seq<Record>)
    ensures |r| == |f.rows|
  {
    SyncRecords(rt, SyncConvert(rt, SyncHeaders(f)))
  }
}

=== FILE: text.dfy ===
/**
 * Character and string helpers shared by every stage of the ticket pipeline.
 *
 * The Python and JavaScript sources call `lower()`, `strip()`, `trim()`,
 * `includes`, `str.title()` and accent folding on full Unicode. This module
 * gives each of them an explicit, finite definition: ASCII plus the accented
 * Latin letters that Portuguese spreadsheet headers and labels use.
 */
module Text {

  import opened Options

  predicate IsDigit(c: char) { '0' <= c <= '9' }
  predicate IsAsciiLower(c: char) { 'a' <= c <= 'z' }
  predicate IsAsciiUpper(c: char) { 'A' <= c <= 'Z' }

  /** The characters the column-name regex `[a-z0-9]` accepts. */
  predicate IsSlugChar(c: char) { IsAsciiLower(c) || IsDigit(c) }

  /** Whose notion of a blank character a trim uses. */
  datatype Blanks =
    /** pandas' number parser: space, tab, line feed, vertical tab, form feed and carriage return. */
    | Ascii
    /** Python's `str.strip()` and `str.isspace()`. */
    | Python
    /** JavaScript's `trim()`, `parseFloat` and `parseInt`: white space and line terminators. */
    | JavaScript

  /**
   * The blank characters of each convention. All three share the ASCII
   * blanks; Python and JavaScript add the Unicode space separators and the
   * line and paragraph separators; Python alone adds the information
   * separators U+001C..U+001F and U+0085, JavaScript alone the byte order
   * mark U+FEFF.
   */
  predicate IsBlank(w: Blanks, c: char) {
    || c == ' ' || '\t' <= c <= '\r'
    || (w != Ascii && (c == '\U{A0}' || c == '\U{1680}' || '\U{2000}' <= c <= '\U{200A}'
                      || c == '\U{2028}' || c == '\U{2029}' || c == '\U{202F}' || c == '\U{205F}' || c == '\U{3000}'))
    || (w == Python && ('\U{1C}' <= c <= '\U{1F}' || c == '\U{85}'))
    || (w == JavaScript && c == '\U{FEFF}')
  }

  /** Combining diacritical marks U+0300..U+036F, the marks NFD/NFKD split off accented letters. */
  predicate IsCombiningMark(c: char) { '\U{300}' <= c <= '\U{36F}' }

  /** Index of `c` in `s`, if present. */
  function IndexOf(s: string, c: char): (r: Option<nat>)
    ensures r.Some? ==> r.value < |s| && s[r.value] == c
    ensures r.Some? ==> forall j :: 0 <= j < r.value ==> s[j] != c
    ensures r.None? <==> c !in s
  {
    if s == [] then None
    else if s[0] == c then Some(0)
    else match IndexOf(s[1..], c)
      case None => None
      case Some(i) => Some(i + 1)
  }

  /** Latin-1 uppercase letters À..Þ (without the multiplication sign), whose lowercase is 0x20 above. */
  predicate IsLatinUpper(c: char) { '\U{C0}' <= c <= '\U{DE}' && c != '\U{D7}' }
  /** Latin-1 lowercase letters à..þ (without the division sign), whose uppercase is 0x20 below. */
  predicate IsLatinLower(c: char) { '\U{E0}' <= c <= '\U{FE}' && c != '\U{F7}' }

  predicate IsUpper(c: char) { IsAsciiUpper(c) || IsLatinUpper(c) }
  predicate IsLower(c: char) { IsAsciiLower(c) || IsLatinLower(c) }
  predicate IsLetter(c: char) { IsUpper(c) || IsLower(c) }

  /** Lowercase of one character (`str.lower()` / `toLowerCase()` on the covered alphabet). */
  function LowerChar(c: char): (r: char)
    ensures !IsUpper(r)
    ensures IsLetter(c) <==> IsLetter(r)
  {
    if IsUpper(c) then c + (' ' as int) as char else c
  }

  /** Uppercase of one character, used by `str.title()`. */
  function UpperChar(c: char): (r: char)
    ensures !IsLower(r)
    ensures IsLetter(c) <==> IsLetter(r)
  {
    if IsLower(c) then c - (' ' as int) as char else c
  }

  function Lower(s: string): (r: string)
    ensures |r| == |s|
    ensures forall i :: 0 <= i < |s| ==> r[i] == LowerChar(s[i])
  {
    if s == [] then [] else [LowerChar(s[0])] + Lower(s[1..])
  }

  lemma LowerIdempotent(s: string)
    ensures Lower(Lower(s)) == Lower(s)
  {
  }

  /** Drops leading characters blank in the convention `w`. */
  function TrimStart(w: Blanks, s: string): (r: string)
    ensures |r| <= |s| && r == s[|s| - |r|..]
    ensures r == [] || !IsBlank(w, r[0])
    ensures forall i :: 0 <= i < |s| - |r| ==> IsBlank(w, s[i])
  {
    if s != [] && IsBlank(w, s[0]) then TrimStart(w, s[1..]) else s
  }

  /** Drops trailing characters blank in the convention `w`. */
  function TrimEnd(w: Blanks, s: string): (r: string)
    ensures |r| <= |s| && r == s[..|r|]
    ensures r == [] || !IsBlank(w, r[|r| - 1])
    ensures forall i :: |r| <= i < |s| ==> IsBlank(w, s[i])
  {
    if s != [] && IsBlank(w, s[|s| - 1]) then TrimEnd(w, s[..|s| - 1]) else s
  }

  /** Python's `str.strip()`, JavaScript's `String.prototype.trim()` and pandas' blank skipping, by `w`. */
  function Strip(w: Blanks, s: string): (r: string)
    ensures r == [] || (!IsBlank(w, r[0]) && !IsBlank(w, r[|r| - 1]))
  {
    TrimEnd(w, TrimStart(w, s))
  }

  lemma StripNoBlank(w: Blanks, s: string)
    requires forall i :: 0 <= i < |s| ==> !IsBlank(w, s[i])
    ensures Strip(w, s) == s
  {
  }

  /** `Strip` only removes characters: everything it keeps comes from its argument. */
  lemma StripKeeps(w: Blanks, s: string)
    ensures forall c :: c in Strip(w, s) ==> c in s
  {
    var t := TrimStart(w, s);
    var r := TrimEnd(w, t);
    forall c | c in r ensures c in s {
      var i :| 0 <= i < |r| && r[i] == c;
      assert t[i] == c;
      assert s[|s| - |t| + i] == c;
    }
  }

  /** A text with non-blank ends is its own `Strip`. */
  lemma StripFixed(w: Blanks, s: string)
    requires s == [] || (!IsBlank(w, s[0]) && !IsBlank(w, s[|s| - 1]))
    ensures Strip(w, s) == s
  {
    if s != [] {
      StripPadded(w, [], s, []);
      assert [] + s + [] == s;
    }
  }

  /** Blanks around a text with non-blank ends are exactly what `Strip` removes. */
  lemma StripPadded(w: Blanks, pre: string, core: string, post: string)
    requires forall i :: 0 <= i < |pre| ==> IsBlank(w, pre[i])
    requires forall i :: 0 <= i < |post| ==> IsBlank(w, post[i])
    requires core != [] && !IsBlank(w, core[0]) && !IsBlank(w, core[|core| - 1])
    ensures Strip(w, pre + core + post) == core
  {
    assert pre + core + post == pre + (core + post);
    TrimStartBlanks(w, pre, core + post);
    TrimEndBlanks(w, core, post);
  }

  lemma {:induction false} TrimStartBlanks(w: Blanks, pre: string, rest: string)
    requires forall i :: 0 <= i < |pre| ==> IsBlank(w, pre[i])
    requires rest == [] || !IsBlank(w, rest[0])
    ensures TrimStart(w, pre + rest) == rest
    decreases |pre|
  {
    if pre == [] {
      assert pre + rest == rest;
    } else {
      assert (pre + rest)[1..] == pre[1..] + rest;
      TrimStartBlanks(w, pre[1..], rest);
    }
  }

  lemma {:induction false} TrimEndBlanks(w: Blanks, rest: string, post: string)
    requires forall i :: 0 <= i < |post| ==> IsBlank(w, post[i])
    requires rest == [] || !IsBlank(w, rest[|rest| - 1])
    ensures TrimEnd(w, rest + post) == rest
    decreases |post|
  {
    if post == [] {
      assert rest + post == rest;
    } else {
      var init := post[..|post| - 1];
      assert (rest + post)[..|rest + post| - 1] == rest + init;
      TrimEndBlanks(w, rest, init);
    }
  }

  /** Python `s.lower().strip()` and JavaScript `s.toLowerCase().trim()`: lowercase, no surrounding blanks. */
  function LowerStrip(w: Blanks, s: string): (r: string)
    ensures r == [] || (!IsBlank(w, r[0]) && !IsBlank(w, r[|r| - 1]))
    ensures forall i :: 0 <= i < |r| ==> !IsUpper(r[i])
  {
    var l := Lower(s);
    StripKeeps(w, l);
    Strip(w, l)
  }

  /** A lowercase text with non-blank ends is left as it is. */
  lemma LowerStripFixed(w: Blanks, s: string)
    requires s == [] || (!IsBlank(w, s[0]) && !IsBlank(w, s[|s| - 1]))
    requires forall i :: 0 <= i < |s| ==> !IsUpper(s[i])
    ensures LowerStrip(w, s) == s
  {
    var l := Lower(s);
    forall i | 0 <= i < |s| ensures l[i] == s[i] {
      assert !IsUpper(s[i]);
    }
    assert l == s;
    StripFixed(w, s);
  }

  /** Lowercasing and stripping twice is lowercasing and stripping once. */
  lemma LowerStripIdempotent(w: Blanks, s: string)
    ensures LowerStrip(w, LowerStrip(w, s)) == LowerStrip(w, s)
  {
    LowerStripFixed(w, LowerStrip(w, s));
  }

  /** `sub` occurs in `s` starting at position `i`. */
  predicate OccursAt(s: string, sub: string, i: nat) {
    i + |sub| <= |s| && s[i..i + |sub|] == sub
  }

  /** JavaScript's `String.prototype.includes` and Python's `in` on strings. */
  ghost predicate Contains(s: string, sub: string) {
    exists i: nat :: OccursAt(s, sub, i)
  }

  /** An occurrence one position further in `s` is an occurrence in `s` without its first character. */
  lemma OccursShift(s: string, sub: string, i: nat)
    requires |s| > 0
    ensures OccursAt(s, sub, i + 1) <==> OccursAt(s[1..], sub, i)
  {
    if i + 1 + |sub| <= |s| {
      var a := s[i + 1..i + 1 + |sub|];
      var b := s[1..][i..i + |sub|];
      assert |a| == |b|;
      assert forall k :: 0 <= k < |a| ==> a[k] == s[i + 1 + k] == b[k];
      assert a == b;
    }
  }

  /** A decision procedure for `Contains`, scanning left to right. */
  function Includes(s: string, sub: string): (r: bool)
    ensures r <==> Contains(s, sub)
    decreases |s|
  {
    if |sub| > |s| then
      assert forall i: nat :: !OccursAt(s, sub, i);
      false
    else if s[..|sub|] == sub then
      assert OccursAt(s, sub, 0);
      true
    else
      var rest := Includes(s[1..], sub);
      assert !OccursAt(s, sub, 0);
      assert Contains(s, sub) ==> Contains(s[1..], sub) by {
        if Contains(s, sub) {
          var i: nat :| OccursAt(s, sub, i);
          assert i != 0;
          OccursShift(s, sub, i - 1);
          assert OccursAt(s[1..], sub, i - 1);
        }
      }
      assert Contains(s[1..], sub) ==> Contains(s, sub) by {
        if Contains(s[1..], sub) {
          var i: nat :| OccursAt(s[1..], sub, i);
          OccursShift(s, sub, i);
          assert OccursAt(s, sub, i + 1);
        }
      }
      rest
  }

  /** JavaScript's `s.replace(' ', '-')` with a string pattern: only the first occurrence changes. */
  function ReplaceFirst(s: string, from: char, to: char): (r: string)
    ensures |r| == |s|
    ensures from !in s ==> r == s
    ensures from in s ==>
      var k := IndexOf(s, from).value;
      r[k] == to && (forall j :: 0 <= j < |s| && j != k ==> r[j] == s[j])
  {
    match IndexOf(s, from)
    case None => s
    case Some(k) => s[..k] + [to] + s[k + 1..]
  }

  /**
   * Python's `str.title()` on the covered alphabet: a letter is uppercased when
   * the character before it is not a letter, and lowercased otherwise.
   */
  function Title(s: string): (r: string)
    ensures |r| == |s|
  {
    TitleFrom(s, false)
  }

  function TitleFrom(s: string, afterLetter: bool): (r: string)
    ensures |r| == |s|
    ensures forall i :: 0 <= i < |s| ==> (IsLetter(r[i]) <==> IsLetter(s[i]))
    ensures forall i :: 0 <= i < |s| && !IsLetter(s[i]) ==> r[i] == s[i]
    ensures forall i :: 0 <= i < |s| ==> LowerChar(r[i]) == LowerChar(s[i])
    ensures |s| > 0 && IsLetter(s[0]) ==> r[0] == if afterLetter then LowerChar(s[0]) else UpperChar(s[0])
    ensures forall i :: 0 < i < |s| && IsLetter(s[i]) ==> r[i] == if IsLetter(s[i - 1]) then LowerChar(s[i]) else UpperChar(s[i])
  {
    if s == [] then []
    else
      var c := if !IsLetter(s[0]) then s[0] else if afterLetter then LowerChar(s[0]) else UpperChar(s[0]);
      [c] + TitleFrom(s[1..], IsLetter(s[0]))
  }

  /** Title-casing changes only the case of letters: lowercasing undoes it. */
  lemma LowerOfTitle(s: string)
    ensures Lower(Title(s)) == Lower(s)
  {
    var a := Lower(Title(s));
    var b := Lower(s);
    assert forall i :: 0 <= i < |s| ==> a[i] == b[i];
  }

  /** "nan", Python's text for a missing number, has no blank and no capital. */
  lemma NanFixed()
    ensures Strip(Python, "nan") == "nan" && Lower("nan") == "nan" && LowerStrip(Python, "nan") == "nan"
  {
    var s := "nan";
    assert forall i :: 0 <= i < |s| ==> s[i] == 'n' || s[i] == 'a';
    StripNoBlank(Python, s);
    var l := Lower(s);
    assert l[0] == 'n' && l[1] == 'a' && l[2] == 'n';
    assert l == s;
    LowerStripFixed(Python, s);
  }

  /** Decimal rendering of a natural number, most significant digit first. */
  function NatText(n: nat): (r: string)
    ensures |r| >= 1
    ensures forall i :: 0 <= i < |r| ==> IsDigit(r[i])
    decreases n
  {
    if n < 10 then [DigitChar(n)] else NatText(n / 10) + [DigitChar(n % 10)]
  }

  function DigitChar(d: nat): (c: char)
    requires d < 10
    ensures IsDigit(c) && c as int - '0' as int == d
  {
    ('0' as int + d) as char
  }

  function DigitOf(c: char): nat
    requires IsDigit(c)
  {
    c as int - '0' as int
  }

  /** Value of a non-empty run of decimal digits. */
  function DigitsValue(s: string): nat
    requires forall i :: 0 <= i < |s| ==> IsDigit(s[i])
  {
    if s == [] then 0 else DigitsValue(s[..|s| - 1]) * 10 + DigitOf(s[|s| - 1])
  }

  lemma {:induction false} DigitsValueOfNatText(n: nat)
    ensures DigitsValue(NatText(n)) == n
    decreases n
  {
    if n >= 10 {
      var t := NatText(n / 10) + [DigitChar(n % 10)];
      assert t[..|t| - 1] == NatText(n / 10);
      DigitsValueOfNatText(n / 10);
    }
  }
}
